=== FILE: README.md ===
# AgriGrow front end: a Dafny model of its decision logic

AgriGrow is a React storefront for farm produce. It has a shop and a cart that
mirror a remote cart, admin pages for managing products, a blog, a chat contact
list, and a session store that guards the routes. Nearly all of it is markup.
This project models the parts that decide something:

- **Carts.** Both cart pages are modelled: the routed one and the older one.
  - The load-time validation filter.
  - The quantity update with its floor at 1.
  - Removal by sending quantity 0.
  - The guarded and the unguarded totals, and tax.
  - The checkout popup.
  - The best-effort clearing loop of the simulated payment.
  - The `addToCart` handler, which the page defines but never wires to any element.
- **Catalogue pages.** Both shop pages and both admin product pages:
  - the price range and the case-insensitive search;
  - nine items per page, the page count and next/previous;
  - the min ≤ max slider rule;
  - append, replace-by-id and delete-by-id.
- **Product cards.**
  - `truncateText` and the price label.
  - The check-then-post add to cart, which refuses a duplicate.
  - The quantity counter.
  - The missing-id guards.
- **Validators and filters.**
  - The sign-up rules in order, including the Gmail pattern.
  - The blog's search and category filter, and its badge lookup.
  - The chat sidebar's online-only filter and online count.
- **Session and access.**
  - The flag transitions of the auth store.
  - The route table of `App.jsx`.
  - The header's role-dependent links and buttons.

Modelling conventions:
- Every remote call appears as a parameter holding its outcome, `Ok(value)` or `Err(status)`.
- A handler returns the requests it sent as data, next to the new state.
- JavaScript behaviour the code relies on is written out explicitly:
  - `slice` with clamping;
  - `Math.min` of an empty list, which is `Infinity`;
  - truthiness of the empty string;
  - the `TypeError` thrown when a property of `null` is read.

Modules follow the source files:

| module | file |
|---|---|
| `CartLines`, `ShopCart`, `LegacyCart`, `CartVariants` | `src/pages/Shop/CartPage.jsx`, `src/pages/CartPage.jsx` |
| `Catalogue`, `Paging` | shared by the product pages |
| `ShopPage` | `src/pages/Shop/Shop.jsx` |
| `LegacyShop` | `src/pages/Shop.jsx` |
| `AdminProducts` | `src/pages/Admin/ProductPage.jsx` |
| `LegacyAdminProducts` | `src/pages/AdminPage/ProductPage.jsx` |
| `ProductCard` | `src/pages/Admin/Card/productCard.jsx` |
| `QuantityCard` | `src/pages/AdminPage/Card/productCard.jsx` |
| `SignUp` | `src/pages/Auth/SignUpPage.jsx` |
| `Blog` | `src/pages/Common/Blog.jsx` |
| `AuthStore` | `src/store/useAuthStore.js` |
| `Routes` | `src/App.jsx` |
| `Header` | `src/components/Header.jsx` |
| `Sidebar` | `src/pages/Chat/Sidebar.jsx` |
| `Seqs`, `Text`, `Outcomes` | helpers: `filter` as an order-preserving subsequence; ASCII `toLowerCase`, `includes` and `trim`; option and remote-outcome types |

Three cart behaviours are easy to misread, so the model states them outright:
- `updateQuantity` with a quantity below 1 returns early. It sends nothing and changes nothing, so it is not a removal (`CartLines.ZeroUpdateIsNotRemoval`).
- A failed cart load empties the cart on the routed cart page. The older page keeps it (`CartVariants.FailedLoadDiffers`).
- The quantity and remove handlers change the local cart only after their request succeeds. A failure leaves the cart unchanged.

Route paths are compared the way react-router compares them: letters in either case match, and trailing slashes are ignored (`Routes.RouteKey`).

## Model

| member | source | states |
|---|---|---|
| CartLines.Find | src/pages/Shop/CartPage.jsx:234-236 | `find`/`some` by product id yields the first matching line, or no match. It throws when it reaches a null product reference before any match. |
| CartLines.UpdateQuantity | src/pages/Shop/CartPage.jsx:57-82 | A quantity below 1 sends nothing and changes nothing. Otherwise exactly one update request is sent with the new quantity. On success every line of that product takes the new quantity, and all other lines stay as they were and where they were. A failure leaves the cart unchanged. |
| CartLines.RemoveFromCart | src/pages/Shop/CartPage.jsx:85-108 | Sends quantity 0 for the product. On success the cart becomes the order-preserving subsequence without that product's lines. Every other line is kept as many times as it occurred. A failure leaves the cart unchanged. |
| CartLines.UpdateQuantityIdempotent | src/pages/Shop/CartPage.jsx:70-76 | Repeating a successful update changes nothing further. |
| CartLines.UpdateQuantityLastWins | src/pages/Shop/CartPage.jsx:70-76 | Of two successful updates to one product, the later one determines the cart. |
| CartLines.ZeroUpdateIsNotRemoval | src/pages/Shop/CartPage.jsx:58-98 | Quantity 0 through the update handler is refused with no request, while the remove handler sends that same quantity and deletes the lines. |
| CartLines.RemoveAfterUpdate | src/pages/Shop/CartPage.jsx:70-99 | Removing a product after updating its quantity leaves the same cart as removing it directly. |
| CartLines.RemoveIdempotent | src/pages/Shop/CartPage.jsx:97-99 | Removing twice is removing once. |
| ShopCart.LoadCart | src/pages/Shop/CartPage.jsx:26-54 | Without a user id nothing is fetched. A successful fetch keeps exactly the lines whose product is an object with a truthy id, name and price, in their order and with their multiplicity. A failed fetch empties the cart. |
| ShopCart.CalculateCartTotal | src/pages/Shop/CartPage.jsx:111-121 | The left-to-right reduce from 0 equals the sum over the lines. Each line contributes quantity × price when its product is an object with a truthy price, and 0 otherwise. |
| ShopCart.CartTotalAppend | src/pages/Shop/CartPage.jsx:111-121 | The total of two carts laid end to end is the sum of their totals. |
| ShopCart.TotalIgnoresUnpriced | src/pages/Shop/CartPage.jsx:114-117 | Lines without an object product or with a zero price never change the total. |
| ShopCart.CartTotalNonNegative | src/pages/Shop/CartPage.jsx:111-121 | With non-negative quantities and prices, the total is non-negative. |
| ShopCart.Tax | src/pages/Shop/CartPage.jsx:455 | The tax line is one tenth of the subtotal. |
| ShopCart.GrandTotal | src/pages/Shop/CartPage.jsx:465 | The amount due, subtotal × 1.1, is the subtotal plus the tax line. |
| ShopCart.OpenCheckout | src/pages/Shop/CartPage.jsx:134-138 | Over a non-empty cart the checkout popup opens. Over an empty cart the popup stays as it was. No other flag changes. |
| ShopCart.CloseCheckout | src/pages/Shop/CartPage.jsx:198-201 | Closing the popup also clears the success flag. |
| ShopCart.CloseUndoesOpen | src/pages/Shop/CartPage.jsx:134-138 | Closing after opening is the same as closing alone. Opening twice is opening once. Reopening a closed popup succeeds exactly over a non-empty cart. |
| ShopCart.ClearFromSendsAll | src/pages/Shop/CartPage.jsx:152-165 | Without null references, the clearing loop sends one quantity-0 request per line in cart order, whichever requests are rejected. A null reference aborts the loop. |
| ShopCart.HandlePayment | src/pages/Shop/CartPage.jsx:141-193 | Success is shown before any clearing request, and the success flag stays set. Without a null reference, one request is sent per line, the cart is emptied, the order-placed toast shows, and the close timer is set. With one, the loop aborts and the warning call throws into the outer catch. The cart is kept, a payment-failed error shows, `processing` is cleared, and no close timer is set. |
| ShopCart.AbortedPaymentReportsFailure | src/pages/Shop/CartPage.jsx:171-192 | For a cart holding one line with a null product reference, the popup shows success while the page reports a failed payment, the cart stays, and the popup does not close by itself. On the page as shipped no such line can arise, so this path is latent. |
| ShopCart.HandlePaymentWithWarning | src/pages/Shop/CartPage.jsx:141-181 | Corrected: the payment always stays successful and the popup closes on its timer. An aborted loop keeps the cart and warns instead of reporting failure. |
| ShopCart.PaymentVersionsAgreeWithoutNull | src/pages/Shop/CartPage.jsx:152-181 | The two handlers agree exactly when the cart has no null product reference. |
| ShopCart.PaymentSendsRegardlessOfFailures | src/pages/Shop/CartPage.jsx:155-164 | Which clearing requests fail has no effect on which requests are sent, nor on the emptied cart. |
| ShopCart.AddToCart | src/pages/Shop/CartPage.jsx:222-268 | The handler is defined but not wired to any element. A product without an id is a no-op. A product already present gets one update request carrying the found line's quantity + 1, and on success only its lines go up by 1. An absent product gets a create request with quantity 1. If that succeeds, a fetch follows, and its lines replace the cart unfiltered. A throwing `find` changes nothing. |
| ShopCart.AddPresentOnlyIncrements | src/pages/Shop/CartPage.jsx:240-255 | Adding a product already in the cart raises only that product's lines by 1, and every other line is untouched. |
| ShopCart.AddToEmptyCart | src/pages/Shop/CartPage.jsx:256-268 | Adding to an empty cart sends a create request and then a fetch, and shows the server's cart. |
| LegacyCart.LoadCart | src/pages/CartPage.jsx:15-34 | A successful fetch replaces the cart unfiltered. A failed fetch keeps the cart as it was. |
| LegacyCart.UpdateQuantity | src/pages/CartPage.jsx:37-62 | Same contract as the routed page: a quantity below 1 is a no-op, and a success changes only the matching lines. |
| LegacyCart.RemoveFromCart | src/pages/CartPage.jsx:65-88 | Same contract as the routed page: sends quantity 0. On success it filters out exactly that product's lines, and every other line keeps its place and its number of occurrences. |
| LegacyCart.CartTotal | src/pages/CartPage.jsx:91-96 | The unguarded sum throws exactly when some line has a null reference. It is `NaN` exactly when there is no null reference and some line has a bare-id reference. |
| CartVariants.FailedLoadDiffers | src/pages/Shop/CartPage.jsx:42-45 | On a failed load the routed page empties the cart, while the older page keeps it. |
| CartVariants.LoadIsFilteredLegacyLoad | src/pages/Shop/CartPage.jsx:34-41 | A successful load on the routed page is the older page's load, passed through the validation filter. |
| CartVariants.TotalsAgreeOnPopulated | src/pages/CartPage.jsx:91-96 | When every line is populated, the unguarded sum is a number and equals the guarded total. |
| CartVariants.GuardedTotalSkipsUnpopulated | src/pages/Shop/CartPage.jsx:114 | The guarded total skips exactly the lines whose product is not an object. |
| CartVariants.GuardedTotalIsLegacyTotalOfPopulated | src/pages/Shop/CartPage.jsx:111-121 | The guarded total is the unguarded sum over the populated lines. |
| Catalogue.Search | src/pages/Admin/ProductPage.jsx:54-58 | The result is the order-preserving subsequence of products matching the term. Each match occurs as often as in the catalogue, and nothing else occurs. An empty term keeps everything. |
| Catalogue.MatchesSearchIffOccurs | src/pages/Shop/Shop.jsx:59-63 | A product matches a non-empty term iff the folded term occurs in the folded name or in the folded description. |
| Catalogue.SearchIgnoresTermCase | src/pages/Shop/Shop.jsx:61-62 | The search result does not depend on the case of the term. |
| Catalogue.Append | src/pages/Admin/ProductPage.jsx:123 | The created product is placed after every existing product, and nothing else moves. |
| Catalogue.RemoveById | src/pages/Admin/ProductPage.jsx:139 | Drops every product with the id. Every other product is kept in order, as many times as it occurred. |
| Catalogue.ReplaceById | src/pages/Admin/ProductPage.jsx:288-291 | Replaces each product with the updated one's id. Every other product stays where it was. |
| Catalogue.RemoveAfterReplace | src/pages/Admin/ProductPage.jsx:139-290 | Deleting a product after editing it gives the same list as deleting it unedited. |
| Catalogue.ReplaceIdempotent | src/pages/Admin/ProductPage.jsx:288-291 | Saving the same edit twice is saving it once. |
| Catalogue.RemoveUndoesAppend | src/pages/Admin/ProductPage.jsx:123-139 | Deleting a newly created product with a fresh id restores the list. |
| Paging.Slice | src/pages/Shop/Shop.jsx:66 | For non-negative bounds, `slice` is the sub-list between the clamped bounds. |
| Paging.PageOf | src/pages/Shop/Shop.jsx:66 | Page p ≥ 1 holds at most nine items. It is the slice starting at 9(p−1), or empty past the end. |
| Paging.TotalPages | src/pages/Shop/Shop.jsx:142 | The page count is the fewest pages of nine that hold every item. |
| Paging.PageNonEmptyIff | src/pages/Shop/Shop.jsx:66-142 | A page p ≥ 1 shows something iff p ≤ the page count. |
| Paging.PagesNonEmptyIff | src/pages/Shop/Shop.jsx:66-142 | The same for all pages at once: the non-empty pages are exactly 1 through the page count. |
| Paging.PagesArePrefix | src/pages/Shop/Shop.jsx:66 | The first k pages laid end to end are the first 9k items. |
| Paging.PagesCoverList | src/pages/Shop/Shop.jsx:66-142 | Pages 1 through the page count, laid end to end, are exactly the list. |
| Paging.NextPage | src/pages/Shop/Shop.jsx:145-149 | Next advances by one iff the current page is before the last, and it never passes the last page. |
| Paging.PrevPage | src/pages/Shop/Shop.jsx:151-155 | Previous goes back by one iff the current page is past the first, and it never goes below 1. |
| Paging.PageButtons | src/pages/Shop/Shop.jsx:371 | The buttons are 1 through the page count. |
| Paging.NavigationKeepsPageReachable | src/pages/Shop/Shop.jsx:145-155 | Next, previous and every page button keep the page reachable: between 1 and the page count, or 1 when there are no pages. |
| Paging.PrevUndoesNext | src/pages/Shop/Shop.jsx:145-155 | Before the last page, previous undoes next. |
| Paging.TotalPagesMonotone | src/pages/Shop/Shop.jsx:142 | More items never need fewer pages. |
| ShopPage.LowestPrice | src/pages/Shop/Shop.jsx:34-35 | `Math.min` of the prices is a price attained by some product, at most every price. For no products it is `Infinity`. |
| ShopPage.HighestPrice | src/pages/Shop/Shop.jsx:34-36 | `Math.max` of the prices is an attained price, at least every price. For no products it is `-Infinity`. |
| ShopPage.Filtered | src/pages/Shop/Shop.jsx:54-63 | The shown list is the order-preserving subsequence of products inside the applied range that match the term. Each such product occurs as often as in the catalogue, and nothing else occurs. |
| ShopPage.EmptySearchKeepsRange | src/pages/Shop/Shop.jsx:59-60 | With an empty term only the price test remains. |
| ShopPage.Paginated | src/pages/Shop/Shop.jsx:66 | A page shows at most nine products. |
| ShopPage.GoToNextPage | src/pages/Shop/Shop.jsx:145-149 | Only the page changes. It moves forward by one exactly when it is before the last page, and otherwise stays. |
| ShopPage.GoToPrevPage | src/pages/Shop/Shop.jsx:151-155 | Only the page changes. It moves back by one exactly when it is past page 1, and otherwise stays. |
| ShopPage.ChangeMinPrice | src/pages/Shop/Shop.jsx:96-102 | The lower slider takes a value only if it is not above the upper slider. Otherwise nothing changes. |
| ShopPage.ChangeMaxPrice | src/pages/Shop/Shop.jsx:104-110 | The upper slider takes a value only if it is not below the lower slider. |
| ShopPage.SliderChangesKeepOrder | src/pages/Shop/Shop.jsx:96-110 | Slider changes preserve lower ≤ upper. |
| ShopPage.ApplyPriceFilter | src/pages/Shop/Shop.jsx:69-74 | The sliders become the applied range and the page goes back to 1. Nothing else changes. |
| ShopPage.ResetFilters | src/pages/Shop/Shop.jsx:77-87 | Sliders and applied range become the lowest and highest price, and the page goes back to 1. |
| ShopPage.ResetShowsEverything | src/pages/Shop/Shop.jsx:77-87 | After a reset over a non-empty catalogue with no search term, the sliders are ordered and the whole catalogue is shown. |
| ShopPage.ResetOfEmptyCatalogueCrossesSliders | src/pages/Shop/Shop.jsx:78-80 | A reset over an empty catalogue leaves the sliders crossed, at `Infinity` and `-Infinity`. |
| ShopPage.ClearSearchKeepsPageReachable | src/pages/Shop/Shop.jsx:228 | Clearing the term never shortens the list, so a reachable page stays reachable without a page reset. |
| ShopPage.ChangeSearchShowsFirstMatches | src/pages/Shop/Shop.jsx:90-93 | After a new term the first nine matches are shown. |
| ShopPage.ChangeSearch | src/pages/Shop/Shop.jsx:90-93 | A new term goes back to page 1, which shows the first nine matches, each of them matching the term. Nothing else changes. |
| ShopPage.ClearSearch | src/pages/Shop/Shop.jsx:228 | Clearing the term keeps the page, and the list becomes every product in the applied range. |
| ShopPage.PageCount | src/pages/Shop/Shop.jsx:142 | The pages that show something are exactly 1 through the page count. |
| ShopPage.SelectPage | src/pages/Shop/Shop.jsx:371-379 | A page button sets a page between 1 and the page count. |
| ShopPage.LoadProducts | src/pages/Shop/Shop.jsx:26-51 | An array payload becomes the catalogue and sets sliders and applied range to its price extremes. Anything else changes nothing. |
| ShopPage.FirstLoadShowsCatalogue | src/pages/Shop/Shop.jsx:10-51 | The first load of a non-empty catalogue shows every product, spread over the pages. |
| LegacyShop.SearchResult | src/pages/Shop.jsx:48-55 | The order-preserving subsequence of products whose folded name contains the folded query, whose category is "All" or the selected one, and whose price is in the range. Each such product occurs as often as in the catalogue. |
| LegacyShop.HandleSearch | src/pages/Shop.jsx:48-58 | The stored list is recomputed from the applied range: the order-preserving subsequence of matching products, each as often as in the catalogue. The page goes back to 1, and nothing else changes. |
| LegacyShop.ApplyPriceFilterAsWritten | src/pages/Shop.jsx:60-64 | The applied range takes the sliders' values, but the list is searched with the range from before the click. |
| LegacyShop.ApplyPriceFilterAsWrittenShowsStaleRange | src/pages/Shop.jsx:60-64 | A product priced 50 stays listed after [0, 10] is applied. |
| LegacyShop.ApplyPriceFilter | src/pages/Shop.jsx:60-64 | Corrected: after applying, every listed product is inside the applied range. |
| LegacyShop.ApplyAgreesWhenRangeUnchanged | src/pages/Shop.jsx:60-64 | The written and corrected handlers agree when the sliders equal the applied range. |
| LegacyShop.CrossedSlidersListNothing | src/pages/Shop.jsx:111-123 | The lower slider can pass the upper one, and applying such a range lists nothing. |
| LegacyShop.SetLowSlider | src/pages/Shop.jsx:109-115 | The lower slider takes a value in [0, 100] and moves alone. The list and the applied range wait for Apply, which then lists nothing cheaper than the value. |
| LegacyShop.SetHighSlider | src/pages/Shop.jsx:117-123 | The upper slider's input starts at the lower value, so it never crosses the lower slider. The list waits for Apply, which then lists nothing dearer than the value. |
| LegacyShop.SelectCategory | src/pages/Shop.jsx:132-143 | Only the eight categories the sidebar lists can be chosen. Selecting a category leaves the list as it is. The next search lists only products of that category, unless it is "All". |
| LegacyShop.SetQuery | src/pages/Shop.jsx:153 | Typing leaves the list as it is. The next search lists only products whose folded name contains the folded query. |
| LegacyShop.SearchAfterCategoryKeepsOnlyIt | src/pages/Shop.jsx:138 | Selecting a category leaves the list alone. The next search keeps only that category. |
| LegacyShop.LoadProducts | src/pages/Shop.jsx:20-35 | An array payload becomes both the catalogue and the shown list. |
| LegacyShop.LoadThenSearchKeepsInitialRange | src/pages/Shop.jsx:8-26 | After the load every product is listed. A search with the initial settings keeps every product priced within [0, 100]. |
| LegacyShop.Paginated | src/pages/Shop.jsx:90-93 | A page shows at most nine products. |
| LegacyShop.Buttons | src/pages/Shop.jsx:185 | One button per page, numbered 1 through the page count. Together they cover the list, and every button's page is non-empty. |
| LegacyShop.SelectPage | src/pages/Shop.jsx:189 | A page button always lands on a non-empty page. |
| AdminProducts.FetchProducts | src/pages/Admin/ProductPage.jsx:27-51 | Without a user id nothing is requested and nothing changes. With one, that user's products are requested, and an array payload replaces the list. A failure or a non-array payload keeps the list. |
| AdminProducts.FetchAgainChangesNothing | src/pages/Admin/ProductPage.jsx:27-51 | Repeating a fetch that gets the same answer changes nothing. After a successful fetch the list is exactly the payload. |
| AdminProducts.FetchShowsPayload | src/pages/Admin/ProductPage.jsx:27-51 | With no search term, a successful fetch shows exactly its payload. |
| AdminProducts.OpenAddModal | src/pages/Admin/ProductPage.jsx:98-107 | Opens the dialog over an empty, incomplete form. |
| AdminProducts.Owner | src/pages/Admin/ProductPage.jsx:121 | The owner sent is the user id, or "Unknown" when there is none. It is never empty. |
| AdminProducts.AddProduct | src/pages/Admin/ProductPage.jsx:109-133 | An incomplete form sends nothing. Otherwise one create request is sent. On success the product is appended, the dialog closes and the form is cleared. A failure changes nothing. |
| AdminProducts.AddRightAfterOpenIsRefused | src/pages/Admin/ProductPage.jsx:98-114 | Submitting straight after opening the dialog is refused. |
| AdminProducts.DeleteProduct | src/pages/Admin/ProductPage.jsx:135-145 | One delete request. On success exactly the products with that id are dropped. A failure changes nothing. |
| AdminProducts.UpdateProduct | src/pages/Admin/ProductPage.jsx:288-291 | Every product with the saved product's id becomes the saved product. Every other product stays unchanged and in place, the length is kept, and the dialog and form are untouched. |
| AdminProducts.AddThenDeleteRestores | src/pages/Admin/ProductPage.jsx:123-139 | Adding and then deleting a product with a fresh id restores the list. |
| AdminProducts.Filtered | src/pages/Admin/ProductPage.jsx:54-58 | The shown products are the order-preserving subsequence of matches. Every match is shown as often as it is listed, and nothing else is shown. An empty term shows all. |
| AdminProducts.FilteredAfterAdd | src/pages/Admin/ProductPage.jsx:54-123 | A new product appears at the end of the search result iff it matches. |
| AdminProducts.Paginated | src/pages/Admin/ProductPage.jsx:61-64 | A page shows at most nine products. |
| AdminProducts.PageCount | src/pages/Admin/ProductPage.jsx:67 | The pages that show something are exactly 1 through the page count. |
| AdminProducts.GoToNextPage | src/pages/Admin/ProductPage.jsx:70-74 | Only the page changes. It moves forward by one exactly when it is before the last page. A reachable page stays reachable. |
| AdminProducts.GoToPrevPage | src/pages/Admin/ProductPage.jsx:76-80 | Only the page changes. It moves back by one exactly when it is past page 1. A reachable page stays reachable. |
| AdminProducts.SelectPage | src/pages/Admin/ProductPage.jsx:315-323 | A page button lands on a non-empty page. |
| AdminProducts.ChangeSearchAsWritten | src/pages/Admin/ProductPage.jsx:83-85 | As written: the term changes and the page is kept. |
| AdminProducts.SearchChangeStrandsPage | src/pages/Admin/ProductPage.jsx:83-85 | Take page 2 or later and a term with between one and nine matches. The grid then shows "No Products Found" although products match, and the pager that could go back is hidden. |
| AdminProducts.ChangeSearch | src/pages/Admin/ProductPage.jsx:83-85 | Corrected: a new term goes back to page 1. |
| AdminProducts.ChangeSearchShowsMatches | src/pages/Admin/ProductPage.jsx:264-301 | After the corrected change the page is reachable. The empty panel shows iff nothing matches. |
| AdminProducts.CardDeleteAsWritten | src/pages/Admin/ProductPage.jsx:135-145 | As wired, the card's delete request is followed by the page handler's second delete request for the same id. The list shrinks only if the second request succeeds. A missing id sends nothing. A failed first request sends only that request, and the page handler never runs. In both cases the list is kept. |
| AdminProducts.CardDeleteAsWrittenKeepsDeletedProduct | src/pages/Admin/ProductPage.jsx:293 | If the first delete succeeds and the second is refused, the deleted product stays listed. |
| AdminProducts.CardDelete | src/pages/Admin/ProductPage.jsx:135-145 | Corrected: one delete request, and the product is dropped locally when it succeeds. |
| AdminProducts.CardDeleteRemovesIffAccepted | src/pages/Admin/ProductPage.jsx:135-145 | After the corrected delete, no product with the id is listed iff the request succeeded. |
| AdminProducts.CardSave | src/pages/Admin/ProductPage.jsx:288-291 | With an id, one save request. On success the saved product takes its place. Otherwise nothing changes. |
| AdminProducts.SaveTwiceIsSaveOnce | src/pages/Admin/ProductPage.jsx:288-291 | Saving the same product twice gives the same list as saving once. |
| LegacyAdminProducts.FetchProducts | src/pages/AdminPage/ProductPage.jsx:22-46 | Without a user id nothing is fetched and the list is unchanged. With one, that user's products are requested and an array payload becomes the list. A failure or a non-array payload keeps the list. |
| LegacyAdminProducts.AddProduct | src/pages/AdminPage/ProductPage.jsx:70-94 | An incomplete form is refused with no request. A complete one sends one create request with the form and its owner. A success appends the product, closes the dialog and resets the form. A failure keeps everything. |
| LegacyAdminProducts.CardDelete | src/pages/AdminPage/ProductPage.jsx:96-106 | Same repeated delete as the newer page, with the same outcomes. A missing id or a failed first request keeps the list, with at most that one request sent. |
| LegacyAdminProducts.CardSave | src/pages/AdminPage/ProductPage.jsx:149-153 | The saved product replaces only the one with its id. |
| LegacyAdminProducts.SameAsNewerPageUnfiltered | src/pages/AdminPage/ProductPage.jsx:140-156 | This page lists what the newer page shows with an empty search. Up to nine products, that is its first page. |
| LegacyAdminProducts.AddButtonShown | src/pages/AdminPage/ProductPage.jsx:120 | The add button is drawn exactly for the users the product-manager route is open to, never for a signed-out visitor. |
| ProductCard.TruncateText | src/pages/Admin/Card/productCard.jsx:9-12 | A falsy text gives "". A text no longer than the maximum is kept. A longer one becomes its first `max` characters plus "...". The result is never longer than max + 3. |
| ProductCard.CardTitle | src/pages/Admin/Card/productCard.jsx:159 | A name of at most 35 characters is kept. A longer one becomes its first 35 characters followed by "...". |
| ProductCard.TruncateKeepsTextIff | src/pages/Admin/Card/productCard.jsx:11 | Truncation returns the text unchanged iff it is short enough, or it is exactly three longer and already ends in "...". |
| ProductCard.TruncatedIsPrefix | src/pages/Admin/Card/productCard.jsx:11 | Without its "...", a truncated text is a prefix of the original. |
| ProductCard.FormatPrice | src/pages/Admin/Card/productCard.jsx:15-28 | A price that reads as `NaN` gives the fixed fallback label. Any other price is shown as its amount. |
| ProductCard.LabelTimesQuantityIsLineValue | src/pages/Admin/Card/productCard.jsx:168 | The amount on a product's card label, times a cart line's quantity, is what the cart page adds to its total for that line. |
| ProductCard.AddIfAbsent | src/pages/Admin/Card/productCard.jsx:48-85 | With no user nothing is sent. Otherwise the cart is fetched first. A product already in the cart is refused, and a POST is sent iff it is absent. It ends as Added iff that POST succeeded. |
| ProductCard.AddToCart | src/pages/Admin/Card/productCard.jsx:73-76 | This card's POST carries no quantity. A refusal sends only the fetch. |
| ProductCard.SecondAddIsRefused | src/pages/Admin/Card/productCard.jsx:62-70 | Once the server cart holds the product, a second click is refused with no second POST. |
| ProductCard.CardRefusesWhatCartPageIncrements | src/pages/Admin/Card/productCard.jsx:67-70 | For a product already in the cart, the card refuses where the cart page's add sends an increment. |
| ProductCard.EditProduct | src/pages/Admin/Card/productCard.jsx:88-94 | A present product id opens the edit dialog. A missing one leaves the dialog as it was. No request is sent. |
| ProductCard.SaveChanges | src/pages/Admin/Card/productCard.jsx:97-114 | A missing id does nothing. Otherwise one save request. On success the parent receives the saved product and the dialog closes. A failure leaves the dialog as it was. |
| ProductCard.DeleteProduct | src/pages/Admin/Card/productCard.jsx:117-133 | A missing id does nothing. Otherwise one delete request. The parent is told to drop the product iff the id is present and the request succeeded. |
| ProductCard.IdGuardsAgree | src/pages/Admin/Card/productCard.jsx:88-121 | The id is missing iff edit opens nothing, iff save sends nothing, iff delete sends nothing. |
| QuantityCard.Increase | src/pages/AdminPage/Card/productCard.jsx:106 | Increase raises the quantity and keeps it at least 1. |
| QuantityCard.Decrease | src/pages/AdminPage/Card/productCard.jsx:107 | Decrease lowers a quantity above 1 and never goes below 1. |
| QuantityCard.Run | src/pages/AdminPage/Card/productCard.jsx:17-107 | From the initial 1, any run of clicks keeps the quantity at least 1. |
| QuantityCard.RunBounded | src/pages/AdminPage/Card/productCard.jsx:17-107 | The quantity never exceeds one plus the number of increases. |
| QuantityCard.DecreaseUndoesIncrease | src/pages/AdminPage/Card/productCard.jsx:106-107 | Decrease undoes increase. Above 1, increase undoes decrease. |
| QuantityCard.DisplayedPrice | src/pages/AdminPage/Card/productCard.jsx:118 | At quantity 1 the price shown is the base price. With a non-negative base price it never falls below it. |
| QuantityCard.IncreaseAddsBasePrice | src/pages/AdminPage/Card/productCard.jsx:106-118 | Each increase adds one base price to the displayed price. |
| QuantityCard.AddToCart | src/pages/AdminPage/Card/productCard.jsx:21-57 | Same check-then-post flow, with a POST that carries the current quantity. |
| QuantityCard.CardsDifferOnlyInQuantity | src/pages/AdminPage/Card/productCard.jsx:44-48 | The two cards reach the same verdict. They post under the same conditions, differing only in the quantity carried. |
| QuantityCard.EditProduct | src/pages/AdminPage/Card/productCard.jsx:59-65 | A present product id opens the edit dialog. A missing one leaves the dialog as it was. |
| QuantityCard.SaveChanges | src/pages/AdminPage/Card/productCard.jsx:67-83 | A missing id does nothing. Otherwise one save request. A success reaches the parent and closes the dialog. A failure sends no callback and keeps the dialog as it was. |
| QuantityCard.DeleteProduct | src/pages/AdminPage/Card/productCard.jsx:85-100 | A missing id does nothing. Otherwise one delete request, and the parent is told iff it succeeded. |
| SignUp.MatchGmail | src/pages/Auth/SignUpPage.jsx:22 | The greedy scan accepts exactly the addresses made of one or more local-part characters followed by "@gmail.com" and nothing else. |
| SignUp.FirstFailureIsFirst | src/pages/Auth/SignUpPage.jsx:19-27 | The verdict of a rule list is a failing rule with no failing rule before it. It is valid iff no rule fails. |
| SignUp.Validate | src/pages/Auth/SignUpPage.jsx:19-27 | The form is valid iff all five checks pass. Otherwise the verdict names the first check, in order, that refuses it. |
| SignUp.ValidateIsTheChain | src/pages/Auth/SignUpPage.jsx:20-26 | The verdict is the chain of early returns: name, email, Gmail pattern, password, length. |
| SignUp.Submit | src/pages/Auth/SignUpPage.jsx:29-35 | The sign-up request is made iff validation returns exactly `true`. |
| SignUp.BlankNameRefused | src/pages/Auth/SignUpPage.jsx:20 | A name of white space only is refused first. |
| SignUp.PaddedEmailRefused | src/pages/Auth/SignUpPage.jsx:21-22 | An email with white space around it passes the emptiness test but fails the pattern. |
| SignUp.PasswordLengthBoundary | src/pages/Auth/SignUpPage.jsx:23-24 | With a valid name and email: six characters pass, one to five are too short, and none is required. |
| SignUp.GmailExamples | src/pages/Auth/SignUpPage.jsx:22 | A Gmail address with dots and plus signs is accepted. A Yahoo address, and "@gmail.com" with no local part, are refused. |
| Blog.FilteredPosts | src/pages/Common/Blog.jsx:121-127 | The result is the order-preserving subsequence of posts whose title, excerpt or some tag contains the query (folded) and whose category matches. Each such post occurs as often as in the list. |
| Blog.InitialShowsAll | src/pages/Common/Blog.jsx:5-6 | With the initial empty query and "all", every post is listed. |
| Blog.ContentAndAuthorIgnored | src/pages/Common/Blog.jsx:122-124 | Changing a post's body or author changes neither whether it is shown nor how many posts are shown. |
| Blog.CategoryHoldsOnResults | src/pages/Common/Blog.jsx:125 | With a category other than "all", every result has that category. |
| Blog.QueryCaseIgnored | src/pages/Common/Blog.jsx:122-124 | The query's case does not matter. |
| Blog.CategoryLabel | src/pages/Common/Blog.jsx:231 | A badge label exists iff some row has the post's category id, and it is that row's name. |
| Blog.LabelIn | src/pages/Common/Blog.jsx:231 | `find` returns the first row with the id, or nothing. |
| Blog.LabelOfRow | src/pages/Common/Blog.jsx:231 | With distinct ids, each row's id yields that row's label. |
| Blog.CategoryIdsDistinct | src/pages/Common/Blog.jsx:110-118 | The page's category ids are distinct. |
| Blog.LabelsAreNotIds | src/pages/Common/Blog.jsx:110-118 | No row's label equals any row's id. |
| Blog.LabelsOfTable | src/pages/Common/Blog.jsx:110-118 | Every row's id yields that row's label. A label used where an id belongs yields none. |
| AuthStore.InitialState | src/store/useAuthStore.js:12-19 | The store starts from the stored user, with every flag false and no check done. |
| AuthStore.BeginCheckAuth | src/store/useAuthStore.js:22-36 | A check starts iff none is running and no earlier check found nobody. Otherwise nothing changes. |
| AuthStore.FinishCheckAuth | src/store/useAuthStore.js:38-56 | A finished check records the user or nobody, marks the check as done and no longer running, and announces a failure iff it is not a 401. |
| AuthStore.CheckAuth | src/store/useAuthStore.js:22-57 | `checkAuth` is the start guard followed by the finish. |
| AuthStore.OverlappingCheckIgnored | src/store/useAuthStore.js:24-27 | A check requested while another is running does nothing. |
| AuthStore.FailedCheckIsFinal | src/store/useAuthStore.js:30-33 | After a check finds nobody, every later check is a no-op. |
| AuthStore.SuccessfulCheckMayRepeat | src/store/useAuthStore.js:30-36 | After a check finds a user, a later check does run. |
| AuthStore.Signup | src/store/useAuthStore.js:60-73 | A success sets the user. The flag is cleared either way, and nothing else changes. |
| AuthStore.Login | src/store/useAuthStore.js:76-94 | A success stores and returns the user. A failure rethrows and keeps the user. The flag is cleared either way. |
| AuthStore.Logout | src/store/useAuthStore.js:103-114 | A success signs out and goes to `/login` iff a navigate function was passed. A failure changes nothing. |
| AuthStore.LogoutUndoesLogin | src/store/useAuthStore.js:76-114 | Logging out after logging in leaves the earlier session with nobody signed in. |
| AuthStore.UpdateProfile | src/store/useAuthStore.js:117-132 | A success replaces the user. The flag is cleared either way. |
| AuthStore.CompletedActionsStaySettled | src/store/useAuthStore.js:22-132 | Starting with no request in flight, no request flag is set between completed actions, and a completed check is never forgotten. |
| Routes.Resolve | src/App.jsx:38-82 | A rendered page is the one whose path equals the requested path up to letter case and trailing slashes, and it is allowed for the user. Redirects go only to `/` or `/login`, and to `/login` only for a signed-out visitor. |
| Routes.Match | src/App.jsx:38-82 | For a path in compared form, a rendered page is the one mounted at exactly that path and allowed for the user. Redirects go only to `/` or `/login`, and to `/login` only for a signed-out visitor. |
| Routes.StripTrailingSlashes | src/App.jsx:40-81 | The result is the path without its trailing slashes: a prefix, followed only by slashes in the path, and not itself ending in one. |
| Routes.RouteKey | src/App.jsx:40-81 | The form a path is compared in is never empty, has no capital letters, and ends in no slash unless it is the root. |
| Routes.RouteKeyOfPathOf | src/App.jsx:40-78 | Every route path is already in that form. |
| Routes.RouteKeyIdempotent | src/App.jsx:40-81 | Taking the form twice is taking it once. |
| Routes.CaseAndTrailingSlashIgnored | src/App.jsx:40-81 | A path resolves exactly as its comparison form does. For example, `/Shop/` renders the shop. |
| Routes.RendersIffAllowed | src/App.jsx:40-78 | Each page renders at its path iff the user may see it: public pages for all, profile/chat/cart for signed-in users, sign-up/login for signed-out visitors, products for admins. |
| Routes.ResolveOwnPath | src/App.jsx:40-78 | At its own path, a page renders when the user may see it. Otherwise profile, chat and cart redirect to `/login`, and sign-up, login and products redirect to `/`. |
| Routes.RedirectsSettleInOneHop | src/App.jsx:49-81 | Every redirect lands on a page that renders. |
| Routes.RedirectTargetsRender | src/App.jsx:40-60 | `/` renders the home page for everyone, and `/login` renders the login form for a signed-out visitor. |
| Routes.UnknownPathGoesHome | src/App.jsx:81 | A path that equals no route path, even ignoring letter case and trailing slashes, redirects to `/`. |
| Routes.Mount | src/App.jsx:26-33 | On mount a session check runs iff none has completed. |
| Routes.FirstLoadTrustsServer | src/App.jsx:26-52 | A user restored from storage whose session check fails can no longer open the profile. |
| Header.NavLinks | src/components/Header.jsx:86-110 | Exactly one of the products link (admins) and the shop link (everyone else) is shown. |
| Header.NavLinksRender | src/components/Header.jsx:86-110 | Every link shown opens its page for the user it is shown to. |
| Header.Buttons | src/components/Header.jsx:126-154 | The cart button shows iff the user is not an admin, signed-out visitors included. The chat button shows iff signed in. The user button always shows. |
| Header.Target | src/components/Header.jsx:21-35 | The cart button goes to `/cart` and the chat button to `/chat`. The user button goes to `/profile` iff signed in, and to `/login` otherwise. |
| Header.ButtonsLand | src/components/Header.jsx:21-35 | A shown button opens its page. The one exception is the cart button for a signed-out visitor, which lands on `/login`. |
| Header.AdminCartOnlyByAddress | src/components/Header.jsx:127 | An admin has no cart button, although the cart route is open to them. |
| Sidebar.FilteredUsers | src/pages/Chat/Sidebar.jsx:18-20 | With the filter off, the list is the users. With it on, it is the order-preserving subsequence of online users. Each of them occurs as often as in the user list. |
| Sidebar.Status | src/pages/Chat/Sidebar.jsx:76 | The status reads "Online" iff the id is online, and "Offline" otherwise. |
| Sidebar.OnlineOnlyListAllOnline | src/pages/Chat/Sidebar.jsx:19-76 | Every entry of the online-only list reads "Online". |
| Sidebar.EmptyNoticeIff | src/pages/Chat/Sidebar.jsx:82 | With the filter on, the notice shows iff nobody listed is online. With it off, it shows iff the list is empty. |
| Sidebar.ClickHighlightsOnlyIt | src/pages/Chat/Sidebar.jsx:55 | When ids are distinct, a clicked entry is the only one highlighted. |
| Sidebar.OnlineCountAsWritten | src/pages/Chat/Sidebar.jsx:43 | As written, the count is negative iff the online list is empty. |
| Sidebar.EmptyOnlineListCountsMinusOne | src/pages/Chat/Sidebar.jsx:43 | With an empty online list, the header reads −1. |
| Sidebar.OnlineCount | src/pages/Chat/Sidebar.jsx:43 | Corrected: the online ids other than the viewer's. The count is never negative and is the list length less the viewer's copies. |
| Sidebar.CountsAgreeWhenSelfListedOnce | src/pages/Chat/Sidebar.jsx:43 | The corrected count equals the written one when the viewer is listed exactly once, and is 0 for an empty list. |

## Left out

- Markup, styling, images, toasts, `console` output and loading spinners: they decide nothing.
- Timers are left out: the 2-second payment delay and the 3-second auto-close of the checkout popup. The payment is modelled after the delay. The auto-close is the same reset as closing the popup.
- `localStorage` is left out. The stored user is a parameter of `AuthStore.InitialState`.
- The socket connection and the server push of the online list are left out. The online list is a parameter.
- Interleavings of concurrent requests are not modelled: each handler is one atomic step. The per-item pending flags of the cart page are left out, as are the in-flight flags of the checkout and of the cards.
- Left out: `FileReader` image upload, `Intl.NumberFormat` currency formatting and the theme store.
- Prices are integers. `Number(price)` failing is modelled as an absent price. Tax uses exact rationals instead of floating point.
- Routes.RouteKey: route matching folds ASCII letters only and does not percent-decode the path, which the router also does.
- LegacyShop.SetHighSlider: its requires restates what the browser's range input guarantees. A range input whose minimum exceeds its maximum is taken to hold only its minimum.
- Strings are ASCII for `toLowerCase` and `trim`. JavaScript's Unicode case mapping, white-space set and UTF-16 lengths are not modelled.
- Null product references inside `map`/`filter` updaters are treated as non-matching. In the source the updater would throw during rendering. The `find` of the add handlers and the payment loop do model the throw.
- The shop pages' own add-to-cart (`POST /add-to-cart`), the product popups and `goToCart` are left out. They send one request and close a popup, with no further decision.
- The search box in the header has no handler, so there is nothing to model.
- `src/pages/Cart.jsx` is not part of this model. It relies on modules that are not in the repository.
- The login pages, the profile page and the chat message views are not part of this model. They are thin UI handlers.
- `vite.config.js` is not part of this model. It is dev-server configuration.
- ShopPage.LoadProducts: the page is not reset on load, as in the source. Its "initial" reading assumes the load is the first event.
- Routes.Mount: only the first mount is modelled. The effect has an empty dependency list.

## Findings

| source | as written | input that shows it | evidently intended | confidence | as-written member | corrected member |
|---|---|---|---|---|---|---|
| src/pages/Shop.jsx:60-64 | `applyPriceFilter` sets the applied range, then calls `handleSearch`. That search still reads the range from before the click, so the list is filtered with the previous range. | One product priced 50. Move the sliders to [0, 10] and click Apply: the product stays listed while the applied range is [0, 10]. | The search uses the newly applied range. | not executed; high | LegacyShop.ApplyPriceFilterAsWrittenShowsStaleRange | LegacyShop.ApplyPriceFilter |
| src/pages/Admin/ProductPage.jsx:83-85 | Changing the search term keeps the current page. | Ten products on page 2. Type a term matching at most nine: page 2 is empty, "No Products Found" is shown, and the pager is hidden. | Go back to page 1 on a new term, as the shop page does. | not executed; high | AdminProducts.SearchChangeStrandsPage | AdminProducts.ChangeSearchShowsMatches |
| src/pages/Admin/ProductPage.jsx:135-145 | The card sends `DELETE /products/:id`, then its callback, the page's `handleDeleteProduct`, sends the same DELETE again. The list is updated only if the second request succeeds. | Delete a product when the server answers the repeated delete with 404: the product stays listed though it is gone. | One DELETE, then a local removal. | not executed; medium (depends on how the server answers a repeated delete) | AdminProducts.CardDeleteAsWrittenKeepsDeletedProduct | AdminProducts.CardDeleteRemovesIffAccepted |
| src/pages/Shop/CartPage.jsx:171-175 | When the clearing loop aborts, its catch calls `toast.warning`. The imported react-hot-toast library has no such function, so the call throws into the outer catch. | A cart line whose product reference is null. Only the unwired `addToCart` handler (lines 222-268) could bring one in, if it were ever called and the server returned such a line. The popup would then show the payment as successful while a "Payment failed" error shows, and the popup would never close by itself. | Keep the payment successful, warn that the cart was not cleared, and close as usual. | not executed; latent | ShopCart.AbortedPaymentReportsFailure | ShopCart.HandlePaymentWithWarning |
| src/pages/Chat/Sidebar.jsx:43 | The count is `onlineUsers.length - 1`. | Before the online list arrives, `onlineUsers` is `[]` and the header reads "(-1 online)". | Count the online users other than the viewer, never negative. | not executed; medium | Sidebar.EmptyOnlineListCountsMinusOne | Sidebar.CountsAgreeWhenSelfListedOnce |

=== FILE: admin_products.dfy ===
/** The admin product page, `src/pages/Admin/ProductPage.jsx`: the signed-in
    user's own products, searched by name or description and shown nine per
    page, with an add-product dialog and the list updates the product cards
    trigger. The fetch, add and delete handlers are the same code as on the older
    admin page, so they are defined here on the part of the state both share. */
module AdminProducts {
  import opened Outcomes
  import Seqs
  import opened Paging
  import opened Catalogue
  import ProductCard

  /** The state both admin pages keep: the product list, whether the add dialog is
      open, and the add form. */
  datatype Listing = Listing(products: seq<Product>, modalOpen: bool, form: ProductForm)

  const InitialListing := Listing([], false, EmptyForm)

  /** A handler's effect on the shared state, with the requests it sent. */
  datatype ListingStep = ListingStep(listing: Listing, requests: seq<ProductRequest>)

  /** The fetch effect: with no signed-in user id nothing is requested; otherwise
      `GET /products/:userId`, whose array payload replaces the list. A non-array
      payload (`None`) or a failure leaves the list as it was. */
  function FetchProducts(l: Listing, authId: string, res: Remote<Option<seq<Product>>>): (r: ListingStep)
    ensures authId == "" ==> r == ListingStep(l, [])
    ensures authId != "" ==> r.requests == [ListOwnProducts(authId)]
    ensures authId != "" && res.Ok? && res.value.Some? ==> r.listing == l.(products := res.value.value)
    ensures authId != "" && !(res.Ok? && res.value.Some?) ==> r.listing == l
  {
    if authId == "" then ListingStep(l, [])
    else
      match res
      case Ok(Some(ps)) => ListingStep(l.(products := ps), [ListOwnProducts(authId)])
      case _ => ListingStep(l, [ListOwnProducts(authId)])
  }

  /** Repeating a fetch with the same answer changes nothing more, and a
      successful fetch leaves exactly the payload listed. */
  lemma FetchAgainChangesNothing(l: Listing, authId: string, res: Remote<Option<seq<Product>>>)
    ensures var once := FetchProducts(l, authId, res);
            FetchProducts(once.listing, authId, res) == once
    ensures authId != "" && res.Ok? && res.value.Some? ==>
              FetchProducts(l, authId, res).listing.products == res.value.value
  {
  }

  /** `openAddProductModal`: an empty form in an open dialog. */
  function OpenAddModal(l: Listing): (r: Listing)
    ensures r.products == l.products && r.modalOpen && !FormComplete(r.form)
  {
    l.(modalOpen := true, form := EmptyForm)
  }

  /** The owner sent with a new product: the user id, or "Unknown" when there is none. */
  function Owner(authId: string): (r: string)
    ensures r != ""
    ensures authId != "" ==> r == authId
  {
    if authId != "" then authId else "Unknown"
  }

  /** `handleAddProduct`: an incomplete form is refused before any request;
      otherwise `POST /products/`, and on success the returned product is appended,
      the dialog closes and the form is emptied. A failure keeps everything. */
  function AddProduct(l: Listing, authId: string, res: Remote<Product>): (r: ListingStep)
    ensures !FormComplete(l.form) ==> r == ListingStep(l, [])
    ensures FormComplete(l.form) ==> r.requests == [CreateProduct(l.form, Owner(authId))]
    ensures FormComplete(l.form) && res.Err? ==> r.listing == l
    ensures FormComplete(l.form) && res.Ok? ==>
              r.listing == Listing(Append(l.products, res.value), false, EmptyForm)
  {
    if !FormComplete(l.form) then ListingStep(l, [])
    else
      var sent := [CreateProduct(l.form, Owner(authId))];
      match res
      case Ok(created) => ListingStep(Listing(Append(l.products, created), false, EmptyForm), sent)
      case Err(_) => ListingStep(l, sent)
  }

  /** Submitting the dialog straight after opening it is refused. */
  lemma AddRightAfterOpenIsRefused(l: Listing, authId: string, res: Remote<Product>)
    ensures AddProduct(OpenAddModal(l), authId, res) == ListingStep(OpenAddModal(l), [])
  {
  }

  /** `handleDeleteProduct(productId)`: `DELETE /products/:id`, and on success every
      product with that id leaves the list. */
  function DeleteProduct(l: Listing, productId: string, res: Remote<()>): (r: ListingStep)
    ensures r.requests == [Catalogue.DeleteProduct(productId)]
    ensures res.Err? ==> r.listing == l
    ensures res.Ok? ==> r.listing == l.(products := RemoveById(l.products, productId))
  {
    var sent := [Catalogue.DeleteProduct(productId)];
    if res.Ok? then ListingStep(l.(products := RemoveById(l.products, productId)), sent)
    else ListingStep(l, sent)
  }

  /** The `onProductUpdate` callback: the saved product takes the place of the one
      with its id. */
  function UpdateProduct(l: Listing, updated: Product): (r: Listing)
    ensures r.modalOpen == l.modalOpen && r.form == l.form
    ensures |r.products| == |l.products|
    ensures forall i :: 0 <= i < |l.products| && l.products[i].id == updated.id ==> r.products[i] == updated
    ensures forall i :: 0 <= i < |l.products| && l.products[i].id != updated.id ==> r.products[i] == l.products[i]
  {
    l.(products := ReplaceById(l.products, updated))
  }

  /** A product added and then deleted leaves the list as it was before the add,
      provided its id was new. */
  lemma AddThenDeleteRestores(l: Listing, authId: string, created: Product)
    requires FormComplete(l.form)
    requires forall i :: 0 <= i < |l.products| ==> l.products[i].id != created.id
    ensures DeleteProduct(AddProduct(l, authId, Ok(created)).listing, created.id, Ok(())).listing.products == l.products
  {
    RemoveUndoesAppend(l.products, created);
  }

  /** The whole page state: the shared part, the search term and the current page. */
  datatype AdminState = AdminState(listing: Listing, searchTerm: string, page: int)

  const Initial := AdminState(InitialListing, "", 1)

  /** `filteredProducts`. */
  function Filtered(st: AdminState): (r: seq<Product>)
    ensures Seqs.SubseqOf(r, st.listing.products)
    ensures forall i :: 0 <= i < |r| ==> MatchesSearch(r[i], st.searchTerm)
    ensures forall i :: 0 <= i < |st.listing.products| && MatchesSearch(st.listing.products[i], st.searchTerm) ==>
              st.listing.products[i] in r
    ensures forall i :: 0 <= i < |st.listing.products| ==>
              multiset(r)[st.listing.products[i]] ==
                if MatchesSearch(st.listing.products[i], st.searchTerm) then multiset(st.listing.products)[st.listing.products[i]] else 0
    ensures st.searchTerm == "" ==> r == st.listing.products
  {
    Search(st.listing.products, st.searchTerm)
  }

  /** With no search term, a successful fetch shows exactly its payload. */
  lemma FetchShowsPayload(st: AdminState, authId: string, ps: seq<Product>)
    requires authId != "" && st.searchTerm == ""
    ensures Filtered(st.(listing := FetchProducts(st.listing, authId, Ok(Some(ps))).listing)) == ps
  {
  }

  /** A new product shows up at the end of the search result exactly when it matches. */
  lemma FilteredAfterAdd(st: AdminState, authId: string, created: Product)
    requires FormComplete(st.listing.form)
    ensures var after := st.(listing := AddProduct(st.listing, authId, Ok(created)).listing);
            Filtered(after) == Filtered(st) + (if MatchesSearch(created, st.searchTerm) then [created] else [])
  {
    var keep := SearchKeep(st.searchTerm);
    var after := st.(listing := AddProduct(st.listing, authId, Ok(created)).listing);
    assert after.listing.products == st.listing.products + [created];
    assert Filtered(after) == Seqs.Filter(st.listing.products + [created], keep);
    Seqs.FilterAppend(st.listing.products, [created], keep);
    assert Seqs.Filter([created], keep) == if keep(created) then [created] else [] by {
      assert [created][1..] == [];
    }
  }

  /** `paginatedProducts`. */
  function Paginated(st: AdminState): (r: seq<Product>)
    ensures st.page >= 1 ==> |r| <= ItemsPerPage
  {
    PageOf(Filtered(st), st.page)
  }

  /** `totalPages`: the pages of the search result that are not empty are
      exactly 1 through this count. */
  function PageCount(st: AdminState): (r: nat)
    ensures forall page :: 1 <= page ==> (|PageOf(Filtered(st), page)| > 0 <==> page <= r)
  {
    PagesNonEmptyIff(Filtered(st));
    TotalPages(|Filtered(st)|)
  }

  /** The "No Products Found" panel replaces the grid when the current page is empty. */
  predicate ShowsNoProducts(st: AdminState) {
    |Paginated(st)| == 0
  }

  /** The pager is drawn only when there is more than one page. */
  predicate PagerShown(st: AdminState) {
    PageCount(st) > 1
  }

  function GoToNextPage(st: AdminState): (r: AdminState)
    ensures r == st.(page := r.page)
    ensures st.page <= r.page <= st.page + 1
    ensures r.page == st.page + 1 <==> st.page < PageCount(st)
    ensures ReachablePage(st.page, PageCount(st)) ==> ReachablePage(r.page, PageCount(st))
  {
    st.(page := NextPage(st.page, PageCount(st)))
  }

  function GoToPrevPage(st: AdminState): (r: AdminState)
    ensures r == st.(page := r.page)
    ensures st.page - 1 <= r.page <= st.page
    ensures r.page == st.page - 1 <==> st.page > 1
    ensures ReachablePage(st.page, PageCount(st)) ==> ReachablePage(r.page, PageCount(st))
  {
    st.(page := PrevPage(st.page))
  }

  function SelectPage(st: AdminState, num: int): (r: AdminState)
    requires num in PageButtons(PageCount(st))
    ensures r == st.(page := num)
    ensures |Paginated(r)| > 0
  {
    PageNonEmptyIff(Filtered(st), num);
    st.(page := num)
  }

  /** `handleSearchChange` as written, and the clear button: only the term changes;
      the current page is kept. */
  function ChangeSearchAsWritten(st: AdminState, term: string): (r: AdminState)
    ensures r.listing == st.listing && r.searchTerm == term && r.page == st.page
  {
    st.(searchTerm := term)
  }

  /** From page 2 or later, a term that matches at most nine products leaves the
      page past the last one: the matches exist, yet the page shows the
      "No Products Found" panel and no pager to go back with. */
  lemma SearchChangeStrandsPage(st: AdminState, term: string)
    requires st.page >= 2
    requires 0 < |Search(st.listing.products, term)| <= ItemsPerPage
    ensures var r := ChangeSearchAsWritten(st, term);
            |Filtered(r)| > 0 && ShowsNoProducts(r) && !PagerShown(r) && !ReachablePage(r.page, PageCount(r))
  {
  }

  /** `handleSearchChange` as intended: a new term goes back to page 1. */
  function ChangeSearch(st: AdminState, term: string): (r: AdminState)
    ensures r.listing == st.listing && r.searchTerm == term && r.page == 1
  {
    st.(searchTerm := term, page := 1)
  }

  /** After the corrected change the page is reachable, and any match is on screen. */
  lemma ChangeSearchShowsMatches(st: AdminState, term: string)
    ensures ReachablePage(ChangeSearch(st, term).page, PageCount(ChangeSearch(st, term)))
    ensures |Filtered(ChangeSearch(st, term))| > 0 <==> !ShowsNoProducts(ChangeSearch(st, term))
  {
    PageNonEmptyIff(Filtered(ChangeSearch(st, term)), 1);
  }

  /** A card's delete as wired on this page: the card sends `DELETE /products/:id`
      and, when that succeeds, calls the page's delete handler, which sends the same
      request again and drops the product only if the second one succeeds too. */
  function CardDeleteAsWritten(st: AdminState, productId: string, cardRes: Remote<()>, pageRes: Remote<()>): (r: ListingStep)
    ensures productId != "" && cardRes.Ok? ==>
              r.requests == [Catalogue.DeleteProduct(productId), Catalogue.DeleteProduct(productId)]
    ensures productId != "" && cardRes.Ok? && pageRes.Ok? ==>
              r.listing.products == RemoveById(st.listing.products, productId)
    ensures productId != "" && cardRes.Ok? && pageRes.Err? ==> r.listing == st.listing
    ensures productId == "" || cardRes.Err? ==>
              r.listing == st.listing && r.requests == (if productId == "" then [] else [Catalogue.DeleteProduct(productId)])
  {
    var card := ProductCard.DeleteProduct(productId, false, cardRes);
    match card.callback
    case ProductDeleted(id) =>
      var page := DeleteProduct(st.listing, id, pageRes);
      ListingStep(page.listing, card.requests + page.requests)
    case _ => ListingStep(st.listing, card.requests)
  }

  /** When the first delete succeeds and the repeated one is answered with an error,
      the product is gone from the server but still listed. */
  lemma CardDeleteAsWrittenKeepsDeletedProduct(st: AdminState, i: nat, status: int)
    requires i < |st.listing.products| && st.listing.products[i].id != ""
    ensures var id := st.listing.products[i].id;
            var r := CardDeleteAsWritten(st, id, Ok(()), Err(status));
            Catalogue.DeleteProduct(id) in r.requests && st.listing.products[i] in r.listing.products
  {
  }

  /** A card's delete as intended: one `DELETE`, and the page drops the product
      when the card reports it deleted. */
  function CardDelete(st: AdminState, productId: string, cardRes: Remote<()>): (r: ListingStep)
    ensures productId != "" ==> r.requests == [Catalogue.DeleteProduct(productId)]
    ensures productId == "" || cardRes.Err? ==> r.listing == st.listing
    ensures productId != "" && cardRes.Ok? ==>
              r.listing.products == RemoveById(st.listing.products, productId) &&
              r.listing.form == st.listing.form && r.listing.modalOpen == st.listing.modalOpen
  {
    var card := ProductCard.DeleteProduct(productId, false, cardRes);
    match card.callback
    case ProductDeleted(id) => ListingStep(st.listing.(products := RemoveById(st.listing.products, id)), card.requests)
    case _ => ListingStep(st.listing, card.requests)
  }

  /** After the intended delete no product with the id is listed exactly when the
      server accepted the request. */
  lemma CardDeleteRemovesIffAccepted(st: AdminState, i: nat, cardRes: Remote<()>)
    requires i < |st.listing.products| && st.listing.products[i].id != ""
    ensures var id := st.listing.products[i].id;
            (forall j :: 0 <= j < |CardDelete(st, id, cardRes).listing.products| ==>
               CardDelete(st, id, cardRes).listing.products[j].id != id) <==> cardRes.Ok?
  {
    var id := st.listing.products[i].id;
    if cardRes.Err? {
      assert CardDelete(st, id, cardRes).listing.products[i].id == id;
    }
  }

  /** A card's save as wired on this page: on success the saved product replaces
      the listed one with the same id. */
  function CardSave(st: AdminState, productId: string, res: Remote<Product>): (r: ListingStep)
    ensures productId != "" ==> r.requests == [SaveProduct(productId)]
    ensures productId == "" || res.Err? ==> r.listing == st.listing
    ensures productId != "" && res.Ok? ==> r.listing == UpdateProduct(st.listing, res.value)
  {
    var card := ProductCard.SaveChanges(productId, true, res);
    match card.callback
    case ProductUpdated(p) => ListingStep(UpdateProduct(st.listing, p), card.requests)
    case _ => ListingStep(st.listing, card.requests)
  }

  /** Saving the same edit twice lists the same products as saving it once. */
  lemma SaveTwiceIsSaveOnce(st: AdminState, productId: string, saved: Product)
    requires productId != ""
    ensures var once := CardSave(st, productId, Ok(saved)).listing;
            CardSave(st.(listing := once), productId, Ok(saved)).listing == once
  {
    ReplaceIdempotent(st.listing.products, saved);
  }
}

=== FILE: auth_store.dfy ===
/** The session store, `src/store/useAuthStore.js`: the signed-in user and the
    flags that track the auth requests in flight, with `checkAuth`, `signup`,
    `login`, `logout` and `updateProfile` as transitions. */
module AuthStore {
  import opened Outcomes

  /** The signed-in user as the server returns it; only the id and role are read. */
  datatype User = User(id: string, role: string)

  datatype AuthState = AuthState(
    authUser: Option<User>,
    isSigningUp: bool,
    isLoggingIn: bool,
    isUpdatingProfile: bool,
    isCheckingAuth: bool,
    hasCheckedAuth: bool)

  /** The store as created: the user restored from local storage, if any, and
      every flag false. */
  function InitialState(stored: Option<User>): (r: AuthState)
    ensures r.authUser == stored && Settled(r) && !r.hasCheckedAuth
  {
    AuthState(stored, false, false, false, false, false)
  }

  /** No auth request is in flight. */
  predicate Settled(st: AuthState) {
    !st.isSigningUp && !st.isLoggingIn && !st.isUpdatingProfile && !st.isCheckingAuth
  }

  /** How `GET /auth/check` can end: with a user, with an HTTP error status, or
      without any response (so `error.response?.status` is `undefined`). */
  datatype CheckReply = Authenticated(user: User) | HttpFailure(status: int) | NoResponse

  datatype CheckStart = CheckStart(state: AuthState, started: bool)

  /** The guards of `checkAuth`: nothing happens while a check is running, nor
      once a check has found no user; otherwise the check is marked as running. */
  function BeginCheckAuth(st: AuthState): (r: CheckStart)
    ensures r.started <==> !st.isCheckingAuth && !(st.hasCheckedAuth && st.authUser.None?)
    ensures r.started ==> r.state == st.(isCheckingAuth := true)
    ensures !r.started ==> r.state == st
  {
    if st.isCheckingAuth then CheckStart(st, false)
    else if st.hasCheckedAuth && st.authUser.None? then CheckStart(st, false)
    else CheckStart(st.(isCheckingAuth := true), true)
  }

  /** A handler's end state and whether it raised an error notification. */
  datatype Ended = Ended(state: AuthState, errorToast: bool)

  /** The end of a running check: the reply's user, or no user, is recorded, the
      check counts as done and no longer running; a failure is announced unless
      its status is 401. */
  function FinishCheckAuth(st: AuthState, reply: CheckReply): (r: Ended)
    ensures r.state.hasCheckedAuth && !r.state.isCheckingAuth
    ensures r.state.authUser == (if reply.Authenticated? then Some(reply.user) else None)
    ensures r.errorToast <==> !reply.Authenticated? && reply != HttpFailure(401)
    ensures r.state.isSigningUp == st.isSigningUp && r.state.isLoggingIn == st.isLoggingIn &&
            r.state.isUpdatingProfile == st.isUpdatingProfile
  {
    match reply
    case Authenticated(u) => Ended(st.(authUser := Some(u), hasCheckedAuth := true, isCheckingAuth := false), false)
    case HttpFailure(status) =>
      Ended(st.(authUser := None, hasCheckedAuth := true, isCheckingAuth := false), status != 401)
    case NoResponse => Ended(st.(authUser := None, hasCheckedAuth := true, isCheckingAuth := false), true)
  }

  /** `checkAuth` run to completion. */
  function CheckAuth(st: AuthState, reply: CheckReply): (r: Ended)
    ensures !BeginCheckAuth(st).started ==> r == Ended(st, false)
    ensures BeginCheckAuth(st).started ==> r == FinishCheckAuth(st.(isCheckingAuth := true), reply)
  {
    var start := BeginCheckAuth(st);
    if start.started then FinishCheckAuth(start.state, reply) else Ended(st, false)
  }

  /** A second check asked for while one runs does nothing. */
  lemma OverlappingCheckIgnored(st: AuthState)
    requires BeginCheckAuth(st).started
    ensures !BeginCheckAuth(BeginCheckAuth(st).state).started
  {
  }

  /** A check that found no user is never repeated: every later check is a no-op. */
  lemma FailedCheckIsFinal(st: AuthState, first: CheckReply, later: CheckReply)
    requires !first.Authenticated? && BeginCheckAuth(st).started
    ensures var after := CheckAuth(st, first).state;
            CheckAuth(after, later) == Ended(after, false)
  {
  }

  /** A check that found a user may run again. */
  lemma SuccessfulCheckMayRepeat(st: AuthState, u: User)
    requires BeginCheckAuth(st).started
    ensures BeginCheckAuth(CheckAuth(st, Authenticated(u)).state).started
  {
  }

  /** `signup`: the created user becomes the session user on success; the flag is
      cleared either way. */
  function Signup(st: AuthState, res: Remote<User>): (r: AuthState)
    ensures !r.isSigningUp
    ensures r.authUser == (if res.Ok? then Some(res.value) else st.authUser)
    ensures r == st.(isSigningUp := false, authUser := r.authUser)
  {
    var cleared := st.(isSigningUp := false);
    if res.Ok? then cleared.(authUser := Some(res.value)) else cleared
  }

  /** What `login` gives its caller: the user, or the error thrown again. */
  datatype LoginOutcome = Returned(user: User) | Rethrown(status: int)

  datatype LoginEnd = LoginEnd(state: AuthState, outcome: LoginOutcome)

  /** `login`: on success the user is stored and returned; on failure the error is
      thrown again and the session user is kept. The flag is cleared either way. */
  function Login(st: AuthState, res: Remote<User>): (r: LoginEnd)
    ensures !r.state.isLoggingIn
    ensures res.Ok? ==> r.state.authUser == Some(res.value) && r.outcome == Returned(res.value)
    ensures res.Err? ==> r.state.authUser == st.authUser && r.outcome == Rethrown(res.status)
    ensures r.state == st.(isLoggingIn := false, authUser := r.state.authUser)
  {
    match res
    case Ok(u) => LoginEnd(st.(isLoggingIn := false, authUser := Some(u)), Returned(u))
    case Err(status) => LoginEnd(st.(isLoggingIn := false), Rethrown(status))
  }

  datatype LogoutEnd = LogoutEnd(state: AuthState, redirectedToLogin: bool)

  /** `logout(navigate)`: on success no user is signed in and, when a navigate
      function was passed, the browser goes to `/login`; a failure changes nothing. */
  function Logout(st: AuthState, res: Remote<()>, navigate: bool): (r: LogoutEnd)
    ensures res.Ok? ==> r.state == st.(authUser := None)
    ensures res.Err? ==> r.state == st
    ensures r.redirectedToLogin <==> res.Ok? && navigate
  {
    if res.Ok? then LogoutEnd(st.(authUser := None), navigate) else LogoutEnd(st, false)
  }

  /** A successful logout after a successful login leaves the session as it was
      before the login with nobody signed in. */
  lemma LogoutUndoesLogin(st: AuthState, u: User, navigate: bool)
    requires !st.isLoggingIn
    ensures Logout(Login(st, Ok(u)).state, Ok(()), navigate).state == st.(authUser := None)
  {
  }

  /** `updateProfile`: the updated user replaces the session user on success; the
      flag is cleared either way. */
  function UpdateProfile(st: AuthState, res: Remote<User>): (r: AuthState)
    ensures !r.isUpdatingProfile
    ensures r.authUser == (if res.Ok? then Some(res.value) else st.authUser)
    ensures r == st.(isUpdatingProfile := false, authUser := r.authUser)
  {
    var cleared := st.(isUpdatingProfile := false);
    if res.Ok? then cleared.(authUser := Some(res.value)) else cleared
  }

  /** One completed store action, with the server's answer. */
  datatype Action =
    | DoCheckAuth(reply: CheckReply)
    | DoSignup(signupRes: Remote<User>)
    | DoLogin(loginRes: Remote<User>)
    | DoLogout(logoutRes: Remote<()>, navigate: bool)
    | DoUpdateProfile(updateRes: Remote<User>)

  function Apply(st: AuthState, a: Action): AuthState {
    match a
    case DoCheckAuth(reply) => CheckAuth(st, reply).state
    case DoSignup(res) => Signup(st, res)
    case DoLogin(res) => Login(st, res).state
    case DoLogout(res, navigate) => Logout(st, res, navigate).state
    case DoUpdateProfile(res) => UpdateProfile(st, res)
  }

  function RunAll(st: AuthState, actions: seq<Action>): AuthState
    decreases |actions|
  {
    if |actions| == 0 then st else RunAll(Apply(st, actions[0]), actions[1..])
  }

  /** Between completed actions no request is in flight, and once a check has
      completed the store remembers it. */
  lemma {:induction false} CompletedActionsStaySettled(st: AuthState, actions: seq<Action>)
    requires Settled(st)
    ensures Settled(RunAll(st, actions))
    ensures st.hasCheckedAuth ==> RunAll(st, actions).hasCheckedAuth
    decreases |actions|
  {
    if |actions| > 0 {
      CompletedActionsStaySettled(Apply(st, actions[0]), actions[1..]);
    }
  }
}

=== FILE: blog.dfy ===
/** The blog page, `src/pages/Common/Blog.jsx`: posts filtered by a case-folded
    search over title, excerpt and tags together with a category choice, and the
    category badge looked up in the page's category table. */
module Blog {
  import opened Outcomes
  import Seqs
  import opened Text

  datatype Post = Post(title: string, excerpt: string, content: string, author: string,
                       category: string, tags: seq<string>)

  /** A row of the category table: its id and the label shown. */
  datatype Category = Category(id: string, name: string)

  const AllId: string := "all"

  const Categories: seq<Category> := [
    Category("all", "All Posts"),
    Category("health", "Health & Nutrition"),
    Category("seasonal", "Seasonal Eating"),
    Category("sustainability", "Sustainability"),
    Category("supply-chain", "Farm to Table"),
    Category("recipes", "Recipes"),
    Category("technology", "Technology")
  ]

  /** `post.tags.some(tag => tag.toLowerCase().includes(q))`. */
  predicate SomeTagIncludes(tags: seq<string>, q: string) {
    exists i :: 0 <= i < |tags| && Includes(Lower(tags[i]), q)
  }

  /** `matchesSearch`. */
  predicate MatchesSearch(post: Post, query: string) {
    var q := Lower(query);
    Includes(Lower(post.title), q) || Includes(Lower(post.excerpt), q) || SomeTagIncludes(post.tags, q)
  }

  /** `matchesCategory`. */
  predicate MatchesCategory(post: Post, category: string) {
    category == AllId || post.category == category
  }

  predicate Shown(post: Post, query: string, category: string) {
    MatchesSearch(post, query) && MatchesCategory(post, category)
  }

  function ShownKeep(query: string, category: string): Post -> bool {
    (p: Post) => Shown(p, query, category)
  }

  /** `filteredPosts`: the posts passing both tests, in their listed order. */
  function FilteredPosts(posts: seq<Post>, query: string, category: string): (r: seq<Post>)
    ensures Seqs.SubseqOf(r, posts)
    ensures forall i :: 0 <= i < |r| ==> MatchesSearch(r[i], query) && MatchesCategory(r[i], category)
    ensures forall i :: 0 <= i < |posts| && Shown(posts[i], query, category) ==> posts[i] in r
    ensures forall i :: 0 <= i < |posts| ==>
              multiset(r)[posts[i]] == if Shown(posts[i], query, category) then multiset(posts)[posts[i]] else 0
  {
    Seqs.FilterIsSubseq(posts, ShownKeep(query, category));
    Seqs.FilterCounts(posts, ShownKeep(query, category));
    Seqs.Filter(posts, ShownKeep(query, category))
  }

  /** On first render (empty query, category "all") every post is listed. */
  lemma InitialShowsAll(posts: seq<Post>)
    ensures FilteredPosts(posts, "", AllId) == posts
  {
    forall i | 0 <= i < |posts|
      ensures Shown(posts[i], "", AllId)
    {
      IncludesEmpty(Lower(posts[i].title));
    }
    Seqs.FilterKeepsAll(posts, ShownKeep("", AllId));
  }

  /** The body text and the author are never searched: changing them changes no
      filter result. */
  lemma ContentAndAuthorIgnored(posts: seq<Post>, i: nat, content: string, author: string, query: string, category: string)
    requires i < |posts|
    ensures Shown(posts[i].(content := content, author := author), query, category) <==> Shown(posts[i], query, category)
    ensures var edited := posts[i := posts[i].(content := content, author := author)];
            |FilteredPosts(edited, query, category)| == |FilteredPosts(posts, query, category)|
  {
    var edited := posts[i := posts[i].(content := content, author := author)];
    var keep := ShownKeep(query, category);
    assert posts == posts[..i] + [posts[i]] + posts[i + 1..];
    assert edited == posts[..i] + [edited[i]] + posts[i + 1..];
    Seqs.FilterAppend(posts[..i] + [posts[i]], posts[i + 1..], keep);
    Seqs.FilterAppend(posts[..i], [posts[i]], keep);
    Seqs.FilterAppend(posts[..i] + [edited[i]], posts[i + 1..], keep);
    Seqs.FilterAppend(posts[..i], [edited[i]], keep);
  }

  /** With a particular category chosen, every listed post belongs to it. */
  lemma CategoryHoldsOnResults(posts: seq<Post>, query: string, category: string)
    requires category != AllId
    ensures forall i :: 0 <= i < |FilteredPosts(posts, query, category)| ==>
              FilteredPosts(posts, query, category)[i].category == category
  {
  }

  /** The query's case does not matter. */
  lemma QueryCaseIgnored(post: Post, query: string)
    ensures MatchesSearch(post, query) <==> MatchesSearch(post, Lower(query))
  {
    LowerIdempotent(query);
  }

  /** `categories.find(cat => cat.id === post.category)?.name`: the label of the
      first row with the post's category id, or nothing. */
  function CategoryLabel(categoryId: string): (r: Option<string>)
    ensures r.Some? <==> exists i :: 0 <= i < |Categories| && Categories[i].id == categoryId
    ensures r.Some? ==> exists i :: 0 <= i < |Categories| && Categories[i] == Category(categoryId, r.value)
  {
    LabelIn(Categories, categoryId)
  }

  function LabelIn(table: seq<Category>, categoryId: string): (r: Option<string>)
    ensures r.Some? <==> exists i :: 0 <= i < |table| && table[i].id == categoryId
    ensures r.Some? ==> exists i :: 0 <= i < |table| && table[i] == Category(categoryId, r.value) &&
                                   forall j :: 0 <= j < i ==> table[j].id != categoryId
  {
    if |table| == 0 then None
    else if table[0].id == categoryId then Some(table[0].name)
    else
      var r := LabelIn(table[1..], categoryId);
      if r.Some? then
        var i :| 0 <= i < |table[1..]| && table[1..][i] == Category(categoryId, r.value) &&
                 forall j :: 0 <= j < i ==> table[1..][j].id != categoryId;
        assert table[i + 1] == table[1..][i];
        assert forall j :: 1 <= j < i + 1 ==> table[j] == table[1..][j - 1];
        r
      else
        assert forall i :: 1 <= i < |table| ==> table[i] == table[1..][i - 1];
        r
  }

  /** Distinct ids: no two rows of the table share one. */
  predicate DistinctIds(table: seq<Category>) {
    forall i, j :: 0 <= i < j < |table| ==> table[i].id != table[j].id
  }

  /** With distinct ids the lookup is the table read backwards: each row's id
      gives that row's label. */
  lemma LabelOfRow(table: seq<Category>, i: nat)
    requires DistinctIds(table) && i < |table|
    ensures LabelIn(table, table[i].id) == Some(table[i].name)
  {
    var r := LabelIn(table, table[i].id);
    var k :| 0 <= k < |table| && table[k] == Category(table[i].id, r.value) &&
             forall j :: 0 <= j < k ==> table[j].id != table[i].id;
    assert k == i;
  }

  /** With distinct ids every row's id gives that row's label. */
  lemma LabelsOfRows(table: seq<Category>)
    requires DistinctIds(table)
    ensures forall i :: 0 <= i < |table| ==> LabelIn(table, table[i].id) == Some(table[i].name)
  {
    forall i | 0 <= i < |table|
      ensures LabelIn(table, table[i].id) == Some(table[i].name)
    {
      LabelOfRow(table, i);
    }
  }

  /** No two rows of the page's table share an id: their first three characters
      already tell them apart. */
  lemma CategoryIdsDistinct()
    ensures DistinctIds(Categories)
  {
    var prefixes := ["all", "hea", "sea", "sus", "sup", "rec", "tec"];
    forall i | 0 <= i < |Categories|
      ensures Categories[i].id[..3] == prefixes[i]
    {
    }
    forall i, j | 0 <= i < j < |Categories|
      ensures Categories[i].id != Categories[j].id
    {
      assert prefixes[i] != prefixes[j];
    }
  }

  /** No row's label is also an id: every id starts with a lower-case letter and
      every label with an upper-case one. */
  lemma LabelsAreNotIds()
    ensures forall i, j :: 0 <= i < |Categories| && 0 <= j < |Categories| ==> Categories[i].name != Categories[j].id
  {
    forall i, j | 0 <= i < |Categories| && 0 <= j < |Categories|
      ensures Categories[i].name != Categories[j].id
    {
      assert 'A' <= Categories[i].name[0] <= 'Z';
      assert 'a' <= Categories[j].id[0] <= 'z';
    }
  }

  /** The page's table has distinct ids, so every row's label is found; a post
      whose category holds a label, such as "Recipes", instead of an id gets no
      badge text. */
  lemma LabelsOfTable()
    ensures forall i :: 0 <= i < |Categories| ==> CategoryLabel(Categories[i].id) == Some(Categories[i].name)
    ensures forall i :: 0 <= i < |Categories| ==> CategoryLabel(Categories[i].name) == None
  {
    CategoryIdsDistinct();
    LabelsOfRows(Categories);
    LabelsAreNotIds();
  }
}

=== FILE: cart_lines.dfy ===
/** The client-held mirror of the remote cart, shared by both cart pages
    (`src/pages/Shop/CartPage.jsx` and `src/pages/CartPage.jsx`): the shape of a
    cart line as the server returns it, how a line is matched to a product id,
    and the quantity-update and removal handlers, whose code is the same on both
    pages. */
module CartLines {
  import opened Outcomes
  import Seqs

  /** The product a cart line refers to, when the server populated the reference. */
  datatype Product = Product(id: string, name: string, price: int)

  /** `item.productId` as received: `null`, a bare id string, or a populated object. */
  datatype ProductRef = NullRef | IdRef(raw: string) | Populated(product: Product)

  datatype CartLine = CartLine(ref: ProductRef, quantity: int)

  /** The requests the cart code sends, by endpoint; each also carries the
      session's user id, which is not recorded. */
  datatype CartRequest =
    | FetchCart                                                 // GET /cart
    | UpdateLine(lineKey: Option<string>, quantity: int)        // PUT /cart/update
    | AddLine(productId: string, addQuantity: int)              // POST /cart/add
    | PostLine(postedId: string, postedQuantity: Option<int>)   // POST /cart

  /** A handler's effect: the local cart afterwards and the requests it sent, in order. */
  datatype CartStep = CartStep(cart: seq<CartLine>, requests: seq<CartRequest>)

  /** `item.productId._id`: only a populated reference has one. */
  function KeyOf(line: CartLine): (r: Option<string>)
    ensures r.Some? <==> line.ref.Populated?
  {
    if line.ref.Populated? then Some(line.ref.product.id) else None
  }

  /** `item.productId._id === productId`. */
  predicate HasId(line: CartLine, pid: string) {
    line.ref.Populated? && line.ref.product.id == pid
  }

  /** The filter callback `(item) => item.productId._id !== productId`. */
  function Other(pid: string): CartLine -> bool {
    (line: CartLine) => !HasId(line, pid)
  }

  /** None of the first `n` lines matches `pid`, and none of them is a null reference. */
  ghost predicate PassedOver(cart: seq<CartLine>, pid: string, n: int) {
    forall j :: 0 <= j < n && j < |cart| ==> !HasId(cart[j], pid) && !cart[j].ref.NullRef?
  }

  /** What `cart.find`/`cart.some` with the callback `item.productId._id === pid`
      does: the first matching line, no match, or a `TypeError` thrown on reaching a
      null reference before any match. */
  datatype Lookup = Found(index: nat) | Absent | Throws

  function Find(cart: seq<CartLine>, pid: string): (r: Lookup)
    ensures r.Found? ==> r.index < |cart| && HasId(cart[r.index], pid) && PassedOver(cart, pid, r.index)
    ensures r.Absent? <==> PassedOver(cart, pid, |cart|)
    ensures r.Throws? ==> exists j :: 0 <= j < |cart| && cart[j].ref.NullRef? && PassedOver(cart, pid, j)
  {
    if |cart| == 0 then Absent
    else if cart[0].ref.NullRef? then Throws
    else if HasId(cart[0], pid) then Found(0)
    else
      match Find(cart[1..], pid)
      case Found(i) => Found(i + 1)
      case Absent => Absent
      case Throws => Throws
  }

  /** `cart.map(item => item.productId._id === pid ? { ...item, quantity: q } : item)`. */
  function SetQuantity(cart: seq<CartLine>, pid: string, q: int): (r: seq<CartLine>)
    ensures |r| == |cart|
    ensures forall i :: 0 <= i < |r| ==> r[i].ref == cart[i].ref
    ensures forall i :: 0 <= i < |r| && HasId(cart[i], pid) ==> r[i].quantity == q
    ensures forall i :: 0 <= i < |r| && !HasId(cart[i], pid) ==> r[i] == cart[i]
  {
    seq(|cart|, i requires 0 <= i < |cart| =>
      if HasId(cart[i], pid) then cart[i].(quantity := q) else cart[i])
  }

  /** `cart.map(item => item.productId._id === pid ? { ...item, quantity: item.quantity + 1 } : item)`. */
  function Increment(cart: seq<CartLine>, pid: string): (r: seq<CartLine>)
    ensures |r| == |cart|
    ensures forall i :: 0 <= i < |r| ==> r[i].ref == cart[i].ref
    ensures forall i :: 0 <= i < |r| && HasId(cart[i], pid) ==> r[i].quantity == cart[i].quantity + 1
    ensures forall i :: 0 <= i < |r| && !HasId(cart[i], pid) ==> r[i] == cart[i]
  {
    seq(|cart|, i requires 0 <= i < |cart| =>
      if HasId(cart[i], pid) then cart[i].(quantity := cart[i].quantity + 1) else cart[i])
  }

  /** `cart.filter(item => item.productId._id !== pid)`: drops every line for `pid`
      and keeps all other lines in their order. */
  function RemoveLines(cart: seq<CartLine>, pid: string): (r: seq<CartLine>)
    ensures Seqs.SubseqOf(r, cart)
    ensures forall i :: 0 <= i < |r| ==> !HasId(r[i], pid)
    ensures forall i :: 0 <= i < |cart| && !HasId(cart[i], pid) ==> cart[i] in r
    ensures forall i :: 0 <= i < |cart| ==>
              multiset(r)[cart[i]] == if HasId(cart[i], pid) then 0 else multiset(cart)[cart[i]]
  {
    Seqs.FilterIsSubseq(cart, Other(pid));
    Seqs.FilterCounts(cart, Other(pid));
    Seqs.Filter(cart, Other(pid))
  }

  /** `updateQuantity(productId, newQuantity)`: a quantity below 1 is refused before
      any request; otherwise one `PUT /cart/update` with the new quantity, and only
      when it succeeds do the matching lines take that quantity. */
  function UpdateQuantity(cart: seq<CartLine>, pid: string, newQuantity: int, res: Remote<()>): (r: CartStep)
    ensures newQuantity < 1 ==> r == CartStep(cart, [])
    ensures newQuantity >= 1 ==> r.requests == [UpdateLine(Some(pid), newQuantity)]
    ensures newQuantity >= 1 && res.Err? ==> r.cart == cart
    ensures newQuantity >= 1 && res.Ok? ==>
              |r.cart| == |cart| &&
              (forall i :: 0 <= i < |cart| && HasId(cart[i], pid) ==> r.cart[i] == cart[i].(quantity := newQuantity)) &&
              (forall i :: 0 <= i < |cart| && !HasId(cart[i], pid) ==> r.cart[i] == cart[i])
  {
    if newQuantity < 1 then CartStep(cart, [])
    else
      var sent := [UpdateLine(Some(pid), newQuantity)];
      match res
      case Ok(_) => CartStep(SetQuantity(cart, pid, newQuantity), sent)
      case Err(_) => CartStep(cart, sent)
  }

  /** `removeFromCart(productId)`: sends quantity 0 (the server's removal), and on
      success drops the product's lines locally; a failure changes nothing. */
  function RemoveFromCart(cart: seq<CartLine>, pid: string, res: Remote<()>): (r: CartStep)
    ensures r.requests == [UpdateLine(Some(pid), 0)]
    ensures res.Err? ==> r.cart == cart
    ensures res.Ok? ==> Seqs.SubseqOf(r.cart, cart)
    ensures res.Ok? ==> forall i :: 0 <= i < |r.cart| ==> !HasId(r.cart[i], pid)
    ensures res.Ok? ==> forall i :: 0 <= i < |cart| && !HasId(cart[i], pid) ==> cart[i] in r.cart
    ensures res.Ok? ==> forall i :: 0 <= i < |cart| ==>
              multiset(r.cart)[cart[i]] == if HasId(cart[i], pid) then 0 else multiset(cart)[cart[i]]
  {
    var sent := [UpdateLine(Some(pid), 0)];
    match res
    case Ok(_) => CartStep(RemoveLines(cart, pid), sent)
    case Err(_) => CartStep(cart, sent)
  }

  /** Repeating a successful update changes nothing more. */
  lemma UpdateQuantityIdempotent(cart: seq<CartLine>, pid: string, q: int)
    ensures var once := UpdateQuantity(cart, pid, q, Ok(())).cart;
            UpdateQuantity(once, pid, q, Ok(())).cart == once
  {
  }

  /** Of two successful updates to the same product, the later one wins. */
  lemma UpdateQuantityLastWins(cart: seq<CartLine>, pid: string, a: int, b: int)
    requires a >= 1 && b >= 1
    ensures UpdateQuantity(UpdateQuantity(cart, pid, a, Ok(())).cart, pid, b, Ok(())).cart
         == UpdateQuantity(cart, pid, b, Ok(())).cart
  {
  }

  /** A quantity of 0 through `updateQuantity` is refused, while `removeFromCart`
      sends that same quantity and deletes the lines: the two are not the same operation. */
  lemma ZeroUpdateIsNotRemoval(cart: seq<CartLine>, pid: string, res: Remote<()>)
    ensures UpdateQuantity(cart, pid, 0, res) == CartStep(cart, [])
    ensures RemoveFromCart(cart, pid, res).requests == [UpdateLine(Some(pid), 0)]
  {
  }

  /** Removing after an update leaves the same cart as removing alone. */
  lemma {:induction false} RemoveAfterUpdate(cart: seq<CartLine>, pid: string, q: int)
    ensures RemoveLines(SetQuantity(cart, pid, q), pid) == RemoveLines(cart, pid)
  {
    if |cart| > 0 {
      var updated := SetQuantity(cart, pid, q);
      assert updated[1..] == SetQuantity(cart[1..], pid, q);
      RemoveAfterUpdate(cart[1..], pid, q);
    }
  }

  /** Removing twice is removing once. */
  lemma RemoveIdempotent(cart: seq<CartLine>, pid: string)
    ensures RemoveLines(RemoveLines(cart, pid), pid) == RemoveLines(cart, pid)
  {
    Seqs.FilterIdempotent(cart, Other(pid));
  }
}

=== FILE: cart_variants.dfy ===
/** How the two cart pages relate: they agree on updates and removals, differ on
    a failed load, and the routed page's guarded total is the older page's sum
    restricted to the lines that sum can read. */
module CartVariants {
  import opened Outcomes
  import Seqs
  import opened CartLines
  import ShopCart
  import LegacyCart

  /** A failed load empties the routed cart but leaves the older page's cart alone. */
  lemma FailedLoadDiffers(cart: seq<CartLine>, userId: string, status: int)
    requires userId != ""
    ensures ShopCart.LoadCart(cart, userId, Err(status)).cart == []
    ensures LegacyCart.LoadCart(cart, userId, Err(status)).cart == cart
  {
  }

  /** A successful load on the routed page is the older page's load, filtered. */
  lemma LoadIsFilteredLegacyLoad(cart: seq<CartLine>, userId: string, lines: seq<CartLine>)
    requires userId != ""
    ensures ShopCart.LoadCart(cart, userId, Ok(lines)).cart
         == Seqs.Filter(LegacyCart.LoadCart(cart, userId, Ok(lines)).cart, ShopCart.Displayable())
  {
  }

  predicate IsPopulated(line: CartLine) {
    line.ref.Populated?
  }

  function Populated(): CartLine -> bool {
    (line: CartLine) => IsPopulated(line)
  }

  /** Over populated lines the unguarded sum is a number, and it is the guarded total. */
  lemma {:induction false} TotalsAgreeOnPopulated(cart: seq<CartLine>)
    requires forall i :: 0 <= i < |cart| ==> cart[i].ref.Populated?
    ensures LegacyCart.CartTotal(cart) == LegacyCart.Number(ShopCart.CartTotal(cart))
  {
    if |cart| > 0 {
      var init := cart[..|cart| - 1];
      var last := cart[|cart| - 1];
      TotalsAgreeOnPopulated(init);
      ShopCart.CartTotalAppend(init, [last]);
      assert init + [last] == cart;
      assert ShopCart.CartTotal([last]) == ShopCart.LineValue(last);
    }
  }

  /** The guarded total skips exactly the lines whose reference is not an object. */
  lemma {:induction false} GuardedTotalSkipsUnpopulated(cart: seq<CartLine>)
    ensures ShopCart.CartTotal(cart) == ShopCart.CartTotal(Seqs.Filter(cart, Populated()))
  {
    if |cart| > 0 {
      GuardedTotalSkipsUnpopulated(cart[1..]);
    }
  }

  /** The routed page's total is the older page's sum over the populated lines. */
  lemma GuardedTotalIsLegacyTotalOfPopulated(cart: seq<CartLine>)
    ensures LegacyCart.CartTotal(Seqs.Filter(cart, Populated())) == LegacyCart.Number(ShopCart.CartTotal(cart))
  {
    GuardedTotalSkipsUnpopulated(cart);
    TotalsAgreeOnPopulated(Seqs.Filter(cart, Populated()));
  }
}

=== FILE: catalogue.dfy ===
/** Product records as the product pages hold them, the case-insensitive search
    shared by the new shop page and the admin product page, and the list updates
    the admin pages apply after a create, delete or edit. */
module Catalogue {
  import Seqs
  import opened Text

  /** A product of `GET /products`; an absent description is the empty string,
      which is falsy like `undefined`. */
  datatype Product = Product(id: string, name: string, description: string, price: int, category: string)

  /** The product-API requests the pages send. */
  datatype ProductRequest =
    | ListProducts                                    // GET /products
    | ListOwnProducts(userId: string)                 // GET /products/:userId
    | CreateProduct(form: ProductForm, owner: string) // POST /products/
    | DeleteProduct(productId: string)                // DELETE /products/:id
    | SaveProduct(savedId: string)                    // PUT /products/:id

  /** The add-product form; the price is the raw text of its input. */
  datatype ProductForm = ProductForm(name: string, description: string, price: string)

  const EmptyForm := ProductForm("", "", "")

  /** `!name || !description || !price` fails: every field is filled in. */
  predicate FormComplete(f: ProductForm) {
    f.name != "" && f.description != "" && f.price != ""
  }

  /** The search test: an empty term matches everything; otherwise the lowercased
      name, or the lowercased description when there is one, contains the
      lowercased term. */
  predicate MatchesSearch(p: Product, term: string) {
    term == ""
    || Includes(Lower(p.name), Lower(term))
    || (p.description != "" && Includes(Lower(p.description), Lower(term)))
  }

  function SearchKeep(term: string): Product -> bool {
    (p: Product) => MatchesSearch(p, term)
  }

  /** The search result: the matching products, in catalogue order. */
  function Search(products: seq<Product>, term: string): (r: seq<Product>)
    ensures Seqs.SubseqOf(r, products)
    ensures forall i :: 0 <= i < |r| ==> MatchesSearch(r[i], term)
    ensures forall i :: 0 <= i < |products| && MatchesSearch(products[i], term) ==> products[i] in r
    ensures forall i :: 0 <= i < |products| ==>
              multiset(r)[products[i]] == if MatchesSearch(products[i], term) then multiset(products)[products[i]] else 0
    ensures term == "" ==> r == products
  {
    Seqs.FilterIsSubseq(products, SearchKeep(term));
    Seqs.FilterCounts(products, SearchKeep(term));
    Seqs.FilterKeepsAll(products, SearchKeep(term));
    Seqs.Filter(products, SearchKeep(term))
  }

  /** A product matches a non-empty term exactly when the term, case folded,
      occurs at some position of its folded name or folded description. */
  lemma MatchesSearchIffOccurs(p: Product, term: string)
    requires term != ""
    ensures MatchesSearch(p, term) <==>
              (exists i :: OccursAt(Lower(p.name), Lower(term), i)) ||
              (p.description != "" && exists i :: OccursAt(Lower(p.description), Lower(term), i))
  {
    IncludesIffOccurs(Lower(p.name), Lower(term));
    IncludesIffOccurs(Lower(p.description), Lower(term));
  }

  /** The search ignores the case of the term. */
  lemma SearchIgnoresTermCase(p: Product, term: string)
    ensures term != "" ==> (MatchesSearch(p, term) <==> MatchesSearch(p, Lower(term)))
  {
    LowerIdempotent(term);
  }

  /** `[...products, created]`. */
  function Append(products: seq<Product>, created: Product): (r: seq<Product>)
    ensures |r| == |products| + 1 && r[..|products|] == products && r[|products|] == created
  {
    products + [created]
  }

  function OtherThan(id: string): Product -> bool {
    (p: Product) => p.id != id
  }

  /** `products.filter(product => product._id !== productId)`. */
  function RemoveById(products: seq<Product>, id: string): (r: seq<Product>)
    ensures Seqs.SubseqOf(r, products)
    ensures forall i :: 0 <= i < |r| ==> r[i].id != id
    ensures forall i :: 0 <= i < |products| && products[i].id != id ==> products[i] in r
    ensures forall i :: 0 <= i < |products| ==>
              multiset(r)[products[i]] == if products[i].id == id then 0 else multiset(products)[products[i]]
  {
    Seqs.FilterIsSubseq(products, OtherThan(id));
    Seqs.FilterCounts(products, OtherThan(id));
    Seqs.Filter(products, OtherThan(id))
  }

  /** `products.map(p => p._id === updated._id ? updated : p)`: positions and all
      other products stay; every product with the id becomes `updated`. */
  function ReplaceById(products: seq<Product>, updated: Product): (r: seq<Product>)
    ensures |r| == |products|
    ensures forall i :: 0 <= i < |r| && products[i].id == updated.id ==> r[i] == updated
    ensures forall i :: 0 <= i < |r| && products[i].id != updated.id ==> r[i] == products[i]
  {
    seq(|products|, i requires 0 <= i < |products| =>
      if products[i].id == updated.id then updated else products[i])
  }

  /** Deleting a product after editing it leaves the same list as deleting it. */
  lemma {:induction false} RemoveAfterReplace(products: seq<Product>, updated: Product)
    ensures RemoveById(ReplaceById(products, updated), updated.id) == RemoveById(products, updated.id)
  {
    if |products| > 0 {
      assert ReplaceById(products, updated)[1..] == ReplaceById(products[1..], updated);
      RemoveAfterReplace(products[1..], updated);
    }
  }

  /** Saving the same edit twice is saving it once. */
  lemma ReplaceIdempotent(products: seq<Product>, updated: Product)
    ensures ReplaceById(ReplaceById(products, updated), updated) == ReplaceById(products, updated)
  {
  }

  /** A newly created product with a fresh id is found again after its creation
      and removed again by deleting it. */
  lemma {:induction false} RemoveUndoesAppend(products: seq<Product>, created: Product)
    requires forall i :: 0 <= i < |products| ==> products[i].id != created.id
    ensures RemoveById(Append(products, created), created.id) == products
  {
    Seqs.FilterAppend(products, [created], OtherThan(created.id));
    Seqs.FilterKeepsAll(products, OtherThan(created.id));
  }
}

=== FILE: header.dfy ===
/** The site header, `src/components/Header.jsx`: the navigation links, which
    of them depends on the user's role, and the cart, chat and user buttons with
    the paths they navigate to. */
module Header {
  import opened Outcomes
  import opened AuthStore
  import Routes

  /** The navigation bar's links, left to right: the fifth is the product
      manager for an admin and the shop for everyone else. */
  function NavLinks(authUser: Option<User>): (r: seq<string>)
    ensures |r| == 6 && r[0] == "/" && r[5] == "/contact"
    ensures "/products" in r <==> Routes.IsAdmin(authUser)
    ensures "/shop" in r <==> !Routes.IsAdmin(authUser)
  {
    ["/", "/about", "/service", "/projects",
     if Routes.IsAdmin(authUser) then "/products" else "/shop",
     "/contact"]
  }

  /** Every navigation link shown opens its page for the user it is shown to:
      the header never offers a link the route table would bounce. */
  lemma NavLinksRender(authUser: Option<User>)
    ensures forall i :: 0 <= i < |NavLinks(authUser)| ==> Routes.Resolve(NavLinks(authUser)[i], authUser).Render?
  {
    var links := NavLinks(authUser);
    forall i | 0 <= i < |links|
      ensures Routes.Resolve(links[i], authUser).Render?
    {
      var s := [Routes.HomeView, Routes.AboutView, Routes.ServiceView, Routes.ProjectsView,
                if Routes.IsAdmin(authUser) then Routes.ProductsView else Routes.ShopView,
                Routes.ContactView][i];
      assert Routes.PathOf(s) == links[i];
      Routes.RendersIffAllowed(s, authUser);
    }
  }

  datatype Button = CartButton | ChatButton | UserButton

  /** The icon buttons drawn: the cart for anyone who is not an admin (signed out
      included), the chat for a signed-in user, and the user button always. */
  function Buttons(authUser: Option<User>): (r: seq<Button>)
    ensures CartButton in r <==> !Routes.IsAdmin(authUser)
    ensures ChatButton in r <==> authUser.Some?
    ensures UserButton in r
  {
    (if !Routes.IsAdmin(authUser) then [CartButton] else []) +
    (if authUser.Some? then [ChatButton] else []) +
    [UserButton]
  }

  /** Where a button navigates: the user button to the profile when signed in and
      to the login form otherwise. */
  function Target(b: Button, authUser: Option<User>): (r: string)
    ensures b == UserButton ==> (r == "/profile" <==> authUser.Some?)
    ensures b == UserButton ==> (r == "/login" <==> authUser.None?)
    ensures b == CartButton ==> r == "/cart"
    ensures b == ChatButton ==> r == "/chat"
  {
    match b
    case CartButton => "/cart"
    case ChatButton => "/chat"
    case UserButton => if authUser.Some? then "/profile" else "/login"
  }

  /** A shown button opens its page, with one exception: the cart button offered
      to a signed-out visitor lands on the login form. */
  lemma ButtonsLand(authUser: Option<User>, b: Button)
    requires b in Buttons(authUser)
    ensures Routes.Resolve(Target(b, authUser), authUser).Render? <==> !(b == CartButton && authUser.None?)
    ensures b == CartButton && authUser.None? ==> Routes.Resolve(Target(b, authUser), authUser) == Routes.Redirect("/login")
  {
    var s := match b
      case CartButton => Routes.CartView
      case ChatButton => Routes.ChatView
      case UserButton => if authUser.Some? then Routes.ProfileView else Routes.LoginView;
    assert Routes.PathOf(s) == Target(b, authUser);
    Routes.ResolveOwnPath(s, authUser);
  }

  /** An admin has no cart button, though the cart page itself is open to any
      signed-in user. */
  lemma AdminCartOnlyByAddress(admin: User)
    requires admin.role == "admin"
    ensures CartButton !in Buttons(Some(admin))
    ensures Routes.Resolve("/cart", Some(admin)) == Routes.Render(Routes.CartView)
  {
    Routes.ResolveOwnPath(Routes.CartView, Some(admin));
  }
}

=== FILE: legacy_admin_products.dfy ===
/** The older admin product page, `src/pages/AdminPage/ProductPage.jsx`: the
    signed-in user's products in one unpaged grid, an add button only an admin
    sees, and the fetch, add, delete and update handlers it shares with the newer
    admin page. */
module LegacyAdminProducts {
  import opened Outcomes
  import opened Catalogue
  import AdminProducts
  import AuthStore
  import Routes

  /** `authUser?.role === "admin"`: the add button is drawn exactly for the users
      the product-manager route is open to, and never for a signed-out visitor. */
  function AddButtonShown(authUser: Option<AuthStore.User>): (r: bool)
    ensures r <==> Routes.Allowed(Routes.ProductsView, authUser)
    ensures authUser.None? ==> !r
  {
    authUser.Some? && authUser.value.role == "admin"
  }

  /** The fetch effect, guarded by the user id. */
  function FetchProducts(l: AdminProducts.Listing, authId: string, res: Remote<Option<seq<Product>>>): (r: AdminProducts.ListingStep)
    ensures authId == "" ==> r.listing == l && r.requests == []
    ensures authId != "" ==> r.requests == [ListOwnProducts(authId)]
    ensures authId != "" && res.Ok? && res.value.Some? ==> r.listing == l.(products := res.value.value)
    ensures authId != "" && !(res.Ok? && res.value.Some?) ==> r.listing == l
  {
    AdminProducts.FetchProducts(l, authId, res)
  }

  /** `handleAddProduct`. */
  function AddProduct(l: AdminProducts.Listing, authId: string, res: Remote<Product>): (r: AdminProducts.ListingStep)
    ensures !FormComplete(l.form) ==> r.listing == l && r.requests == []
    ensures FormComplete(l.form) ==> r.requests == [CreateProduct(l.form, AdminProducts.Owner(authId))]
    ensures FormComplete(l.form) && res.Err? ==> r.listing == l
    ensures FormComplete(l.form) && res.Ok? ==>
              r.listing.products == l.products + [res.value] && r.listing.form == EmptyForm && !r.listing.modalOpen
  {
    AdminProducts.AddProduct(l, authId, res)
  }

  /** A card's delete on this page: the same repeated request as on the newer page. */
  function CardDelete(l: AdminProducts.Listing, productId: string, cardRes: Remote<()>, pageRes: Remote<()>): (r: AdminProducts.ListingStep)
    ensures productId != "" && cardRes.Ok? ==>
              r.requests == [Catalogue.DeleteProduct(productId), Catalogue.DeleteProduct(productId)]
    ensures productId != "" && cardRes.Ok? && pageRes.Ok? ==> r.listing.products == RemoveById(l.products, productId)
    ensures productId != "" && cardRes.Ok? && pageRes.Err? ==> r.listing == l
    ensures productId == "" || cardRes.Err? ==>
              r.listing == l && r.requests == (if productId == "" then [] else [Catalogue.DeleteProduct(productId)])
  {
    AdminProducts.CardDeleteAsWritten(AdminProducts.AdminState(l, "", 1), productId, cardRes, pageRes)
  }

  /** A card's save on this page: the saved product replaces the one with its id. */
  function CardSave(l: AdminProducts.Listing, productId: string, res: Remote<Product>): (r: AdminProducts.ListingStep)
    ensures productId == "" || res.Err? ==> r.listing == l
    ensures productId != "" && res.Ok? ==>
              |r.listing.products| == |l.products| &&
              (forall i :: 0 <= i < |l.products| && l.products[i].id == res.value.id ==> r.listing.products[i] == res.value) &&
              (forall i :: 0 <= i < |l.products| && l.products[i].id != res.value.id ==> r.listing.products[i] == l.products[i])
  {
    AdminProducts.CardSave(AdminProducts.AdminState(l, "", 1), productId, res)
  }

  /** Both admin pages list the same products after the same handlers: this page
      is the newer one with an empty search on page 1. */
  lemma SameAsNewerPageUnfiltered(l: AdminProducts.Listing)
    ensures AdminProducts.Filtered(AdminProducts.AdminState(l, "", 1)) == l.products
    ensures |l.products| <= 9 ==> AdminProducts.Paginated(AdminProducts.AdminState(l, "", 1)) == l.products
  {
  }
}

=== FILE: legacy_cart.dfy ===
/** The older cart page, `src/pages/CartPage.jsx`: it loads the server's lines
    without any validation, keeps the cart on a failed load, shares the update and
    remove handlers of the routed page, and sums the lines without guarding
    against unpopulated product references. */
module LegacyCart {
  import opened Outcomes
  import Seqs
  import opened CartLines

  /** The mount effect: with a user id, `GET /cart`; the response replaces the cart
      as it is, and a failure leaves the cart as it was. */
  function LoadCart(cart: seq<CartLine>, userId: string, res: Remote<seq<CartLine>>): (r: CartStep)
    ensures userId == "" ==> r == CartStep(cart, [])
    ensures userId != "" ==> r.requests == [FetchCart]
    ensures userId != "" && res.Err? ==> r.cart == cart
    ensures userId != "" && res.Ok? ==> r.cart == res.value
  {
    if userId == "" then CartStep(cart, [])
    else
      match res
      case Ok(lines) => CartStep(lines, [FetchCart])
      case Err(_) => CartStep(cart, [FetchCart])
  }

  /** `updateQuantity`: the same code as on the routed cart page. */
  function UpdateQuantity(cart: seq<CartLine>, pid: string, newQuantity: int, res: Remote<()>): (r: CartStep)
    ensures newQuantity < 1 ==> r == CartStep(cart, [])
    ensures newQuantity >= 1 ==> r.requests == [UpdateLine(Some(pid), newQuantity)]
    ensures newQuantity >= 1 && res.Err? ==> r.cart == cart
    ensures newQuantity >= 1 && res.Ok? ==>
              |r.cart| == |cart| &&
              (forall i :: 0 <= i < |cart| && HasId(cart[i], pid) ==> r.cart[i] == cart[i].(quantity := newQuantity)) &&
              (forall i :: 0 <= i < |cart| && !HasId(cart[i], pid) ==> r.cart[i] == cart[i])
  {
    CartLines.UpdateQuantity(cart, pid, newQuantity, res)
  }

  /** `removeFromCart`: the same code as on the routed cart page. */
  function RemoveFromCart(cart: seq<CartLine>, pid: string, res: Remote<()>): (r: CartStep)
    ensures r.requests == [UpdateLine(Some(pid), 0)]
    ensures res.Err? ==> r.cart == cart
    ensures res.Ok? ==> Seqs.SubseqOf(r.cart, cart)
    ensures res.Ok? ==> forall i :: 0 <= i < |r.cart| ==> !HasId(r.cart[i], pid)
    ensures res.Ok? ==> forall i :: 0 <= i < |cart| && !HasId(cart[i], pid) ==> cart[i] in r.cart
    ensures res.Ok? ==> forall i :: 0 <= i < |cart| ==>
              multiset(r.cart)[cart[i]] == if HasId(cart[i], pid) then 0 else multiset(cart)[cart[i]]
  {
    CartLines.RemoveFromCart(cart, pid, res)
  }

  /** The value of an unguarded JavaScript sum: a number, `NaN` (after
      `undefined * quantity` for a bare id string), or a `TypeError` thrown by
      reading `price` of `null`. */
  datatype Sum = Number(n: int) | NotANumber | Thrown

  /** One step of `(total, item) => total + item.quantity * item.productId.price`. */
  function AddLine(acc: Sum, line: CartLine): Sum {
    if acc.Thrown? || line.ref.NullRef? then Thrown
    else if acc.NotANumber? || line.ref.IdRef? then NotANumber
    else Number(acc.n + line.quantity * line.ref.product.price)
  }

  /** `calculateCartTotal`: the `reduce` from 0, left to right. */
  function CartTotal(cart: seq<CartLine>): (r: Sum)
    ensures r.Thrown? <==> exists i :: 0 <= i < |cart| && cart[i].ref.NullRef?
    ensures r.NotANumber? <==>
              (forall i :: 0 <= i < |cart| ==> !cart[i].ref.NullRef?) &&
              (exists i :: 0 <= i < |cart| && cart[i].ref.IdRef?)
  {
    if |cart| == 0 then Number(0)
    else
      var init := cart[..|cart| - 1];
      assert forall i :: 0 <= i < |init| ==> init[i] == cart[i];
      AddLine(CartTotal(init), cart[|cart| - 1])
  }
}

=== FILE: legacy_shop.dfy ===
/** The older shop page, `src/pages/Shop.jsx`: a stored result list recomputed
    only by the Search button (name, category and applied price range), two
    unguarded range sliders over [0, 100], and nine products per page. */
module LegacyShop {
  import opened Outcomes
  import Seqs
  import opened Text
  import opened Paging
  import opened Catalogue

  /** The category list of the sidebar; "All" switches the category test off. */
  const Categories: seq<string> :=
    ["All", "Vegetables", "Fruits", "Grains", "Pulses", "Seeds", "Fertilizers", "Tools"]

  datatype LegacyShopState = LegacyShopState(
    products: seq<Product>,
    pendingLow: int, pendingHigh: int,     // `priceRange`, set by the sliders
    appliedLow: int, appliedHigh: int,     // `appliedPriceRange`
    page: int,
    category: string,
    query: string,
    filtered: seq<Product>)                // `filteredProducts`, a stored list

  const Initial := LegacyShopState([], 0, 100, 0, 100, 1, "All", "", [])

  /** The test of `handleSearch`: the folded name contains the folded query, the
      category is "All" or the product's own, and the price lies in the range. */
  predicate Matches(p: Product, query: string, category: string, low: int, high: int) {
    Includes(Lower(p.name), Lower(query))
    && (category == "All" || p.category == category)
    && low <= p.price <= high
  }

  function MatchKeep(query: string, category: string, low: int, high: int): Product -> bool {
    (p: Product) => Matches(p, query, category, low, high)
  }

  /** The list `handleSearch` computes from the catalogue and the given range. */
  function SearchResult(products: seq<Product>, query: string, category: string, low: int, high: int): (r: seq<Product>)
    ensures Seqs.SubseqOf(r, products)
    ensures forall i :: 0 <= i < |r| ==> Matches(r[i], query, category, low, high)
    ensures forall i :: 0 <= i < |products| && Matches(products[i], query, category, low, high) ==> products[i] in r
    ensures forall i :: 0 <= i < |products| ==>
              multiset(r)[products[i]] == if Matches(products[i], query, category, low, high) then multiset(products)[products[i]] else 0
  {
    Seqs.FilterIsSubseq(products, MatchKeep(query, category, low, high));
    Seqs.FilterCounts(products, MatchKeep(query, category, low, high));
    Seqs.Filter(products, MatchKeep(query, category, low, high))
  }

  /** `handleSearch`: recompute the stored list from the applied range and go to page 1. */
  function HandleSearch(st: LegacyShopState): (r: LegacyShopState)
    ensures r.page == 1
    ensures r == st.(filtered := r.filtered, page := 1)
    ensures Seqs.SubseqOf(r.filtered, st.products)
    ensures forall i :: 0 <= i < |r.filtered| ==>
              Matches(r.filtered[i], st.query, st.category, st.appliedLow, st.appliedHigh)
    ensures forall i :: 0 <= i < |st.products| ==>
              Matches(st.products[i], st.query, st.category, st.appliedLow, st.appliedHigh) ==> st.products[i] in r.filtered
    ensures forall i :: 0 <= i < |st.products| ==>
              multiset(r.filtered)[st.products[i]] ==
                if Matches(st.products[i], st.query, st.category, st.appliedLow, st.appliedHigh)
                then multiset(st.products)[st.products[i]] else 0
  {
    st.(filtered := SearchResult(st.products, st.query, st.category, st.appliedLow, st.appliedHigh), page := 1)
  }

  /** Every listed product is within the applied price range. */
  predicate ShownWithinApplied(st: LegacyShopState) {
    forall i :: 0 <= i < |st.filtered| ==> st.appliedLow <= st.filtered[i].price <= st.appliedHigh
  }

  /** `applyPriceFilter` as written: the applied range takes the sliders' values,
      but the search that follows in the same handler still reads the range
      captured before the click. */
  function ApplyPriceFilterAsWritten(st: LegacyShopState): (r: LegacyShopState)
    ensures r.appliedLow == st.pendingLow && r.appliedHigh == st.pendingHigh && r.page == 1
    ensures forall i :: 0 <= i < |r.filtered| ==> st.appliedLow <= r.filtered[i].price <= st.appliedHigh
  {
    HandleSearch(st).(appliedLow := st.pendingLow, appliedHigh := st.pendingHigh)
  }

  /** With one product priced 50, narrowing the range to [0, 10] and applying it
      still lists the product: the list disagrees with the applied range. */
  lemma ApplyPriceFilterAsWrittenShowsStaleRange()
    ensures var p := Product("p1", "Rice", "", 50, "Grains");
            var st := LegacyShopState([p], 0, 10, 0, 100, 1, "All", "", [p]);
            var r := ApplyPriceFilterAsWritten(st);
            r.filtered == [p] && r.appliedHigh == 10 && !ShownWithinApplied(r)
  {
    var p := Product("p1", "Rice", "", 50, "Grains");
    var st := LegacyShopState([p], 0, 10, 0, 100, 1, "All", "", [p]);
    IncludesEmpty(Lower(p.name));
    Seqs.FilterKeepsAll([p], MatchKeep("", "All", 0, 100));
    assert ApplyPriceFilterAsWritten(st).filtered[0] == p;
  }

  /** `applyPriceFilter` as intended: apply the sliders' range, then search with it. */
  function ApplyPriceFilter(st: LegacyShopState): (r: LegacyShopState)
    ensures r.appliedLow == st.pendingLow && r.appliedHigh == st.pendingHigh && r.page == 1
    ensures ShownWithinApplied(r)
    ensures r.filtered == SearchResult(st.products, st.query, st.category, st.pendingLow, st.pendingHigh)
  {
    HandleSearch(st.(appliedLow := st.pendingLow, appliedHigh := st.pendingHigh))
  }

  /** The corrected handler and the one as written agree exactly when the sliders
      were already applied. */
  lemma ApplyAgreesWhenRangeUnchanged(st: LegacyShopState)
    requires st.pendingLow == st.appliedLow && st.pendingHigh == st.appliedHigh
    ensures ApplyPriceFilter(st) == ApplyPriceFilterAsWritten(st)
  {
  }

  /** The lower slider: its range input yields a value in [0, 100], with no check
      against the upper slider. Only the slider moves: the list and the applied
      range wait for Apply, which then lists nothing cheaper than this value. */
  function SetLowSlider(st: LegacyShopState, value: int): (r: LegacyShopState)
    requires 0 <= value <= 100
    ensures r == st.(pendingLow := r.pendingLow) && r.pendingLow == value
    ensures r.filtered == st.filtered && r.appliedLow == st.appliedLow
    ensures forall i :: 0 <= i < |ApplyPriceFilter(r).filtered| ==> value <= ApplyPriceFilter(r).filtered[i].price
  {
    st.(pendingLow := value)
  }

  /** The upper slider: its range input runs from the lower value to 100 (or
      holds the lower value alone when that exceeds 100), so this slider never
      crosses the lower one. The list waits for Apply, which then lists nothing
      dearer than this value. */
  function SetHighSlider(st: LegacyShopState, value: int): (r: LegacyShopState)
    requires st.pendingLow <= value && (value <= 100 || value == st.pendingLow)
    ensures r == st.(pendingHigh := r.pendingHigh) && r.pendingHigh == value
    ensures r.pendingLow <= r.pendingHigh
    ensures r.filtered == st.filtered && r.appliedHigh == st.appliedHigh
    ensures forall i :: 0 <= i < |ApplyPriceFilter(r).filtered| ==> ApplyPriceFilter(r).filtered[i].price <= value
  {
    st.(pendingHigh := value)
  }

  /** Moving the lower slider past the upper one is accepted, and applying such a
      crossed range lists nothing at all. */
  lemma CrossedSlidersListNothing(st: LegacyShopState, value: int)
    requires st.pendingHigh < value <= 100 && 0 <= value
    ensures SetLowSlider(st, value).pendingLow > SetLowSlider(st, value).pendingHigh
    ensures ApplyPriceFilter(SetLowSlider(st, value)).filtered == []
  {
  }

  /** Clicking one of the sidebar's categories only selects it; the next search
      applies it. */
  function SelectCategory(st: LegacyShopState, category: string): (r: LegacyShopState)
    requires category in Categories
    ensures r == st.(category := r.category) && r.category == category
    ensures r.filtered == st.filtered
    ensures forall i :: 0 <= i < |HandleSearch(r).filtered| ==>
              category == "All" || HandleSearch(r).filtered[i].category == category
  {
    st.(category := category)
  }

  lemma SearchAfterCategoryKeepsOnlyIt(st: LegacyShopState, category: string)
    requires category in Categories && category != "All"
    ensures SelectCategory(st, category).filtered == st.filtered
    ensures forall i :: 0 <= i < |HandleSearch(SelectCategory(st, category)).filtered| ==>
              HandleSearch(SelectCategory(st, category)).filtered[i].category == category
  {
  }

  /** The typed query only changes the search box; the next search applies it. */
  function SetQuery(st: LegacyShopState, query: string): (r: LegacyShopState)
    ensures r == st.(query := r.query) && r.query == query
    ensures r.filtered == st.filtered
    ensures forall i :: 0 <= i < |HandleSearch(r).filtered| ==>
              Includes(Lower(HandleSearch(r).filtered[i].name), Lower(query))
  {
    st.(query := query)
  }

  /** The mount effect `GET /products`: an array payload becomes both the catalogue
      and the stored list; anything else leaves the state alone. */
  function LoadProducts(st: LegacyShopState, res: Remote<Option<seq<Product>>>): (r: LegacyShopState)
    ensures res.Ok? && res.value.Some? ==> r == st.(products := res.value.value, filtered := res.value.value)
    ensures !(res.Ok? && res.value.Some?) ==> r == st
  {
    match res
    case Ok(Some(ps)) => st.(products := ps, filtered := ps)
    case _ => st
  }

  /** After the load every product is listed, in order, and a search with the
      initial settings keeps every product priced within [0, 100]. */
  lemma LoadThenSearchKeepsInitialRange(ps: seq<Product>)
    ensures LoadProducts(Initial, Ok(Some(ps))).filtered == ps
    ensures forall i :: 0 <= i < |ps| && 0 <= ps[i].price <= 100 ==>
              ps[i] in HandleSearch(LoadProducts(Initial, Ok(Some(ps)))).filtered
  {
    forall i | 0 <= i < |ps| && 0 <= ps[i].price <= 100
      ensures Matches(ps[i], "", "All", 0, 100)
    {
      IncludesEmpty(Lower(ps[i].name));
    }
  }

  /** `paginatedProducts`. */
  function Paginated(st: LegacyShopState): (r: seq<Product>)
    ensures st.page >= 1 ==> |r| <= ItemsPerPage
  {
    PageOf(st.filtered, st.page)
  }

  /** The page-number buttons, `Math.ceil(filteredProducts.length / 9)` of them. */
  function Buttons(st: LegacyShopState): (r: seq<int>)
    ensures |r| == TotalPages(|st.filtered|)
    ensures forall i :: 0 <= i < |r| ==> r[i] == i + 1
    ensures |r| * ItemsPerPage >= |st.filtered|
    ensures forall i :: 0 <= i < |r| ==> |PageOf(st.filtered, r[i])| > 0
  {
    var r := PageButtons(TotalPages(|st.filtered|));
    assert forall i :: 0 <= i < |r| ==> r[i] == i + 1 && r[i] <= TotalPages(|st.filtered|);
    forall i | 0 <= i < |r| {
      PageNonEmptyIff(st.filtered, r[i]);
    }
    r
  }

  /** A page button selects its page. */
  function SelectPage(st: LegacyShopState, num: int): (r: LegacyShopState)
    requires num in Buttons(st)
    ensures r == st.(page := num)
    ensures |Paginated(r)| > 0
  {
    st.(page := num)
  }
}

=== FILE: outcomes.dfy ===
/** Values that stand in for what the front end receives from outside: an optional
    value (a JavaScript `null`/`undefined` or a present value) and the outcome of an
    HTTP request made through the shared axios instance. */
module Outcomes {

  /** A value that may be absent (`null` or `undefined` in the source). */
  datatype Option<+T> = None | Some(value: T)

  /** The settled outcome of one awaited request: the response payload, or the
      rejection with its HTTP status (0 when the rejection carries no response). */
  datatype Remote<+T> = Ok(value: T) | Err(status: int)
}

=== FILE: paging.dfy ===
/** Client-side pagination shared by the shop and admin product pages:
    `itemsPerPage = 9`, `list.slice((currentPage - 1) * itemsPerPage,
    currentPage * itemsPerPage)`, `Math.ceil(length / itemsPerPage)` and the
    guarded next/previous buttons. */
module Paging {

  const ItemsPerPage: nat := 9

  function Min(a: int, b: int): int {
    if a <= b then a else b
  }

  function Max(a: int, b: int): int {
    if a <= b then b else a
  }

  /** How `Array.prototype.slice` reads an index against a list of length `n`:
      a negative index counts back from the end, and both ends are clamped. */
  function SliceIndex(i: int, n: nat): (r: nat)
    ensures r <= n
    ensures 0 <= i ==> r == Min(i, n)
    ensures i < 0 ==> r == Max(n + i, 0)
  {
    if i < 0 then (if n + i < 0 then 0 else n + i)
    else if i > n then n
    else i
  }

  /** `xs.slice(start, end)`. */
  function Slice<T>(xs: seq<T>, start: int, end: int): (r: seq<T>)
    ensures |r| <= |xs|
    ensures 0 <= start <= end ==> r == xs[Min(start, |xs|)..Min(end, |xs|)]
  {
    var s := SliceIndex(start, |xs|);
    var e := SliceIndex(end, |xs|);
    if s < e then xs[s..e] else []
  }

  /** The items shown on page `page` (pages are numbered from 1). */
  function PageOf<T>(xs: seq<T>, page: int): (r: seq<T>)
    ensures page >= 1 ==> |r| <= ItemsPerPage
    ensures page >= 1 && (page - 1) * ItemsPerPage < |xs| ==>
              r == xs[(page - 1) * ItemsPerPage..Min(page * ItemsPerPage, |xs|)]
    ensures page >= 1 && (page - 1) * ItemsPerPage >= |xs| ==> r == []
  {
    Slice(xs, (page - 1) * ItemsPerPage, page * ItemsPerPage)
  }

  /** `Math.ceil(n / itemsPerPage)`: the fewest pages of nine that hold `n` items. */
  function TotalPages(n: nat): (r: nat)
    ensures r * ItemsPerPage >= n
    ensures r > 0 ==> (r - 1) * ItemsPerPage < n
  {
    (n + ItemsPerPage - 1) / ItemsPerPage
  }

  /** A page shows something exactly when its number is between 1 and the page count. */
  lemma PageNonEmptyIff<T>(xs: seq<T>, page: int)
    requires page >= 1
    ensures |PageOf(xs, page)| > 0 <==> page <= TotalPages(|xs|)
  {
    var t := TotalPages(|xs|);
    if page <= t {
      assert (page - 1) * ItemsPerPage <= (t - 1) * ItemsPerPage;
    } else {
      assert (page - 1) * ItemsPerPage >= t * ItemsPerPage;
    }
  }

  /** The pages that show something are exactly 1 through the page count. */
  lemma PagesNonEmptyIff<T>(xs: seq<T>)
    ensures forall page :: 1 <= page ==> (|PageOf(xs, page)| > 0 <==> page <= TotalPages(|xs|))
  {
    forall page | 1 <= page
      ensures |PageOf(xs, page)| > 0 <==> page <= TotalPages(|xs|)
    {
      PageNonEmptyIff(xs, page);
    }
  }

  /** Pages 1 to `k` laid end to end. */
  function Pages<T>(xs: seq<T>, k: nat): seq<T> {
    if k == 0 then [] else Pages(xs, k - 1) + PageOf(xs, k)
  }

  /** The first `k` pages are the first `9k` items. */
  lemma {:induction false} PagesArePrefix<T>(xs: seq<T>, k: nat)
    ensures Pages(xs, k) == xs[..Min(k * ItemsPerPage, |xs|)]
  {
    if k > 0 {
      PagesArePrefix(xs, k - 1);
      var lo := Min((k - 1) * ItemsPerPage, |xs|);
      var hi := Min(k * ItemsPerPage, |xs|);
      if (k - 1) * ItemsPerPage < |xs| {
        assert PageOf(xs, k) == xs[lo..hi];
        assert xs[..lo] + xs[lo..hi] == xs[..hi];
      } else {
        assert PageOf(xs, k) == [];
        assert lo == hi;
      }
    }
  }

  /** Pages 1 to `TotalPages` together are exactly the list, in order. */
  lemma PagesCoverList<T>(xs: seq<T>)
    ensures Pages(xs, TotalPages(|xs|)) == xs
  {
    PagesArePrefix(xs, TotalPages(|xs|));
    assert xs[..|xs|] == xs;
  }

  /** `goToNextPage`: advance only while not on the last page. */
  function NextPage(current: int, totalPages: int): (r: int)
    ensures current <= r <= current + 1
    ensures r <= Max(current, totalPages)
    ensures r == current + 1 <==> current < totalPages
  {
    if current < totalPages then current + 1 else current
  }

  /** `goToPrevPage`: go back only while past the first page. */
  function PrevPage(current: int): (r: int)
    ensures current - 1 <= r <= current
    ensures 1 <= current ==> 1 <= r
    ensures r == current - 1 <==> current > 1
  {
    if current > 1 then current - 1 else current
  }

  /** The page buttons `1 .. totalPages` (`Array.from({ length: totalPages }, (_, i) => i + 1)`). */
  function PageButtons(totalPages: nat): (r: seq<int>)
    ensures |r| == totalPages
    ensures forall i :: 0 <= i < |r| ==> r[i] == i + 1
  {
    seq(totalPages, i => i + 1)
  }

  /** A page number the navigation can reach: at least 1, and not past the last
      page unless there is no page at all. */
  predicate ReachablePage(page: int, totalPages: int) {
    1 <= page && (page <= totalPages || page == 1)
  }

  /** Next, previous and the page buttons keep the page reachable. */
  lemma NavigationKeepsPageReachable(page: int, totalPages: nat)
    requires ReachablePage(page, totalPages)
    ensures ReachablePage(NextPage(page, totalPages), totalPages)
    ensures ReachablePage(PrevPage(page), totalPages)
    ensures forall b :: b in PageButtons(totalPages) ==> ReachablePage(b, totalPages)
  {
  }

  /** Next then previous returns to the same page whenever next moved. */
  lemma PrevUndoesNext(page: int, totalPages: int)
    requires 1 <= page < totalPages
    ensures PrevPage(NextPage(page, totalPages)) == page
  {
  }

  /** More items never need fewer pages. */
  lemma TotalPagesMonotone(m: nat, n: nat)
    requires m <= n
    ensures TotalPages(m) <= TotalPages(n)
  {
  }
}

=== FILE: product_card.dfy ===
/** The product card of the admin product page, `src/pages/Admin/Card/productCard.jsx`:
    title truncation, the price label, the check-then-post add-to-cart flow that
    refuses a product already in the cart, and the product-id guards of edit,
    save and delete. */
module ProductCard {
  import opened Outcomes
  import opened Catalogue
  import CartLines
  import ShopCart

  /** The length the card title is cut at. */
  const TitleMax: nat := 35

  /** `truncateText(text, maxLength)`: a falsy text (absent or empty) gives the
      empty string, a text no longer than `maxLength` is kept, and a longer one is
      cut to `maxLength` characters followed by "...". */
  function TruncateText(text: Option<string>, maxLength: nat): (r: string)
    ensures text.None? || text.value == "" ==> r == ""
    ensures |r| <= maxLength + 3
    ensures text.Some? && |text.value| <= maxLength ==> r == text.value
    ensures text.Some? && |text.value| > maxLength ==>
              |r| == maxLength + 3 && r[..maxLength] == text.value[..maxLength] && r[maxLength..] == "..."
  {
    match text
    case None => ""
    case Some(t) =>
      if t == "" then ""
      else if |t| > maxLength then t[..maxLength] + "..."
      else t
  }

  /** The card title: the product name cut at 35 characters. */
  function CardTitle(name: string): (r: string)
    ensures |r| <= TitleMax + 3
    ensures |name| <= TitleMax ==> r == name
    ensures |name| > TitleMax ==> |r| == TitleMax + 3 && r[..TitleMax] == name[..TitleMax] && r[TitleMax..] == "..."
  {
    TruncateText(Some(name), TitleMax)
  }

  /** Truncation returns the text itself exactly when it is short enough, or when
      it is exactly three longer and already ends in "...". */
  lemma TruncateKeepsTextIff(t: string, maxLength: nat)
    ensures TruncateText(Some(t), maxLength) == t <==>
              |t| <= maxLength || (|t| == maxLength + 3 && t[maxLength..] == "...")
  {
    if |t| == maxLength + 3 && t[maxLength..] == "..." {
      assert t == t[..maxLength] + t[maxLength..];
    }
  }

  /** A truncated text read without its "..." is a prefix of the original. */
  lemma TruncatedIsPrefix(t: string, maxLength: nat)
    ensures var r := TruncateText(Some(t), maxLength);
            var kept := if |t| > maxLength then r[..maxLength] else r;
            kept <= t
  {
  }

  /** The fixed label `formatPrice` returns when `Number(price)` is `NaN`: the
      rupee sign, read byte-wise as Windows-1252, followed by 0. */
  const FallbackLabel: string := "\U{00E2}\U{201A}\U{00B9}0"

  /** The price label: the fallback text, or the number in the rupee currency format. */
  datatype PriceLabel = Fallback(text: string) | Rupees(amount: int)

  /** `formatPrice(price)`; `None` is a price `Number` reads as `NaN`. */
  function FormatPrice(price: Option<int>): (r: PriceLabel)
    ensures r.Fallback? <==> price.None?
    ensures r.Fallback? ==> r.text == FallbackLabel
    ensures r.Rupees? ==> r.amount == price.value
  {
    match price
    case None => Fallback(FallbackLabel)
    case Some(n) => Rupees(n)
  }

  /** The amount a card's label shows for a product, times the quantity of a cart
      line holding that product, is what the cart page adds to its total for the
      line: the two pages price a product alike. */
  lemma LabelTimesQuantityIsLineValue(line: CartLines.CartLine)
    requires line.ref.Populated?
    ensures FormatPrice(Some(line.ref.product.price)).Rupees?
    ensures FormatPrice(Some(line.ref.product.price)).amount * line.quantity == ShopCart.LineValue(line)
  {
  }

  /** How the add-to-cart flow ends. */
  datatype AddResult = LoginRequired | AlreadyInCart | Added | AddFailed

  datatype CardAdd = CardAdd(result: AddResult, requests: seq<CartLines.CartRequest>)

  /** The fetched cart, with a falsy `cart` read as `[]`. */
  function CartOrEmpty(cart: Option<seq<CartLines.CartLine>>): seq<CartLines.CartLine> {
    if cart.Some? then cart.value else []
  }

  /** The add-to-cart flow of both product cards: with no signed-in user, stop;
      otherwise `GET /cart`, and if some line already refers to the product, stop;
      otherwise one `POST /cart` carrying `postedQuantity`. Reading `_id` of a
      null reference throws and ends the flow as a failure, as does a failed request. */
  function AddIfAbsent(authUser: Option<string>, productId: string, postedQuantity: Option<int>,
                       cartRes: Remote<Option<seq<CartLines.CartLine>>>, postRes: Remote<()>): (r: CardAdd)
    ensures authUser.None? <==> r.result == LoginRequired
    ensures authUser.None? ==> r.requests == []
    ensures authUser.Some? ==> |r.requests| >= 1 && r.requests[0] == CartLines.FetchCart
    ensures r.result == AlreadyInCart <==>
              authUser.Some? && cartRes.Ok? && CartLines.Find(CartOrEmpty(cartRes.value), productId).Found?
    ensures CartLines.PostLine(productId, postedQuantity) in r.requests <==>
              authUser.Some? && cartRes.Ok? && CartLines.Find(CartOrEmpty(cartRes.value), productId).Absent?
    ensures |r.requests| <= 2
    ensures r.result == Added <==>
              authUser.Some? && cartRes.Ok? && CartLines.Find(CartOrEmpty(cartRes.value), productId).Absent? && postRes.Ok?
  {
    match authUser
    case None => CardAdd(LoginRequired, [])
    case Some(_) =>
      match cartRes
      case Err(_) => CardAdd(AddFailed, [CartLines.FetchCart])
      case Ok(cart) =>
        match CartLines.Find(CartOrEmpty(cart), productId)
        case Found(_) => CardAdd(AlreadyInCart, [CartLines.FetchCart])
        case Throws => CardAdd(AddFailed, [CartLines.FetchCart])
        case Absent =>
          var sent := [CartLines.FetchCart, CartLines.PostLine(productId, postedQuantity)];
          CardAdd(if postRes.Ok? then Added else AddFailed, sent)
  }

  /** `handleAddToCart` of this card: the POST carries no quantity. */
  function AddToCart(authUser: Option<string>, productId: string,
                     cartRes: Remote<Option<seq<CartLines.CartLine>>>, postRes: Remote<()>): (r: CardAdd)
    ensures r.result == AlreadyInCart ==> |r.requests| == 1
    ensures r.result == Added ==> r.requests == [CartLines.FetchCart, CartLines.PostLine(productId, None)]
  {
    AddIfAbsent(authUser, productId, None, cartRes, postRes)
  }

  /** A line appended after a cart with no match and no null reference is the one found. */
  lemma {:induction false} FindAppendedLine(cart: seq<CartLines.CartLine>, line: CartLines.CartLine, pid: string)
    requires CartLines.Find(cart, pid).Absent? && CartLines.HasId(line, pid)
    ensures CartLines.Find(cart + [line], pid) == CartLines.Found(|cart|)
  {
    if |cart| > 0 {
      assert (cart + [line])[1..] == cart[1..] + [line];
      FindAppendedLine(cart[1..], line, pid);
    }
  }

  /** Once the server cart holds the product added by a first click, a second click
      is refused without a second POST. */
  lemma SecondAddIsRefused(authUser: string, pid: string, cart: seq<CartLines.CartLine>,
                           line: CartLines.CartLine, postRes: Remote<()>)
    requires CartLines.Find(cart, pid).Absent? && CartLines.HasId(line, pid)
    ensures AddToCart(Some(authUser), pid, Ok(Some(cart)), postRes).requests ==
              [CartLines.FetchCart, CartLines.PostLine(pid, None)]
    ensures AddToCart(Some(authUser), pid, Ok(Some(cart + [line])), postRes) ==
              CardAdd(AlreadyInCart, [CartLines.FetchCart])
  {
    FindAppendedLine(cart, line, pid);
  }

  /** The card's check finds a product already in the fetched cart. */
  lemma CardFindsPresent(cart: seq<CartLines.CartLine>, pid: string, authUser: string, postRes: Remote<()>)
    requires CartLines.Find(cart, pid).Found?
    ensures AddToCart(Some(authUser), pid, Ok(Some(cart)), postRes) == CardAdd(AlreadyInCart, [CartLines.FetchCart])
  {
    assert CartOrEmpty(Some(cart)) == cart;
  }

  /** The card refuses a product the cart page's own add increments: for a cart
      line of the product, the cart page sends the raised quantity, the card sends
      nothing after its fetch. */
  lemma CardRefusesWhatCartPageIncrements(cart: seq<CartLines.CartLine>, p: CartLines.Product, authUser: string,
                                          putRes: Remote<()>, postRes: Remote<()>, getRes: Remote<seq<CartLines.CartLine>>)
    requires p.id != "" && CartLines.Find(cart, p.id).Found?
    ensures AddToCart(Some(authUser), p.id, Ok(Some(cart)), postRes).result == AlreadyInCart
    ensures ShopCart.AddToCart(cart, Some(p), putRes, postRes, getRes).requests ==
              [CartLines.UpdateLine(Some(p.id), cart[CartLines.Find(cart, p.id).index].quantity + 1)]
  {
    CardFindsPresent(cart, p.id, authUser, postRes);
    var product := Some(p);
    assert product.value.id != "" && CartLines.Find(cart, product.value.id).Found?;
    var step := ShopCart.AddToCart(cart, product, putRes, postRes, getRes);
    assert step.requests == [CartLines.UpdateLine(Some(p.id), cart[CartLines.Find(cart, p.id).index].quantity + 1)];
  }

  /** What the card asks of its parent page after a save or a delete. */
  datatype Callback = NoCallback | ProductUpdated(product: Product) | ProductDeleted(productId: string)

  /** A card handler's effect: whether the edit dialog is open afterwards, the
      requests sent and the parent callback made. */
  datatype CardStep = CardStep(editOpen: bool, requests: seq<ProductRequest>, callback: Callback)

  /** `handleEditProduct`: opens the edit dialog unless the product id is missing. */
  function EditProduct(productId: string, editOpen: bool): (r: CardStep)
    ensures r.requests == [] && r.callback == NoCallback
    ensures r.editOpen == (productId != "" || editOpen)
  {
    if productId == "" then CardStep(editOpen, [], NoCallback) else CardStep(true, [], NoCallback)
  }

  /** `handleSaveChanges`: unless the id is missing, `PUT /products/:id`; on success
      the saved product goes to the parent and the dialog closes. */
  function SaveChanges(productId: string, editOpen: bool, res: Remote<Product>): (r: CardStep)
    ensures productId == "" ==> r == CardStep(editOpen, [], NoCallback)
    ensures productId != "" ==> r.requests == [SaveProduct(productId)]
    ensures productId != "" && res.Ok? ==> r.callback == ProductUpdated(res.value) && !r.editOpen
    ensures productId != "" && res.Err? ==> r.callback == NoCallback && r.editOpen == editOpen
  {
    if productId == "" then CardStep(editOpen, [], NoCallback)
    else
      match res
      case Ok(saved) => CardStep(false, [SaveProduct(productId)], ProductUpdated(saved))
      case Err(_) => CardStep(editOpen, [SaveProduct(productId)], NoCallback)
  }

  /** `handleDeleteProduct`: unless the id is missing, `DELETE /products/:id`; on
      success the parent is told to drop the product. */
  function DeleteProduct(productId: string, editOpen: bool, res: Remote<()>): (r: CardStep)
    ensures r.editOpen == editOpen
    ensures productId == "" ==> r.requests == [] && r.callback == NoCallback
    ensures productId != "" ==> r.requests == [Catalogue.DeleteProduct(productId)]
    ensures r.callback.ProductDeleted? <==> productId != "" && res.Ok?
    ensures r.callback.ProductDeleted? ==> r.callback.productId == productId
  {
    if productId == "" then CardStep(editOpen, [], NoCallback)
    else CardStep(editOpen, [Catalogue.DeleteProduct(productId)], if res.Ok? then ProductDeleted(productId) else NoCallback)
  }

  /** A missing id makes edit, save and delete all do nothing, while a present id
      makes save and delete each send exactly one request about that product. */
  lemma IdGuardsAgree(productId: string, editOpen: bool, saveRes: Remote<Product>, deleteRes: Remote<()>)
    ensures productId == "" <==> !EditProduct(productId, false).editOpen
    ensures productId == "" <==> SaveChanges(productId, editOpen, saveRes).requests == []
    ensures productId == "" <==> DeleteProduct(productId, editOpen, deleteRes).requests == []
  {
  }
}

=== FILE: quantity_card.dfy ===
/** The product card of the older admin page, `src/pages/AdminPage/Card/productCard.jsx`:
    a quantity counter that never drops below 1, the price shown for that
    quantity, an add-to-cart that posts the chosen quantity, and the same
    product-id guards as the newer card. */
module QuantityCard {
  import opened Outcomes
  import opened Catalogue
  import CartLines
  import ProductCard

  /** `useState(1)`. */
  const InitialQuantity: int := 1

  /** `increaseQuantity`. */
  function Increase(q: int): (r: int)
    ensures r > q
    ensures q >= 1 ==> r >= 1
  {
    q + 1
  }

  /** `decreaseQuantity`: one less, but never below 1. */
  function Decrease(q: int): (r: int)
    ensures r >= 1
    ensures q > 1 ==> r < q
    ensures q <= 1 ==> r == 1
  {
    if q > 1 then q - 1 else 1
  }

  /** A click on either button. */
  datatype Click = More | Fewer

  function Press(q: int, c: Click): int {
    match c
    case More => Increase(q)
    case Fewer => Decrease(q)
  }

  /** The quantity after a run of clicks from the initial 1. */
  function Run(clicks: seq<Click>): (q: int)
    ensures q >= 1
  {
    if |clicks| == 0 then InitialQuantity else Press(Run(clicks[..|clicks| - 1]), clicks[|clicks| - 1])
  }

  /** The quantity never exceeds one plus the number of increases. */
  function CountMore(clicks: seq<Click>): nat {
    if |clicks| == 0 then 0
    else CountMore(clicks[..|clicks| - 1]) + (if clicks[|clicks| - 1] == More then 1 else 0)
  }

  lemma {:induction false} RunBounded(clicks: seq<Click>)
    ensures 1 <= Run(clicks) <= 1 + CountMore(clicks)
  {
    if |clicks| > 0 {
      RunBounded(clicks[..|clicks| - 1]);
    }
  }

  /** A decrease undoes an increase from any reachable quantity; an increase
      undoes a decrease from any quantity above 1. */
  lemma DecreaseUndoesIncrease(q: int)
    requires q >= 1
    ensures Decrease(Increase(q)) == q
    ensures q > 1 ==> Increase(Decrease(q)) == q
  {
  }

  /** The price line under the name: `basePrice * quantity`. */
  function DisplayedPrice(basePrice: int, quantity: int): (r: int)
    ensures quantity == 1 ==> r == basePrice
    ensures basePrice >= 0 && quantity >= 1 ==> r >= basePrice
  {
    basePrice * quantity
  }

  /** Each increase adds one base price to the displayed price. */
  lemma IncreaseAddsBasePrice(basePrice: int, q: int)
    ensures DisplayedPrice(basePrice, Increase(q)) == DisplayedPrice(basePrice, q) + basePrice
  {
  }

  /** `handleAddToCart`: the shared check-then-post flow, posting the current quantity. */
  function AddToCart(authUser: Option<string>, productId: string, quantity: int,
                     cartRes: Remote<Option<seq<CartLines.CartLine>>>, postRes: Remote<()>): (r: ProductCard.CardAdd)
    ensures authUser.None? ==> r == ProductCard.CardAdd(ProductCard.LoginRequired, [])
    ensures r.result == ProductCard.AlreadyInCart ==> r.requests == [CartLines.FetchCart]
    ensures r.result == ProductCard.Added ==>
              r.requests == [CartLines.FetchCart, CartLines.PostLine(productId, Some(quantity))]
  {
    ProductCard.AddIfAbsent(authUser, productId, Some(quantity), cartRes, postRes)
  }

  /** The two cards decide alike and differ only in the quantity the POST carries. */
  lemma CardsDifferOnlyInQuantity(authUser: Option<string>, productId: string, quantity: int,
                                  cartRes: Remote<Option<seq<CartLines.CartLine>>>, postRes: Remote<()>)
    ensures AddToCart(authUser, productId, quantity, cartRes, postRes).result ==
            ProductCard.AddToCart(authUser, productId, cartRes, postRes).result
    ensures (CartLines.PostLine(productId, Some(quantity)) in AddToCart(authUser, productId, quantity, cartRes, postRes).requests) ==
            (CartLines.PostLine(productId, None) in ProductCard.AddToCart(authUser, productId, cartRes, postRes).requests)
  {
  }

  /** `handleEditProduct`, `handleSaveChanges` and `handleDeleteProduct`: the same
      guards and requests as the newer card. */
  function EditProduct(productId: string, editOpen: bool): (r: ProductCard.CardStep)
    ensures r.editOpen == (productId != "" || editOpen) && r.requests == []
  {
    ProductCard.EditProduct(productId, editOpen)
  }

  function SaveChanges(productId: string, editOpen: bool, res: Remote<Product>): (r: ProductCard.CardStep)
    ensures productId == "" ==> r == ProductCard.CardStep(editOpen, [], ProductCard.NoCallback)
    ensures productId != "" ==> r.requests == [SaveProduct(productId)]
    ensures productId != "" && res.Ok? ==> r.callback == ProductCard.ProductUpdated(res.value) && !r.editOpen
    ensures productId != "" && res.Err? ==> r.callback == ProductCard.NoCallback && r.editOpen == editOpen
  {
    ProductCard.SaveChanges(productId, editOpen, res)
  }

  function DeleteProduct(productId: string, editOpen: bool, res: Remote<()>): (r: ProductCard.CardStep)
    ensures productId == "" ==> r.requests == [] && r.callback == ProductCard.NoCallback
    ensures productId != "" ==> r.requests == [Catalogue.DeleteProduct(productId)]
    ensures r.callback.ProductDeleted? <==> productId != "" && res.Ok?
  {
    ProductCard.DeleteProduct(productId, editOpen, res)
  }
}

=== FILE: routes.dfy ===
/** The route table of `src/App.jsx`: which page each path renders for the
    signed-in user, where a guarded path sends everyone else, and the session
    check made when the application mounts. */
module Routes {
  import opened Outcomes
  import opened AuthStore
  import opened Text

  /** The pages the route table can render. */
  datatype Screen =
    | HomeView | AboutView | ServiceView | ProjectsView | BlogView | ShopView | ContactView
    | ProfileView | SignUpView | LoginView | ProductsView | ChatView | CartView

  /** What a route's element does: render a page or navigate elsewhere. */
  datatype Element = Render(screen: Screen) | Redirect(to: string)

  /** The path each page is mounted at. */
  function PathOf(s: Screen): string {
    match s
    case HomeView => "/"
    case AboutView => "/about"
    case ServiceView => "/service"
    case ProjectsView => "/projects"
    case BlogView => "/blog"
    case ShopView => "/shop"
    case ContactView => "/contact"
    case ProfileView => "/profile"
    case SignUpView => "/signup"
    case LoginView => "/login"
    case ProductsView => "/products"
    case ChatView => "/chat"
    case CartView => "/cart"
  }

  /** `authUser?.role === "admin"`. */
  predicate IsAdmin(authUser: Option<User>) {
    authUser.Some? && authUser.value.role == "admin"
  }

  /** Who may see each page: everyone for the public pages, a signed-in user for
      the profile, chat and cart, nobody signed in for the sign-up and login forms,
      and an admin for the product manager. */
  predicate Allowed(s: Screen, authUser: Option<User>) {
    match s
    case ProfileView | ChatView | CartView => authUser.Some?
    case SignUpView | LoginView => authUser.None?
    case ProductsView => IsAdmin(authUser)
    case _ => true
  }

  /** A path without its trailing slashes. */
  function StripTrailingSlashes(path: string): (r: string)
    ensures |r| <= |path| && r == path[..|r|]
    ensures forall i :: |r| <= i < |path| ==> path[i] == '/'
    ensures |r| > 0 ==> r[|r| - 1] != '/'
    decreases |path|
  {
    if |path| > 0 && path[|path| - 1] == '/' then StripTrailingSlashes(path[..|path| - 1]) else path
  }

  /** The form in which the router compares a location with the route paths: a
      route matches whatever the case of its letters and however many slashes
      trail it, and the bare slashes of the root reduce to "/". */
  function RouteKey(path: string): (r: string)
    ensures r != ""
    ensures forall i :: 0 <= i < |r| ==> !IsUpper(r[i])
    ensures |r| > 1 ==> r[|r| - 1] != '/'
  {
    var key := Lower(StripTrailingSlashes(path));
    if key == "" then "/" else key
  }

  /** The element the route table yields for a path already in the router's
      form: the first route whose path it equals, or the catch-all. */
  function Match(key: string, authUser: Option<User>): (r: Element)
    ensures r.Render? ==> PathOf(r.screen) == key && Allowed(r.screen, authUser)
    ensures r.Redirect? ==> r.to == "/" || r.to == "/login"
    ensures r.Redirect? && r.to == "/login" ==> authUser.None?
  {
    if key == "/" then Render(HomeView)
    else if key == "/about" then Render(AboutView)
    else if key == "/service" then Render(ServiceView)
    else if key == "/projects" then Render(ProjectsView)
    else if key == "/blog" then Render(BlogView)
    else if key == "/shop" then Render(ShopView)
    else if key == "/contact" then Render(ContactView)
    else if key == "/profile" then (if authUser.Some? then Render(ProfileView) else Redirect("/login"))
    else if key == "/signup" then (if authUser.None? then Render(SignUpView) else Redirect("/"))
    else if key == "/login" then (if authUser.None? then Render(LoginView) else Redirect("/"))
    else if key == "/products" then (if IsAdmin(authUser) then Render(ProductsView) else Redirect("/"))
    else if key == "/chat" then (if authUser.Some? then Render(ChatView) else Redirect("/login"))
    else if key == "/cart" then (if authUser.Some? then Render(CartView) else Redirect("/login"))
    else Redirect("/")
  }

  /** The element the route table yields for a path. */
  function Resolve(path: string, authUser: Option<User>): (r: Element)
    ensures r.Render? ==> PathOf(r.screen) == RouteKey(path) && Allowed(r.screen, authUser)
    ensures r.Redirect? ==> r.to == "/" || r.to == "/login"
    ensures r.Redirect? && r.to == "/login" ==> authUser.None?
  {
    Match(RouteKey(path), authUser)
  }

  /** Every route path is already in the form the router compares. */
  lemma RouteKeyOfPathOf(s: Screen)
    ensures RouteKey(PathOf(s)) == PathOf(s)
  {
    var p := PathOf(s);
    assert forall i :: 0 <= i < |p| ==> !IsUpper(p[i]);
    LowerKeepsFolded(p);
    if s != HomeView {
      assert p[|p| - 1] != '/';
    }
  }

  /** Comparing in the router's form twice is comparing once. */
  lemma RouteKeyIdempotent(path: string)
    ensures RouteKey(RouteKey(path)) == RouteKey(path)
  {
    var key := RouteKey(path);
    if |key| > 1 {
      assert StripTrailingSlashes(key) == key;
      LowerKeepsFolded(key);
    } else {
      assert key == "/" || key[0] != '/';
      if key == "/" {
        RouteKeyOfPathOf(HomeView);
      } else {
        assert StripTrailingSlashes(key) == key;
        LowerKeepsFolded(key);
      }
    }
  }

  /** A path resolves as its comparison form does: the case of its letters and
      its trailing slashes never change the page. */
  lemma CaseAndTrailingSlashIgnored(path: string, authUser: Option<User>)
    ensures Resolve(path, authUser) == Resolve(RouteKey(path), authUser)
    ensures Resolve("/Shop/", authUser) == Render(ShopView)
  {
    RouteKeyIdempotent(path);
    assert StripTrailingSlashes("/Shop/") == "/Shop";
    assert Lower("/Shop") == "/shop";
  }

  /** A page is rendered at its own path exactly for the users allowed to see it. */
  lemma RendersIffAllowed(s: Screen, authUser: Option<User>)
    ensures Resolve(PathOf(s), authUser) == Render(s) <==> Allowed(s, authUser)
  {
    RouteKeyOfPathOf(s);
  }

  /** Each page's own path: the page when the user may see it, and otherwise the
      login form for the signed-in pages and the home page for the rest. */
  lemma ResolveOwnPath(s: Screen, authUser: Option<User>)
    ensures Resolve(PathOf(s), authUser) ==
              if Allowed(s, authUser) then Render(s)
              else if s in {ProfileView, ChatView, CartView} then Redirect("/login")
              else Redirect("/")
  {
    RouteKeyOfPathOf(s);
    assert Resolve(PathOf(s), authUser) == Match(PathOf(s), authUser);
  }

  /** The two redirect targets render for whoever is sent there: the home page
      for everyone, the login form for a signed-out visitor. */
  lemma RedirectTargetsRender(authUser: Option<User>)
    ensures Resolve("/", authUser) == Render(HomeView)
    ensures authUser.None? ==> Resolve("/login", authUser) == Render(LoginView)
  {
    RendersIffAllowed(HomeView, authUser);
    RendersIffAllowed(LoginView, authUser);
  }

  /** Every redirect lands on a page that renders: no route chain is longer than
      one step. */
  lemma RedirectsSettleInOneHop(path: string, authUser: Option<User>)
    ensures Resolve(path, authUser).Redirect? ==> Resolve(Resolve(path, authUser).to, authUser).Render?
  {
    RedirectTargetsRender(authUser);
  }

  /** A path in the router's form that equals no route path reaches the
      catch-all. */
  lemma UnmatchedKeyGoesHome(key: string, authUser: Option<User>)
    requires forall s: Screen :: PathOf(s) != key
    ensures Match(key, authUser) == Redirect("/")
  {
    assert PathOf(HomeView) != key && PathOf(AboutView) != key && PathOf(ServiceView) != key;
    assert PathOf(ProjectsView) != key && PathOf(BlogView) != key && PathOf(ShopView) != key;
    assert PathOf(ContactView) != key && PathOf(ProfileView) != key && PathOf(SignUpView) != key;
    assert PathOf(LoginView) != key && PathOf(ProductsView) != key && PathOf(ChatView) != key;
    assert PathOf(CartView) != key;
  }

  /** A path that matches no route in the router's form goes to the home page,
      whoever asks. */
  lemma UnknownPathGoesHome(path: string, authUser: Option<User>)
    requires forall s: Screen :: PathOf(s) != RouteKey(path)
    ensures Resolve(path, authUser) == Redirect("/")
  {
    UnmatchedKeyGoesHome(RouteKey(path), authUser);
  }

  /** The mount effect: a session check runs when none has completed yet. */
  function Mount(st: AuthState, reply: CheckReply): (r: Ended)
    ensures st.hasCheckedAuth ==> r == Ended(st, false)
    ensures !st.hasCheckedAuth && !st.isCheckingAuth ==>
              r.state.hasCheckedAuth && r.state.authUser == (if reply.Authenticated? then Some(reply.user) else None)
  {
    if !st.hasCheckedAuth then CheckAuth(st, reply) else Ended(st, false)
  }

  /** On a fresh load the stored user is replaced by what the server says: a user
      restored from local storage whose session has lapsed can no longer open a
      guarded page. */
  lemma FirstLoadTrustsServer(stored: User, status: int)
    ensures var after := Mount(InitialState(Some(stored)), HttpFailure(status)).state;
            after.authUser == None && Resolve("/profile", after.authUser) == Redirect("/login")
  {
    RouteKeyOfPathOf(ProfileView);
  }
}

=== FILE: seqs.dfy ===
/** `Array.prototype.filter` and the order-preserving subsequence relation it
    establishes; every list transform of the front end is built on these. */
module Seqs {

  /** `sub` can be obtained from `xs` by deleting elements, without reordering. */
  predicate SubseqOf<T(==)>(sub: seq<T>, xs: seq<T>)
    decreases |xs|
  {
    if |sub| == 0 then true
    else if |xs| == 0 then false
    else (sub[0] == xs[0] && SubseqOf(sub[1..], xs[1..])) || SubseqOf(sub, xs[1..])
  }

  /** `xs.filter(keep)`: the elements satisfying `keep`, in their original order. */
  function Filter<T(==)>(xs: seq<T>, keep: T -> bool): (r: seq<T>)
    ensures |r| <= |xs|
    ensures forall i :: 0 <= i < |r| ==> keep(r[i])
    ensures forall i :: 0 <= i < |r| ==> r[i] in xs
    ensures forall i :: 0 <= i < |xs| && keep(xs[i]) ==> xs[i] in r
  {
    if |xs| == 0 then []
    else if keep(xs[0]) then [xs[0]] + Filter(xs[1..], keep)
    else Filter(xs[1..], keep)
  }

  /** The filtered list holds every kept element as often as the input does, and
      nothing else: with `FilterIsSubseq` this pins the result down, duplicates
      included. */
  lemma {:induction false} FilterCounts<T>(xs: seq<T>, keep: T -> bool)
    ensures forall i :: 0 <= i < |xs| ==>
              multiset(Filter(xs, keep))[xs[i]] == if keep(xs[i]) then multiset(xs)[xs[i]] else 0
  {
    if |xs| > 0 {
      FilterCounts(xs[1..], keep);
      assert xs == [xs[0]] + xs[1..];
      assert multiset(xs) == multiset([xs[0]]) + multiset(xs[1..]);
      forall i | 0 <= i < |xs|
        ensures multiset(Filter(xs, keep))[xs[i]] == if keep(xs[i]) then multiset(xs)[xs[i]] else 0
      {
        if xs[i] !in xs[1..] {
          assert xs[i] !in Filter(xs[1..], keep);
        } else {
          var k :| 0 <= k < |xs[1..]| && xs[1..][k] == xs[i];
        }
      }
    }
  }

  /** The filtered list is an order-preserving subsequence of its input. */
  lemma {:induction false} FilterIsSubseq<T>(xs: seq<T>, keep: T -> bool)
    ensures SubseqOf(Filter(xs, keep), xs)
  {
    if |xs| > 0 {
      FilterIsSubseq(xs[1..], keep);
      if keep(xs[0]) {
        assert Filter(xs, keep) == [xs[0]] + Filter(xs[1..], keep);
        assert ([xs[0]] + Filter(xs[1..], keep))[1..] == Filter(xs[1..], keep);
      }
    }
  }

  /** Filtering keeps everything exactly when every element passes. */
  lemma {:induction false} FilterKeepsAll<T>(xs: seq<T>, keep: T -> bool)
    ensures Filter(xs, keep) == xs <==> forall i :: 0 <= i < |xs| ==> keep(xs[i])
  {
    if |xs| > 0 {
      FilterKeepsAll(xs[1..], keep);
      if !keep(xs[0]) {
        assert |Filter(xs, keep)| <= |xs[1..]| < |xs|;
      } else {
        assert xs == [xs[0]] + xs[1..];
        if Filter(xs, keep) == xs {
          assert forall i :: 1 <= i < |xs| ==> xs[i] == xs[1..][i - 1];
        } else {
          assert forall i :: 0 <= i < |xs[1..]| ==> xs[1..][i] == xs[i + 1];
        }
      }
    }
  }

  /** Filtering a concatenation filters each part. */
  lemma {:induction false} FilterAppend<T>(a: seq<T>, b: seq<T>, keep: T -> bool)
    ensures Filter(a + b, keep) == Filter(a, keep) + Filter(b, keep)
  {
    if |a| > 0 {
      assert (a + b)[1..] == a[1..] + b;
      FilterAppend(a[1..], b, keep);
    } else {
      assert a + b == b;
    }
  }

  /** Filtering twice with the same predicate changes nothing the second time. */
  lemma FilterIdempotent<T>(xs: seq<T>, keep: T -> bool)
    ensures Filter(Filter(xs, keep), keep) == Filter(xs, keep)
  {
    FilterKeepsAll(Filter(xs, keep), keep);
  }

  /** Two predicates that agree on every element of `xs` filter it identically. */
  lemma {:induction false} FilterCongruent<T>(xs: seq<T>, p: T -> bool, q: T -> bool)
    requires forall i :: 0 <= i < |xs| ==> p(xs[i]) == q(xs[i])
    ensures Filter(xs, p) == Filter(xs, q)
  {
    if |xs| > 0 {
      FilterCongruent(xs[1..], p, q);
    }
  }

  /** Filtering by `p` and then by `q` is filtering once by both. */
  lemma {:induction false} FilterComposes<T>(xs: seq<T>, p: T -> bool, q: T -> bool, both: T -> bool)
    requires forall x :: both(x) == (p(x) && q(x))
    ensures Filter(Filter(xs, p), q) == Filter(xs, both)
  {
    if |xs| > 0 {
      FilterComposes(xs[1..], p, q, both);
      if p(xs[0]) {
        assert Filter(xs, p) == [xs[0]] + Filter(xs[1..], p);
        assert ([xs[0]] + Filter(xs[1..], p))[1..] == Filter(xs[1..], p);
      }
    }
  }

  /** Two chained filters keep, in order and with their multiplicity, exactly the
      elements that pass both tests. */
  lemma FilterChain<T>(xs: seq<T>, p: T -> bool, q: T -> bool)
    ensures SubseqOf(Filter(Filter(xs, p), q), xs)
    ensures forall i :: 0 <= i < |Filter(Filter(xs, p), q)| ==>
              p(Filter(Filter(xs, p), q)[i]) && q(Filter(Filter(xs, p), q)[i])
    ensures forall i :: 0 <= i < |xs| && p(xs[i]) && q(xs[i]) ==> xs[i] in Filter(Filter(xs, p), q)
    ensures forall i :: 0 <= i < |xs| ==>
              multiset(Filter(Filter(xs, p), q))[xs[i]] == if p(xs[i]) && q(xs[i]) then multiset(xs)[xs[i]] else 0
  {
    var both := (x: T) => p(x) && q(x);
    FilterComposes(xs, p, q, both);
    FilterIsSubseq(xs, both);
    FilterCounts(xs, both);
  }

  /** A weaker test keeps at least as many elements. */
  lemma {:induction false} FilterMonotone<T>(xs: seq<T>, p: T -> bool, q: T -> bool)
    requires forall i :: 0 <= i < |xs| && p(xs[i]) ==> q(xs[i])
    ensures |Filter(xs, p)| <= |Filter(xs, q)|
  {
    if |xs| > 0 {
      FilterMonotone(xs[1..], p, q);
    }
  }

  /** A subsequence is never longer than its source. */
  lemma {:induction false} SubseqNotLonger<T>(sub: seq<T>, xs: seq<T>)
    requires SubseqOf(sub, xs)
    ensures |sub| <= |xs|
  {
    if |sub| > 0 {
      if sub[0] == xs[0] && SubseqOf(sub[1..], xs[1..]) {
        SubseqNotLonger(sub[1..], xs[1..]);
      } else {
        SubseqNotLonger(sub, xs[1..]);
      }
    }
  }
}

=== FILE: shop_cart.dfy ===
/** The routed cart page, `src/pages/Shop/CartPage.jsx`: loading with a
    validation filter, the defensive total, the checkout popup, the simulated
    payment with its best-effort clearing loop, and the `addToCart` handler,
    which the page defines but never wires to any element (it increments a line
    already present). */
module ShopCart {
  import opened Outcomes
  import Seqs
  import opened CartLines

  /** The load filter: `productId` is an object whose `_id`, `name` and `price` are truthy. */
  predicate IsDisplayable(line: CartLine) {
    line.ref.Populated? && line.ref.product.id != "" && line.ref.product.name != ""
    && line.ref.product.price != 0
  }

  function Displayable(): CartLine -> bool {
    (line: CartLine) => IsDisplayable(line)
  }

  /** The mount effect: with a user id, `GET /cart`; the response keeps exactly the
      displayable lines in their order, and a failure empties the cart. */
  function LoadCart(cart: seq<CartLine>, userId: string, res: Remote<seq<CartLine>>): (r: CartStep)
    ensures userId == "" ==> r == CartStep(cart, [])
    ensures userId != "" ==> r.requests == [FetchCart]
    ensures userId != "" && res.Err? ==> r.cart == []
    ensures userId != "" && res.Ok? ==>
              Seqs.SubseqOf(r.cart, res.value) &&
              (forall i :: 0 <= i < |r.cart| ==> IsDisplayable(r.cart[i])) &&
              (forall i :: 0 <= i < |res.value| && IsDisplayable(res.value[i]) ==> res.value[i] in r.cart)
    ensures userId != "" && res.Ok? ==>
              forall i :: 0 <= i < |res.value| ==>
                multiset(r.cart)[res.value[i]] == if IsDisplayable(res.value[i]) then multiset(res.value)[res.value[i]] else 0
  {
    if userId == "" then CartStep(cart, [])
    else
      match res
      case Ok(lines) =>
        Seqs.FilterIsSubseq(lines, Displayable());
        Seqs.FilterCounts(lines, Displayable());
        CartStep(Seqs.Filter(lines, Displayable()), [FetchCart])
      case Err(_) => CartStep([], [FetchCart])
  }

  /** What one line adds to `calculateCartTotal`: quantity times price when the
      reference is an object with a truthy price, otherwise nothing. */
  function LineValue(line: CartLine): int {
    if line.ref.Populated? && line.ref.product.price != 0
    then line.quantity * line.ref.product.price
    else 0
  }

  /** The cart total as a sum over the lines. */
  function CartTotal(cart: seq<CartLine>): int {
    if |cart| == 0 then 0 else LineValue(cart[0]) + CartTotal(cart[1..])
  }

  /** The total of a concatenation is the sum of the totals. */
  lemma {:induction false} CartTotalAppend(a: seq<CartLine>, b: seq<CartLine>)
    ensures CartTotal(a + b) == CartTotal(a) + CartTotal(b)
  {
    if |a| > 0 {
      assert (a + b)[1..] == a[1..] + b;
      CartTotalAppend(a[1..], b);
    } else {
      assert a + b == b;
    }
  }

  /** `calculateCartTotal`: the `reduce` from 0 over the lines, left to right. */
  method CalculateCartTotal(cart: seq<CartLine>) returns (total: int)
    ensures total == CartTotal(cart)
  {
    total := 0;
    var i := 0;
    while i < |cart|
      invariant 0 <= i <= |cart|
      invariant total == CartTotal(cart[..i])
    {
      CartTotalAppend(cart[..i], [cart[i]]);
      assert cart[..i] + [cart[i]] == cart[..i + 1];
      total := total + LineValue(cart[i]);
      i := i + 1;
    }
    assert cart[..|cart|] == cart;
  }

  /** Lines without an object product or with a zero price never count, so the
      total is the same over the lines that do. */
  lemma {:induction false} TotalIgnoresUnpriced(cart: seq<CartLine>)
    ensures CartTotal(cart) == CartTotal(Seqs.Filter(cart, Priced()))
  {
    if |cart| > 0 {
      TotalIgnoresUnpriced(cart[1..]);
    }
  }

  predicate IsPriced(line: CartLine) {
    line.ref.Populated? && line.ref.product.price != 0
  }

  function Priced(): CartLine -> bool {
    (line: CartLine) => IsPriced(line)
  }

  /** With non-negative quantities and prices the total is non-negative. */
  lemma {:induction false} CartTotalNonNegative(cart: seq<CartLine>)
    requires forall i :: 0 <= i < |cart| ==> cart[i].quantity >= 0
    requires forall i :: 0 <= i < |cart| && cart[i].ref.Populated? ==> cart[i].ref.product.price >= 0
    ensures CartTotal(cart) >= 0
  {
    if |cart| > 0 {
      CartTotalNonNegative(cart[1..]);
    }
  }

  /** The tax line: 10% of the subtotal. */
  function Tax(subtotal: int): (r: real)
    ensures r * 10.0 == subtotal as real
  {
    subtotal as real * 0.1
  }

  /** The amount due, `calculateCartTotal() * 1.1`: the subtotal plus the tax line. */
  function GrandTotal(subtotal: int): (r: real)
    ensures r == subtotal as real + Tax(subtotal)
  {
    subtotal as real * 1.1
  }

  /** The popup flags of the checkout flow. */
  datatype Checkout = Checkout(isOpen: bool, paymentSuccess: bool, processing: bool)

  const InitialCheckout := Checkout(false, false, false)

  /** `handleCheckoutClick`: the popup opens only over a non-empty cart. */
  function OpenCheckout(cart: seq<CartLine>, c: Checkout): (r: Checkout)
    ensures r.isOpen <==> c.isOpen || |cart| > 0
    ensures r.paymentSuccess == c.paymentSuccess && r.processing == c.processing
  {
    if |cart| > 0 then c.(isOpen := true) else c
  }

  /** `closeCheckout`: closes the popup and forgets the success state. */
  function CloseCheckout(c: Checkout): (r: Checkout)
    ensures !r.isOpen && !r.paymentSuccess
    ensures r.processing == c.processing
  {
    c.(isOpen := false, paymentSuccess := false)
  }

  /** Closing undoes opening: after open then close the popup is as if it had only
      been closed. Opening twice is opening once, and closing a popup that the
      open handler opened shows it again only over a non-empty cart. */
  lemma CloseUndoesOpen(cart: seq<CartLine>, c: Checkout)
    ensures CloseCheckout(OpenCheckout(cart, c)) == CloseCheckout(c)
    ensures OpenCheckout(cart, OpenCheckout(cart, c)) == OpenCheckout(cart, c)
    ensures OpenCheckout(cart, CloseCheckout(c)).isOpen <==> |cart| > 0
  {
  }

  /** What the payment handler does, in order. */
  datatype PayEvent =
    | SuccessShown                        // setIsPaymentSuccess(true)
    | Sent(request: CartRequest)          // one clearing request
    | Logged(lineKey: Option<string>)     // console.error for a rejected request

  /** The clearing loop from line `i` on. A rejected request (its index in
      `failed`) is logged and the loop goes on. A null reference makes reading
      `item.productId._id` throw, and so does the log line in the catch, which
      ends the loop: `aborted`. */
  datatype ClearRun = ClearRun(events: seq<PayEvent>, aborted: bool)

  function ClearFrom(cart: seq<CartLine>, i: nat, failed: set<nat>): ClearRun
    decreases |cart| - i
  {
    if i >= |cart| then ClearRun([], false)
    else if cart[i].ref.NullRef? then ClearRun([], true)
    else
      var key := KeyOf(cart[i]);
      var here := [Sent(UpdateLine(key, 0))] + (if i in failed then [Logged(key)] else []);
      var rest := ClearFrom(cart, i + 1, failed);
      ClearRun(here + rest.events, rest.aborted)
  }

  /** The requests among the events. */
  function SentRequests(events: seq<PayEvent>): (r: seq<CartRequest>)
    ensures |r| <= |events|
  {
    if |events| == 0 then []
    else (if events[0].Sent? then [events[0].request] else []) + SentRequests(events[1..])
  }

  lemma {:induction false} SentRequestsAppend(a: seq<PayEvent>, b: seq<PayEvent>)
    ensures SentRequests(a + b) == SentRequests(a) + SentRequests(b)
  {
    if |a| > 0 {
      assert (a + b)[1..] == a[1..] + b;
      SentRequestsAppend(a[1..], b);
    } else {
      assert a + b == b;
    }
  }

  /** The quantity-0 requests for lines `i..` of the cart, one per line, in order. */
  function ClearRequests(cart: seq<CartLine>, i: nat): (r: seq<CartRequest>)
    requires i <= |cart|
    ensures |r| == |cart| - i
    ensures forall j :: 0 <= j < |r| ==> r[j] == UpdateLine(KeyOf(cart[i + j]), 0)
    decreases |cart| - i
  {
    if i == |cart| then [] else [UpdateLine(KeyOf(cart[i]), 0)] + ClearRequests(cart, i + 1)
  }

  ghost predicate NoNullFrom(cart: seq<CartLine>, i: nat) {
    forall j :: i <= j < |cart| ==> !cart[j].ref.NullRef?
  }

  /** Without a null reference the loop runs to the end and sends one request per
      line, whatever the rejections; with one it stops there. */
  lemma {:induction false} ClearFromSendsAll(cart: seq<CartLine>, i: nat, failed: set<nat>)
    requires i <= |cart|
    ensures NoNullFrom(cart, i) ==>
              !ClearFrom(cart, i, failed).aborted &&
              SentRequests(ClearFrom(cart, i, failed).events) == ClearRequests(cart, i)
    ensures !NoNullFrom(cart, i) ==> ClearFrom(cart, i, failed).aborted
    decreases |cart| - i
  {
    if i < |cart| {
      ClearFromSendsAll(cart, i + 1, failed);
      if !cart[i].ref.NullRef? {
        var key := KeyOf(cart[i]);
        var here := [Sent(UpdateLine(key, 0))] + (if i in failed then [Logged(key)] else []);
        var rest := ClearFrom(cart, i + 1, failed);
        assert ClearFrom(cart, i, failed) == ClearRun(here + rest.events, rest.aborted);
        SentRequestsAppend(here, rest.events);
        assert SentRequests(here) == [UpdateLine(key, 0)] by {
          assert here[1..] == (if i in failed then [Logged(key)] else []);
        }
        assert NoNullFrom(cart, i) <==> NoNullFrom(cart, i + 1) by {
          if NoNullFrom(cart, i + 1) {
            forall j | i <= j < |cart|
              ensures !cart[j].ref.NullRef?
            {
              if j > i {
                assert i + 1 <= j;
              }
            }
          }
        }
      }
    } else {
      assert ClearRequests(cart, i) == [];
    }
  }

  /** The notification a payment ends with: the order-placed success toast, the
      warning that the cart could not be cleared, or the payment-failed error. */
  datatype Notice = OrderPlaced | CartWarning | PaymentFailed

  /** The effect of `handlePayment` once the simulated delay has elapsed;
      `autoClose` says whether the 3-second close-and-go-to-shop timer is set. */
  datatype Payment = Payment(events: seq<PayEvent>, cart: seq<CartLine>, notice: Notice,
                             checkout: Checkout, autoClose: bool)

  /** `handlePayment` as written: success is shown first, then one quantity-0
      request per line in cart order, each rejection logged without stopping the
      rest; the local cart is then emptied and the close timer set. When the loop
      aborts, its catch calls `toast.warning`, which the imported toast library
      does not define: that call throws into the outer catch, which reports a
      failed payment and clears `processing`, while the success flag set before
      the loop stays set and no close timer is scheduled. */
  function HandlePayment(cart: seq<CartLine>, c: Checkout, failed: set<nat>): (r: Payment)
    ensures |r.events| > 0 && r.events[0] == SuccessShown
    ensures r.checkout.paymentSuccess && r.checkout.isOpen == c.isOpen
    ensures NoNullFrom(cart, 0) ==>
              r.cart == [] && r.notice == OrderPlaced && r.autoClose && r.checkout.processing &&
              SentRequests(r.events) == ClearRequests(cart, 0)
    ensures !NoNullFrom(cart, 0) ==>
              r.cart == cart && r.notice == PaymentFailed && !r.autoClose && !r.checkout.processing
  {
    var run := ClearFrom(cart, 0, failed);
    ClearFromSendsAll(cart, 0, failed);
    SentRequestsAppend([SuccessShown], run.events);
    if run.aborted then
      Payment([SuccessShown] + run.events, cart, PaymentFailed,
              c.(paymentSuccess := true, processing := false), false)
    else
      Payment([SuccessShown] + run.events, [], OrderPlaced,
              c.(paymentSuccess := true, processing := true), true)
  }

  /** A cart holding a line whose product reference is null: the popup shows the
      payment as successful while the page reports that the payment failed, and
      the popup never closes by itself. Only the unfiltered refetch of the unwired
      `addToCart` handler could put such a line in the cart, so on the page as
      shipped this path is latent. */
  lemma AbortedPaymentReportsFailure(q: int, c: Checkout)
    ensures var r := HandlePayment([CartLine(NullRef, q)], c, {});
            r.checkout.paymentSuccess && r.notice == PaymentFailed && !r.autoClose &&
            r.cart == [CartLine(NullRef, q)]
  {
    var cart := [CartLine(NullRef, q)];
    assert cart[0].ref.NullRef?;
  }

  /** `handlePayment` as its comments intend it: an aborted clearing loop keeps
      the payment successful, warns that the cart was not cleared, and closes the
      popup as usual. */
  function HandlePaymentWithWarning(cart: seq<CartLine>, c: Checkout, failed: set<nat>): (r: Payment)
    ensures |r.events| > 0 && r.events[0] == SuccessShown
    ensures r.checkout == c.(paymentSuccess := true, processing := true) && r.autoClose
    ensures r.notice != PaymentFailed
    ensures NoNullFrom(cart, 0) ==>
              r.cart == [] && r.notice == OrderPlaced && SentRequests(r.events) == ClearRequests(cart, 0)
    ensures !NoNullFrom(cart, 0) ==> r.cart == cart && r.notice == CartWarning
  {
    var run := ClearFrom(cart, 0, failed);
    ClearFromSendsAll(cart, 0, failed);
    SentRequestsAppend([SuccessShown], run.events);
    Payment([SuccessShown] + run.events,
            if run.aborted then cart else [],
            if run.aborted then CartWarning else OrderPlaced,
            c.(paymentSuccess := true, processing := true), true)
  }

  /** The two handlers differ only when the clearing loop aborts. */
  lemma PaymentVersionsAgreeWithoutNull(cart: seq<CartLine>, c: Checkout, failed: set<nat>)
    ensures NoNullFrom(cart, 0) <==> HandlePayment(cart, c, failed) == HandlePaymentWithWarning(cart, c, failed)
  {
  }

  /** Which requests are rejected has no bearing on which requests are sent. */
  lemma PaymentSendsRegardlessOfFailures(cart: seq<CartLine>, c: Checkout, f1: set<nat>, f2: set<nat>)
    requires NoNullFrom(cart, 0)
    ensures SentRequests(HandlePayment(cart, c, f1).events) == SentRequests(HandlePayment(cart, c, f2).events)
    ensures HandlePayment(cart, c, f1).cart == HandlePayment(cart, c, f2).cart == []
  {
  }

  /** `addToCart(product)`, a handler the page defines but never wires to any
      element. A product without `_id` is
      refused. A product already in the cart gets `PUT /cart/update` with the found
      line's quantity plus 1, and on success every line of it goes up by 1. A new
      product gets `POST /cart/add` with quantity 1, then `GET /cart`, whose lines
      replace the cart unfiltered. A throw from `find` or a rejected request leaves
      the cart as it was. */
  function AddToCart(cart: seq<CartLine>, product: Option<Product>,
                     putRes: Remote<()>, postRes: Remote<()>, getRes: Remote<seq<CartLine>>): (r: CartStep)
    ensures product.None? || product.value.id == "" ==> r == CartStep(cart, [])
    ensures product.Some? && product.value.id != "" && Find(cart, product.value.id).Found? ==>
              var pid := product.value.id;
              r.requests == [UpdateLine(Some(pid), cart[Find(cart, pid).index].quantity + 1)] &&
              r.cart == (if putRes.Ok? then Increment(cart, pid) else cart)
    ensures product.Some? && product.value.id != "" && Find(cart, product.value.id).Absent? ==>
              var pid := product.value.id;
              (postRes.Err? ==> r == CartStep(cart, [AddLine(pid, 1)])) &&
              (postRes.Ok? ==> r.requests == [AddLine(pid, 1), FetchCart] &&
                               r.cart == (if getRes.Ok? then getRes.value else cart))
    ensures product.Some? && product.value.id != "" && Find(cart, product.value.id).Throws? ==>
              r == CartStep(cart, [])
  {
    match product
    case None => CartStep(cart, [])
    case Some(p) =>
      if p.id == "" then CartStep(cart, [])
      else
        match Find(cart, p.id)
        case Throws => CartStep(cart, [])
        case Found(i) =>
          var sent := [UpdateLine(Some(p.id), cart[i].quantity + 1)];
          if putRes.Ok? then CartStep(Increment(cart, p.id), sent) else CartStep(cart, sent)
        case Absent =>
          if postRes.Err? then CartStep(cart, [AddLine(p.id, 1)])
          else
            var sent := [AddLine(p.id, 1), FetchCart];
            if getRes.Ok? then CartStep(getRes.value, sent) else CartStep(cart, sent)
  }

  /** Adding a product already present changes only that product's quantities. */
  lemma AddPresentOnlyIncrements(cart: seq<CartLine>, p: Product, getRes: Remote<seq<CartLine>>)
    requires p.id != "" && Find(cart, p.id).Found?
    ensures var r := AddToCart(cart, Some(p), Ok(()), Ok(()), getRes).cart;
            |r| == |cart| &&
            (forall i :: 0 <= i < |cart| && HasId(cart[i], p.id) ==> r[i] == cart[i].(quantity := cart[i].quantity + 1)) &&
            (forall i :: 0 <= i < |cart| && !HasId(cart[i], p.id) ==> r[i] == cart[i])
  {
  }

  /** Adding a new product to an empty cart (the server now holding one line of it)
      leaves exactly that line. */
  lemma AddToEmptyCart(p: Product, line: CartLine)
    requires p.id != ""
    ensures AddToCart([], Some(p), Ok(()), Ok(()), Ok([line])).cart == [line]
    ensures AddToCart([], Some(p), Ok(()), Ok(()), Ok([line])).requests == [AddLine(p.id, 1), FetchCart]
  {
  }
}

=== FILE: shop_page.dfy ===
/** The routed shop page, `src/pages/Shop/Shop.jsx`: a pending price range set
    by two guarded sliders, an applied range, a search term, and nine products
    per page over the filtered list. */
module ShopPage {
  import opened Outcomes
  import Seqs
  import opened Paging
  import opened Catalogue

  /** A price bound. `Math.min()` and `Math.max()` of no prices are `Infinity` and
      `-Infinity`, so a bound is an integer or one of the two infinities. */
  datatype Limit = NegInf | Fin(n: int) | PosInf

  /** `a <= b` on bounds. */
  predicate AtMost(a: Limit, b: Limit) {
    match (a, b)
    case (NegInf, _) => true
    case (_, PosInf) => true
    case (Fin(x), Fin(y)) => x <= y
    case _ => false
  }

  datatype ShopState = ShopState(
    products: seq<Product>,
    minPrice: Limit, maxPrice: Limit,          // the sliders
    appliedMin: Limit, appliedMax: Limit,      // the range the list is filtered by
    page: int,
    searchTerm: string)

  /** The state on first render. */
  const Initial := ShopState([], Fin(0), Fin(0), Fin(0), Fin(0), 1, "")

  /** `Math.min(...products.map(p => p.price))`. */
  function LowestPrice(products: seq<Product>): (r: Limit)
    ensures |products| == 0 ==> r == PosInf
    ensures |products| > 0 ==> r.Fin? && (exists i :: 0 <= i < |products| && products[i].price == r.n)
    ensures forall i :: 0 <= i < |products| ==> AtMost(r, Fin(products[i].price))
  {
    if |products| == 0 then PosInf
    else
      var rest := LowestPrice(products[1..]);
      if rest.Fin? && rest.n < products[0].price then rest else Fin(products[0].price)
  }

  /** `Math.max(...products.map(p => p.price))`. */
  function HighestPrice(products: seq<Product>): (r: Limit)
    ensures |products| == 0 ==> r == NegInf
    ensures |products| > 0 ==> r.Fin? && (exists i :: 0 <= i < |products| && products[i].price == r.n)
    ensures forall i :: 0 <= i < |products| ==> AtMost(Fin(products[i].price), r)
  {
    if |products| == 0 then NegInf
    else
      var rest := HighestPrice(products[1..]);
      if rest.Fin? && rest.n > products[0].price then rest else Fin(products[0].price)
  }

  /** The price test of the filter. */
  predicate InRange(p: Product, lo: Limit, hi: Limit) {
    AtMost(lo, Fin(p.price)) && AtMost(Fin(p.price), hi)
  }

  function RangeKeep(lo: Limit, hi: Limit): Product -> bool {
    (p: Product) => InRange(p, lo, hi)
  }

  /** `filteredProducts`: the products within the applied range that match the
      search term, in catalogue order. */
  function Filtered(st: ShopState): (r: seq<Product>)
    ensures Seqs.SubseqOf(r, st.products)
    ensures forall i :: 0 <= i < |r| ==> InRange(r[i], st.appliedMin, st.appliedMax) && MatchesSearch(r[i], st.searchTerm)
    ensures forall i :: 0 <= i < |st.products| &&
              InRange(st.products[i], st.appliedMin, st.appliedMax) && MatchesSearch(st.products[i], st.searchTerm)
              ==> st.products[i] in r
    ensures forall i :: 0 <= i < |st.products| ==>
              multiset(r)[st.products[i]] ==
                if InRange(st.products[i], st.appliedMin, st.appliedMax) && MatchesSearch(st.products[i], st.searchTerm)
                then multiset(st.products)[st.products[i]] else 0
  {
    Seqs.FilterChain(st.products, RangeKeep(st.appliedMin, st.appliedMax), SearchKeep(st.searchTerm));
    Seqs.Filter(Seqs.Filter(st.products, RangeKeep(st.appliedMin, st.appliedMax)), SearchKeep(st.searchTerm))
  }

  /** An empty search term leaves only the price test. */
  lemma EmptySearchKeepsRange(st: ShopState)
    requires st.searchTerm == ""
    ensures Filtered(st) == Seqs.Filter(st.products, RangeKeep(st.appliedMin, st.appliedMax))
  {
    var ranged := Seqs.Filter(st.products, RangeKeep(st.appliedMin, st.appliedMax));
    Seqs.FilterKeepsAll(ranged, SearchKeep(""));
  }

  /** `paginatedProducts`. */
  function Paginated(st: ShopState): (r: seq<Product>)
    ensures st.page >= 1 ==> |r| <= ItemsPerPage
  {
    PageOf(Filtered(st), st.page)
  }

  /** `totalPages`: the pages of the shown list that are not empty are exactly
      1 through this count. */
  function PageCount(st: ShopState): (r: nat)
    ensures forall page :: 1 <= page ==> (|PageOf(Filtered(st), page)| > 0 <==> page <= r)
  {
    PagesNonEmptyIff(Filtered(st));
    TotalPages(|Filtered(st)|)
  }

  function GoToNextPage(st: ShopState): (r: ShopState)
    ensures r == st.(page := r.page)
    ensures st.page <= r.page <= st.page + 1
    ensures r.page == st.page + 1 <==> st.page < PageCount(st)
    ensures st.page <= r.page <= Max(st.page, PageCount(st))
  {
    st.(page := NextPage(st.page, PageCount(st)))
  }

  function GoToPrevPage(st: ShopState): (r: ShopState)
    ensures r == st.(page := r.page)
    ensures st.page - 1 <= r.page <= st.page
    ensures r.page == st.page - 1 <==> st.page > 1
    ensures st.page >= 1 ==> 1 <= r.page <= st.page
  {
    st.(page := PrevPage(st.page))
  }

  /** `handleMinPriceChange`: the lower slider moves only to a value not above the upper one. */
  function ChangeMinPrice(st: ShopState, value: int): (r: ShopState)
    ensures r == st.(minPrice := r.minPrice)
    ensures r.minPrice == (if AtMost(Fin(value), st.maxPrice) then Fin(value) else st.minPrice)
  {
    if AtMost(Fin(value), st.maxPrice) then st.(minPrice := Fin(value)) else st
  }

  /** `handleMaxPriceChange`: the upper slider moves only to a value not below the lower one. */
  function ChangeMaxPrice(st: ShopState, value: int): (r: ShopState)
    ensures r == st.(maxPrice := r.maxPrice)
    ensures r.maxPrice == (if AtMost(st.minPrice, Fin(value)) then Fin(value) else st.maxPrice)
  {
    if AtMost(st.minPrice, Fin(value)) then st.(maxPrice := Fin(value)) else st
  }

  /** The sliders never cross. */
  predicate SlidersOrdered(st: ShopState) {
    AtMost(st.minPrice, st.maxPrice)
  }

  lemma SliderChangesKeepOrder(st: ShopState, value: int)
    requires SlidersOrdered(st)
    ensures SlidersOrdered(ChangeMinPrice(st, value))
    ensures SlidersOrdered(ChangeMaxPrice(st, value))
  {
  }

  /** `applyPriceFilter`: the sliders become the applied range, back to page 1. */
  function ApplyPriceFilter(st: ShopState): (r: ShopState)
    ensures r.appliedMin == st.minPrice && r.appliedMax == st.maxPrice && r.page == 1
    ensures r.products == st.products && r.minPrice == st.minPrice && r.maxPrice == st.maxPrice
    ensures r.searchTerm == st.searchTerm
  {
    st.(appliedMin := st.minPrice, appliedMax := st.maxPrice, page := 1)
  }

  /** `resetFilters` (and the price part of the load): sliders and applied range
      all become the lowest and highest product price, back to page 1. */
  function ResetFilters(st: ShopState): (r: ShopState)
    ensures r.products == st.products && r.searchTerm == st.searchTerm && r.page == 1
    ensures r.minPrice == r.appliedMin == LowestPrice(st.products)
    ensures r.maxPrice == r.appliedMax == HighestPrice(st.products)
  {
    var lo, hi := LowestPrice(st.products), HighestPrice(st.products);
    st.(minPrice := lo, maxPrice := hi, appliedMin := lo, appliedMax := hi, page := 1)
  }

  /** After a reset over a non-empty catalogue every product is within range, so
      with no search term the list shows the whole catalogue again. */
  lemma ResetShowsEverything(st: ShopState)
    requires st.searchTerm == "" && |st.products| > 0
    ensures SlidersOrdered(ResetFilters(st))
    ensures Filtered(ResetFilters(st)) == st.products
  {
    var r := ResetFilters(st);
    assert SlidersOrdered(r) by {
      var i :| 0 <= i < |st.products| && st.products[i].price == r.minPrice.n;
      assert AtMost(Fin(st.products[i].price), r.maxPrice);
    }
    assert Seqs.Filter(st.products, RangeKeep(r.appliedMin, r.appliedMax)) == st.products by {
      assert forall i :: 0 <= i < |st.products| ==> RangeKeep(r.appliedMin, r.appliedMax)(st.products[i]);
      Seqs.FilterKeepsAll(st.products, RangeKeep(r.appliedMin, r.appliedMax));
    }
    EmptySearchKeepsRange(r);
  }

  /** Over an empty catalogue the reset leaves the lower slider at `Infinity` and the
      upper one at `-Infinity`: the sliders are crossed. */
  lemma ResetOfEmptyCatalogueCrossesSliders(st: ShopState)
    requires |st.products| == 0
    ensures !SlidersOrdered(ResetFilters(st))
  {
  }

  /** `handleSearchChange`: a new term, back to page 1. */
  function ChangeSearch(st: ShopState, term: string): (r: ShopState)
    ensures r == st.(searchTerm := r.searchTerm, page := r.page)
    ensures r.searchTerm == term && r.page == 1
    ensures forall i :: 0 <= i < |Paginated(r)| ==> MatchesSearch(Paginated(r)[i], term)
    ensures Paginated(r) == Filtered(r)[..Min(ItemsPerPage, |Filtered(r)|)]
  {
    st.(searchTerm := term, page := 1)
  }

  /** The clear button of the search box: only the term is cleared. */
  function ClearSearch(st: ShopState): (r: ShopState)
    ensures r == st.(searchTerm := r.searchTerm) && r.searchTerm == ""
    ensures Filtered(r) == Seqs.Filter(st.products, RangeKeep(st.appliedMin, st.appliedMax))
  {
    EmptySearchKeepsRange(st.(searchTerm := ""));
    st.(searchTerm := "")
  }

  /** Clearing the term only widens the list, so a page that was reachable stays
      reachable even though the clear button does not go back to page 1. */
  lemma ClearSearchKeepsPageReachable(st: ShopState)
    requires ReachablePage(st.page, PageCount(st))
    ensures |Filtered(st)| <= |Filtered(ClearSearch(st))|
    ensures ReachablePage(ClearSearch(st).page, PageCount(ClearSearch(st)))
  {
    var lo, hi := st.appliedMin, st.appliedMax;
    var cleared := ClearSearch(st);
    var ranged := Seqs.Filter(st.products, RangeKeep(lo, hi));
    EmptySearchKeepsRange(cleared);
    Seqs.FilterIsSubseq(ranged, SearchKeep(st.searchTerm));
    Seqs.SubseqNotLonger(Filtered(st), ranged);
    TotalPagesMonotone(|Filtered(st)|, |Filtered(cleared)|);
  }

  /** A new term shows the first nine matches. */
  lemma ChangeSearchShowsFirstMatches(st: ShopState, term: string)
    ensures Paginated(ChangeSearch(st, term)) ==
              Filtered(ChangeSearch(st, term))[..Min(ItemsPerPage, |Filtered(ChangeSearch(st, term))|)]
  {
  }

  /** The page-number buttons. */
  function SelectPage(st: ShopState, num: int): (r: ShopState)
    requires num in PageButtons(PageCount(st))
    ensures 1 <= r.page <= PageCount(st)
    ensures r == st.(page := num)
  {
    st.(page := num)
  }

  /** The mount effect `GET /products`: an array becomes the catalogue and sets the
      sliders and applied range to its price extremes; a non-array payload
      (`None`) or a failure leaves the state alone. The page is not reset. */
  function LoadProducts(st: ShopState, res: Remote<Option<seq<Product>>>): (r: ShopState)
    ensures res.Err? || res.value.None? ==> r == st
    ensures res.Ok? && res.value.Some? ==>
              r.products == res.value.value && r.page == st.page && r.searchTerm == st.searchTerm &&
              r.minPrice == r.appliedMin == LowestPrice(r.products) &&
              r.maxPrice == r.appliedMax == HighestPrice(r.products)
  {
    match res
    case Ok(Some(ps)) =>
      var lo, hi := LowestPrice(ps), HighestPrice(ps);
      st.(products := ps, minPrice := lo, maxPrice := hi, appliedMin := lo, appliedMax := hi)
    case _ => st
  }

  /** The first successful load of a non-empty catalogue shows all of it, nine per page. */
  lemma FirstLoadShowsCatalogue(ps: seq<Product>)
    requires |ps| > 0
    ensures Filtered(LoadProducts(Initial, Ok(Some(ps)))) == ps
    ensures Pages(ps, TotalPages(|ps|)) == ps
  {
    var st := LoadProducts(Initial, Ok(Some(ps)));
    assert st == ResetFilters(Initial.(products := ps)).(page := 1);
    ResetShowsEverything(Initial.(products := ps));
    PagesCoverList(ps);
  }
}

=== FILE: sidebar.dfy ===
/** The chat contact list, `src/pages/Chat/Sidebar.jsx`: the users shown with
    or without the online-only filter, the online count in its header, which
    entry is highlighted, and each entry's status line. */
module Sidebar {
  import opened Outcomes
  import Seqs

  /** A contact as the user list returns it; only the id and name are read. */
  datatype ChatUser = ChatUser(id: string, fullName: string)

  function OnlineKeep(online: seq<string>): ChatUser -> bool {
    (u: ChatUser) => u.id in online
  }

  /** `filteredUsers`: every user with the filter off, otherwise the users whose
      id is among the online ids, in the list's order. */
  function FilteredUsers(users: seq<ChatUser>, online: seq<string>, onlineOnly: bool): (r: seq<ChatUser>)
    ensures !onlineOnly ==> r == users
    ensures Seqs.SubseqOf(r, users)
    ensures onlineOnly ==> forall i :: 0 <= i < |r| ==> r[i].id in online
    ensures onlineOnly ==> forall i :: 0 <= i < |users| && users[i].id in online ==> users[i] in r
    ensures onlineOnly ==> forall i :: 0 <= i < |users| ==>
              multiset(r)[users[i]] == if users[i].id in online then multiset(users)[users[i]] else 0
  {
    if onlineOnly then
      Seqs.FilterIsSubseq(users, OnlineKeep(online));
      Seqs.FilterCounts(users, OnlineKeep(online));
      Seqs.Filter(users, OnlineKeep(online))
    else
      Seqs.FilterKeepsAll(users, (u: ChatUser) => true);
      Seqs.FilterIsSubseq(users, (u: ChatUser) => true);
      users
  }

  /** The entry's status line. */
  function Status(u: ChatUser, online: seq<string>): (r: string)
    ensures r == "Online" <==> u.id in online
    ensures r == "Online" || r == "Offline"
  {
    if u.id in online then "Online" else "Offline"
  }

  /** Every entry of the online-only list reads "Online". */
  lemma OnlineOnlyListAllOnline(users: seq<ChatUser>, online: seq<string>)
    ensures forall i :: 0 <= i < |FilteredUsers(users, online, true)| ==>
              Status(FilteredUsers(users, online, true)[i], online) == "Online"
  {
  }

  /** The "No online users" notice is drawn whenever the list is empty. */
  predicate ShowsEmptyNotice(users: seq<ChatUser>, online: seq<string>, onlineOnly: bool) {
    |FilteredUsers(users, online, onlineOnly)| == 0
  }

  /** With the filter on, the notice means nobody in the list is online; with it
      off, it appears exactly when the list itself is empty. */
  lemma EmptyNoticeIff(users: seq<ChatUser>, online: seq<string>, onlineOnly: bool)
    ensures onlineOnly ==> (ShowsEmptyNotice(users, online, onlineOnly) <==> forall i :: 0 <= i < |users| ==> users[i].id !in online)
    ensures !onlineOnly ==> (ShowsEmptyNotice(users, online, onlineOnly) <==> |users| == 0)
  {
    if onlineOnly && !ShowsEmptyNotice(users, online, onlineOnly) {
      var r := FilteredUsers(users, online, true);
      assert r[0] in users;
    }
  }

  /** `selectedUser?._id === user._id`: the entry is highlighted. */
  predicate Highlighted(u: ChatUser, selected: Option<ChatUser>) {
    selected.Some? && selected.value.id == u.id
  }

  /** Clicking an entry selects that user; when ids are distinct, it is then the
      only highlighted entry. */
  lemma ClickHighlightsOnlyIt(users: seq<ChatUser>, k: nat)
    requires k < |users|
    requires forall i, j :: 0 <= i < j < |users| ==> users[i].id != users[j].id
    ensures forall i :: 0 <= i < |users| ==> (Highlighted(users[i], Some(users[k])) <==> i == k)
  {
  }

  /** The header count, as written: the number of online ids less one, meant to
      leave out the viewer. */
  function OnlineCountAsWritten(online: seq<string>): (r: int)
    ensures r < 0 <==> |online| == 0
  {
    |online| - 1
  }

  /** Before any online list has arrived the list is empty, and the header reads
      "(-1 online)". */
  lemma EmptyOnlineListCountsMinusOne()
    ensures OnlineCountAsWritten([]) == -1
  {
  }

  function OtherThanSelf(selfId: string): string -> bool {
    (id: string) => id != selfId
  }

  /** The count the header evidently means: the online ids that are not the
      viewer's own. */
  function OnlineCount(online: seq<string>, selfId: string): (r: nat)
    ensures r <= |online|
    ensures r + multiset(online)[selfId] == |online|
  {
    FilterOutCount(online, selfId);
    |Seqs.Filter(online, OtherThanSelf(selfId))|
  }

  /** Dropping every copy of `s` shortens the list by the number of copies. */
  lemma {:induction false} FilterOutCount(xs: seq<string>, s: string)
    ensures |Seqs.Filter(xs, OtherThanSelf(s))| + multiset(xs)[s] == |xs|
  {
    if |xs| > 0 {
      FilterOutCount(xs[1..], s);
      assert xs == [xs[0]] + xs[1..];
      assert multiset(xs) == multiset([xs[0]]) + multiset(xs[1..]);
    }
  }

  /** The corrected count agrees with the written one whenever the viewer is
      listed exactly once, and is zero, not negative, when nobody is listed. */
  lemma CountsAgreeWhenSelfListedOnce(online: seq<string>, selfId: string)
    ensures multiset(online)[selfId] == 1 ==> OnlineCount(online, selfId) == OnlineCountAsWritten(online)
    ensures OnlineCount([], selfId) == 0
  {
  }
}

=== FILE: sign_up.dfy ===
/** The sign-up form, `src/pages/Auth/SignUpPage.jsx`: five checks tried in a
    fixed order, the first failing one reported, and the sign-up request made only
    when every check passes. */
module SignUp {
  import opened Text

  datatype SignUpForm = SignUpForm(fullName: string, email: string, password: string)

  /** The checks, each named by what it refuses. */
  datatype Rule = NameRequired | EmailRequired | InvalidGmail | PasswordRequired | PasswordTooShort

  /** The order the checks are tried in. */
  const Rules: seq<Rule> := [NameRequired, EmailRequired, InvalidGmail, PasswordRequired, PasswordTooShort]

  const MinPasswordLength: nat := 6

  /** `[a-zA-Z0-9._%+-]`. */
  predicate IsLocalChar(c: char) {
    ('a' <= c <= 'z') || ('A' <= c <= 'Z') || ('0' <= c <= '9') ||
    c == '.' || c == '_' || c == '%' || c == '+' || c == '-'
  }

  const GmailSuffix: string := "@gmail.com"

  /** `/^[a-zA-Z0-9._%+-]+@gmail\.com$/`: one or more local-part characters
      followed by "@gmail.com" and nothing else. */
  predicate IsGmailAddress(s: string) {
    |s| > |GmailSuffix| && EndsWith(s, GmailSuffix)
    && forall i :: 0 <= i < |s| - |GmailSuffix| ==> IsLocalChar(s[i])
  }

  /** The pattern matched the way a regular-expression engine runs it: take the
      longest run of local-part characters, then require the literal suffix. No
      backtracking is needed, because "@" is not a local-part character. */
  method MatchGmail(s: string) returns (ok: bool)
    ensures ok == IsGmailAddress(s)
  {
    var i := 0;
    while i < |s| && IsLocalChar(s[i])
      invariant 0 <= i <= |s|
      invariant forall k :: 0 <= k < i ==> IsLocalChar(s[k])
    {
      i := i + 1;
    }
    ok := i >= 1 && s[i..] == GmailSuffix;
    if IsGmailAddress(s) {
      assert s[|s| - |GmailSuffix|] == '@';
      assert i == |s| - |GmailSuffix|;
    }
  }

  /** Whether `rule` refuses the form, as the source tests it: the name and the
      email are trimmed before the emptiness tests, but the pattern is applied to
      the email as typed. */
  predicate Fails(f: SignUpForm, rule: Rule) {
    match rule
    case NameRequired => Trim(f.fullName) == ""
    case EmailRequired => Trim(f.email) == ""
    case InvalidGmail => !IsGmailAddress(f.email)
    case PasswordRequired => f.password == ""
    case PasswordTooShort => |f.password| < MinPasswordLength
  }

  datatype Verdict = Valid | Refused(rule: Rule)

  /** The first failing rule of a rule list: the reference the form's order is checked against. */
  function FirstFailure(f: SignUpForm, rules: seq<Rule>): Verdict {
    if |rules| == 0 then Valid
    else if Fails(f, rules[0]) then Refused(rules[0])
    else FirstFailure(f, rules[1..])
  }

  /** The first failure is a failing rule with no failing rule before it, and there
      is none exactly when no rule fails. */
  lemma {:induction false} FirstFailureIsFirst(f: SignUpForm, rules: seq<Rule>)
    ensures FirstFailure(f, rules).Valid? <==> forall i :: 0 <= i < |rules| ==> !Fails(f, rules[i])
    ensures FirstFailure(f, rules).Refused? ==>
              exists k :: 0 <= k < |rules| && rules[k] == FirstFailure(f, rules).rule && Fails(f, rules[k]) &&
                          forall j :: 0 <= j < k ==> !Fails(f, rules[j])
  {
    if |rules| > 0 && !Fails(f, rules[0]) {
      FirstFailureIsFirst(f, rules[1..]);
      if FirstFailure(f, rules).Refused? {
        var k :| 0 <= k < |rules[1..]| && rules[1..][k] == FirstFailure(f, rules[1..]).rule && Fails(f, rules[1..][k]) &&
                 forall j :: 0 <= j < k ==> !Fails(f, rules[1..][j]);
        assert forall j :: 1 <= j < k + 1 ==> rules[j] == rules[1..][j - 1];
        assert rules[k + 1] == rules[1..][k];
      } else {
        assert forall i :: 1 <= i < |rules| ==> rules[i] == rules[1..][i - 1];
      }
    } else if |rules| > 0 {
      assert rules[0] == FirstFailure(f, rules).rule;
    }
  }

  /** `validateForm`: the first rule, in the order above, that refuses the form,
      or `Valid` (the literal `true`) when none does. */
  function Validate(f: SignUpForm): (r: Verdict)
    ensures r.Valid? <==> forall i :: 0 <= i < |Rules| ==> !Fails(f, Rules[i])
    ensures r.Refused? ==>
              exists k :: 0 <= k < |Rules| && Rules[k] == r.rule && Fails(f, Rules[k]) &&
                          forall j :: 0 <= j < k ==> !Fails(f, Rules[j])
  {
    FirstFailureIsFirst(f, Rules);
    FirstFailure(f, Rules)
  }

  /** Written out, the rule list is the source's chain of early returns. */
  lemma ValidateIsTheChain(f: SignUpForm)
    ensures Validate(f) ==
              if Fails(f, NameRequired) then Refused(NameRequired)
              else if Fails(f, EmailRequired) then Refused(EmailRequired)
              else if Fails(f, InvalidGmail) then Refused(InvalidGmail)
              else if Fails(f, PasswordRequired) then Refused(PasswordRequired)
              else if Fails(f, PasswordTooShort) then Refused(PasswordTooShort)
              else Valid
  {
    var r4: seq<Rule> := [PasswordTooShort];
    var r3 := [PasswordRequired] + r4;
    var r2 := [InvalidGmail] + r3;
    var r1 := [EmailRequired] + r2;
    assert Rules == [NameRequired] + r1;
    assert FirstFailure(f, r4) == if Fails(f, PasswordTooShort) then Refused(PasswordTooShort) else FirstFailure(f, []);
    assert FirstFailure(f, r3) == if Fails(f, PasswordRequired) then Refused(PasswordRequired) else FirstFailure(f, r4);
    assert FirstFailure(f, r2) == if Fails(f, InvalidGmail) then Refused(InvalidGmail) else FirstFailure(f, r3);
    assert FirstFailure(f, r1) == if Fails(f, EmailRequired) then Refused(EmailRequired) else FirstFailure(f, r2);
    assert FirstFailure(f, Rules) == if Fails(f, NameRequired) then Refused(NameRequired) else FirstFailure(f, r1);
  }

  /** `handleSubmit`: the sign-up request is made only for `Valid`. */
  function Submit(f: SignUpForm): (signUpSent: bool)
    ensures signUpSent <==> Validate(f).Valid?
  {
    Validate(f) == Valid
  }

  /** A name of white space only is refused before anything else is looked at. */
  lemma BlankNameRefused(f: SignUpForm)
    requires AllSpace(f.fullName)
    ensures Validate(f) == Refused(NameRequired)
  {
    ValidateIsTheChain(f);
  }

  /** An email with white space around it passes the emptiness test but fails the
      pattern, since the pattern sees the untrimmed text. */
  lemma PaddedEmailRefused(f: SignUpForm)
    requires !AllSpace(f.fullName) && !AllSpace(f.email)
    requires |f.email| > 0 && (IsSpace(f.email[0]) || IsSpace(f.email[|f.email| - 1]))
    ensures Validate(f) == Refused(InvalidGmail)
  {
    var e := f.email;
    assert !IsGmailAddress(e) by {
      if IsSpace(e[0]) {
        assert !IsLocalChar(e[0]);
      } else {
        assert e[|e| - 1] != 'm';
        if |GmailSuffix| <= |e| {
          assert e[|e| - |GmailSuffix|..][|GmailSuffix| - 1] == e[|e| - 1];
        }
      }
    }
    ValidateIsTheChain(f);
  }

  /** Six characters is the shortest password accepted. */
  lemma PasswordLengthBoundary(name: string, email: string, password: string)
    requires !AllSpace(name) && IsGmailAddress(email)
    ensures |password| >= 6 ==> Validate(SignUpForm(name, email, password)) == Valid
    ensures 1 <= |password| < 6 ==> Validate(SignUpForm(name, email, password)) == Refused(PasswordTooShort)
    ensures password == "" ==> Validate(SignUpForm(name, email, password)) == Refused(PasswordRequired)
  {
    assert email[0] != ' ' by {
      assert IsLocalChar(email[0]);
    }
    assert !AllSpace(email);
    ValidateIsTheChain(SignUpForm(name, email, password));
  }

  /** A plain Gmail address is accepted and a non-Gmail one refused. */
  lemma GmailExamples()
    ensures IsGmailAddress("jo.doe+farm@gmail.com")
    ensures !IsGmailAddress("jo@yahoo.com")
    ensures !IsGmailAddress("@gmail.com")
  {
    assert "jo.doe+farm@gmail.com"[11..] == GmailSuffix;
    assert "jo@yahoo.com"[2..] != GmailSuffix;
  }
}

=== FILE: text.dfy ===
/** The JavaScript string operations the pages rely on, over ASCII:
    `toLowerCase`, `includes`, `trim`, `endsWith`. */
module Text {

  predicate IsUpper(c: char) {
    'A' <= c <= 'Z'
  }

  /** `toLowerCase` of one character (ASCII letters only). */
  function LowerChar(c: char): (r: char)
    ensures !IsUpper(r)
    ensures IsUpper(c) ==> r as int == c as int + 32
    ensures !IsUpper(c) ==> r == c
  {
    if IsUpper(c) then (c as int + 32) as char else c
  }

  /** `s.toLowerCase()`: same length, every letter folded to lower case. */
  function Lower(s: string): (r: string)
    ensures |r| == |s|
    ensures forall i :: 0 <= i < |r| ==> !IsUpper(r[i])
  {
    seq(|s|, i requires 0 <= i < |s| => LowerChar(s[i]))
  }

  /** A string without capitals is its own lower-case form. */
  lemma LowerKeepsFolded(s: string)
    requires forall i :: 0 <= i < |s| ==> !IsUpper(s[i])
    ensures Lower(s) == s
  {
  }

  /** Folding an already folded string changes nothing. */
  lemma LowerIdempotent(s: string)
    ensures Lower(Lower(s)) == Lower(s)
  {
  }

  /** `needle` occurs in `hay` starting at index `i`. */
  predicate OccursAt(hay: string, needle: string, i: int) {
    0 <= i && i + |needle| <= |hay| && hay[i..i + |needle|] == needle
  }

  predicate StartsWith(s: string, prefix: string) {
    |prefix| <= |s| && s[..|prefix|] == prefix
  }

  /** `hay.includes(needle)`, scanning the start positions left to right. */
  predicate Includes(hay: string, needle: string)
    decreases |hay|
  {
    StartsWith(hay, needle) || (|hay| > 0 && Includes(hay[1..], needle))
  }

  /** The scan finds exactly the needles that occur somewhere in the haystack. */
  lemma {:induction false} IncludesIffOccurs(hay: string, needle: string)
    ensures Includes(hay, needle) <==> exists i :: OccursAt(hay, needle, i)
  {
    if StartsWith(hay, needle) {
      assert OccursAt(hay, needle, 0);
    } else if |hay| == 0 {
    } else {
      IncludesIffOccurs(hay[1..], needle);
      if Includes(hay[1..], needle) {
        var i :| OccursAt(hay[1..], needle, i);
        assert hay[1..][i..i + |needle|] == hay[i + 1..i + 1 + |needle|];
        assert OccursAt(hay, needle, i + 1);
      }
      assert |needle| <= |hay| ==> hay[..|needle|] == hay[0..|needle|];
      if exists i :: OccursAt(hay, needle, i) {
        var i :| OccursAt(hay, needle, i);
        assert i != 0;
        assert hay[1..][i - 1..i - 1 + |needle|] == hay[i..i + |needle|];
        assert OccursAt(hay[1..], needle, i - 1);
      }
    }
  }

  /** Every string includes the empty string, so an empty search matches all. */
  lemma IncludesEmpty(hay: string)
    ensures Includes(hay, "")
  {
    assert StartsWith(hay, "");
  }

  /** `s.endsWith(suffix)`. */
  predicate EndsWith(s: string, suffix: string) {
    |suffix| <= |s| && s[|s| - |suffix|..] == suffix
  }

  /** The ASCII characters `String.prototype.trim` strips. */
  predicate IsSpace(c: char) {
    c == ' ' || c == '\t' || c == '\n' || c == '\r' || c as int == 11 || c as int == 12
  }

  predicate AllSpace(s: string) {
    forall i :: 0 <= i < |s| ==> IsSpace(s[i])
  }

  /** Drops the leading white space: the result is the suffix after it. */
  function TrimStart(s: string): (r: string)
    ensures |r| <= |s| && r == s[|s| - |r|..]
    ensures AllSpace(s[..|s| - |r|])
    ensures |r| > 0 ==> !IsSpace(r[0])
  {
    if |s| > 0 && IsSpace(s[0]) then
      var r := TrimStart(s[1..]);
      assert forall i :: 1 <= i < |s| - |r| ==> s[i] == s[1..][i - 1];
      r
    else s
  }

  /** Drops the trailing white space: the result is the prefix before it. */
  function TrimEnd(s: string): (r: string)
    ensures |r| <= |s| && r == s[..|r|]
    ensures AllSpace(s[|r|..])
    ensures |r| > 0 ==> !IsSpace(r[|r| - 1])
  {
    if |s| > 0 && IsSpace(s[|s| - 1]) then
      var r := TrimEnd(s[..|s| - 1]);
      assert forall i :: |r| <= i < |s| - 1 ==> s[i] == s[..|s| - 1][i];
      r
    else s
  }

  /** What the two trims promise is enough: a suffix `t` of `s` after white
      space, cut down to a prefix `r` before white space, is empty exactly when
      `s` is all white space, and is the piece of `s` starting where `t` does. */
  lemma TrimPieces(s: string, t: string, r: string)
    requires |t| <= |s| && t == s[|s| - |t|..] && AllSpace(s[..|s| - |t|])
    requires |t| > 0 ==> !IsSpace(t[0])
    requires |r| <= |t| && r == t[..|r|] && AllSpace(t[|r|..])
    ensures |r| == 0 <==> AllSpace(s)
    ensures |r| > 0 ==> !IsSpace(r[0])
    ensures OccursAt(s, r, |s| - |t|)
  {
    var k := |s| - |t|;
    if |r| == 0 {
      assert t[|r|..] == t;
      assert |t| == 0;
      assert s[..k] == s;
    } else {
      assert r[0] == t[0] == s[k];
    }
    assert s[k..k + |r|] == r;
  }

  /** `s.trim()`: a contiguous piece of `s` with no white space at either end,
      empty exactly when `s` is all white space. */
  function Trim(s: string): (r: string)
    ensures |r| == 0 <==> AllSpace(s)
    ensures |r| > 0 ==> !IsSpace(r[0]) && !IsSpace(r[|r| - 1])
    ensures exists k :: OccursAt(s, r, k)
  {
    var t := TrimStart(s);
    TrimPieces(s, t, TrimEnd(t));
    TrimEnd(t)
  }
}
